=== FILE: README.md ===
# BauApp rules, modelled in Dafny

BauApp is an app for reporting from construction sites. Its backend is a Flask server over SQLite and its front end is a React app. This project models the rules underneath the pages, stores and request handlers, and proves what they promise:

- **Working time.** A shift's hours come from two `HH:MM` clocks and a break, counted in minutes. A week is the seven dates from its Monday. The worker timesheet and the admin timesheet are modelled separately, because each computes its totals in its own way.
- **Reports.** This covers the open-hint classifier, the newest-first reductions and sorts, and the search and status filters of the dashboard, the report list and the project list.
- **Page and store state.** Each page's handlers change the page's state, and each store's actions change the store's fields. These are Dafny classes whose methods state the new state in full. The stores are the interface store, the sign-in store and the project store. The pages are users, manual timesheet entries, the new-report form, the header's dropdowns, the photo lightbox, settings, and the admin's new-project dialog.
- **Access and navigation.** This covers the route guard, the role-dependent navigation lists, the backend's Bearer-token and solo-mode gate, and the per-project access check for workers.
- **Backend input handling.** This covers the login input check, the status whitelist, the PATCH field whitelist, the lenient parsing of quick actions and optional integers, URL joining and the PDF file name.

Some values come from outside the program: a server reply, a database row, the current time, a generated id, a decoded token or a file read. Each is a parameter. A server reply is a `Response`: the request either threw, or a reply arrived with its `ok` flag and its parsed body. Dates are day numbers counted from 1 January 1970, and creation times are milliseconds.

The modules follow the source files. `Seqs`, `Text`, `Numbers`, `Wrappers`, `Types`, `Fetch`, `Calendar`, `TimeArith` and `Notifications` hold the definitions that several files share.

## Model

| member | source | states |
|---|---|---|
| BackendApp.IntString | backend/app.py:643-645 | `str()` of an integer is never the empty text |
| BackendApp.ParseInt | backend/app.py:645 | `int()` of a text yields a number exactly when the stripped text is a run of decimal digits with at most one leading sign; anything else (a blank, a word, a decimal) is refused |
| BackendApp.ParseIntValue | backend/app.py:645 | the number `int()` reads is the decimal value of the digits, negated after a leading minus |
| BackendApp.ParseSigned | backend/app.py:645 | a sign and digits are read only from a non-empty text |
| BackendApp.ParseDigits | backend/app.py:645 | a plain digit string reads back as its decimal value |
| BackendApp.ParseMinusDigits | backend/app.py:645 | a minus sign followed by digits reads back as the negated value |
| BackendApp.ParseIntString | backend/app.py:643-656 | any integer printed with `str()` and read back with `int()` is the same integer |
| BackendApp.ParseIntRefusesWord | backend/app.py:642-654 | a word sent for a number is refused by `int()` |
| BackendApp.ParseIntRefusesDecimal | backend/app.py:642-654 | a decimal such as 7.5 sent as text is refused by `int()` |
| BackendApp.ParseIntRefusesInnerSpace | backend/app.py:642-654 | two numbers separated by a space are refused by `int()` |
| BackendApp.ParseIntReadsPlus | backend/app.py:642-654 | a number with a leading plus sign is read as that number |
| BackendApp.ParseIntReadsPadded | backend/app.py:642-654 | a number with surrounding spaces is read as that number |
| BackendApp.MakeUrlShape | backend/app.py:30-32 | an upload URL is the host without trailing slashes, exactly one slash, and the path with backslashes turned into slashes and no leading slash; only slashes are taken off the host |
| BackendApp.NoBackslashLeft | backend/app.py:31 | the normalised upload path holds no backslash |
| BackendApp.LoginInput | backend/app.py:73-78 | the login input check refuses only with 400, and lets through a non-empty trimmed username with a truthy password |
| BackendApp.LoginInputRefuses | backend/app.py:74-78 | a login is refused with 400 exactly when the username is blank or the password empty; otherwise the trimmed username is used |
| BackendApp.StatusField | backend/app.py:320-324 | the created project's status is always one of the four known ones; a known trimmed status is kept, and a missing, empty or unknown one becomes `active` |
| BackendApp.CreateProject | backend/app.py:310-355 | only an admin may create (else 403); a value that is not text crashes the request; the request is refused with 400 exactly when name, address or customer name is blank; otherwise it succeeds exactly when the assigned workers can be iterated and every worker id they yield can be bound by sqlite (a list holding a list or an object crashes in the assignment INSERT), and the stored fields are the trimmed request values, the status defaulted, an empty description or image stored as NULL, and the workers answered as `list()` of the request value (a text as its characters), or an empty list when missing |
| BackendApp.ListOf | backend/app.py:354 | `list()` of a text is the list of its one-character texts in order, and of a list the list itself |
| BackendApp.PatchedStatus | backend/app.py:388-393 | a PATCH stores a known trimmed status, and otherwise keeps the stored one |
| BackendApp.PatchSetsMembers | backend/app.py:379-408 | a PATCH sets exactly the columns the request supplies, each bound to its trimmed value (blank description or image becomes NULL) |
| BackendApp.PatchSetsShape | backend/app.py:379-408 | there is one clause per supplied column, none is set twice, and the update time is always set, last |
| BackendApp.PatchStoresStrippedName | backend/app.py:379-381 | with `str(v).strip()` as the strip, a PATCH of a name sent as text sets the stripped name and the update time, nothing else |
| BackendApp.AppendIf | backend/app.py:380-382 | one conditional append adds the clause exactly when the column is supplied |
| BackendApp.PatchAssignments | backend/app.py:376-408 | the handler's step-by-step appends build exactly the clause list `PatchSets` describes |
| BackendApp.PatchRequest | backend/app.py:360-408 | a PATCH by a non-admin is refused with 403, one with no whitelisted key gets 400, an unknown project 404; an admin PATCH with a whitelisted key on an existing project passes exactly when its assigned workers are absent, null, or iterable with worker ids sqlite can bind, and otherwise crashes in the loop over them or in its INSERT; what passes is exactly the whitelisted part of the request |
| BackendApp.QuickActionListCases | backend/app.py:603-613 | quick actions are a list as sent, or a text that parses to a list; anything else gives no actions |
| BackendApp.OptionalIntOfText | backend/app.py:642-656 | a number sent as text is stored as that number; an empty text and null are stored as no value |
| BackendApp.OptionalIntCases | backend/app.py:642-654 | a text becomes a number exactly when `int()` reads it, with the same value; an integer is kept, a truth value becomes 1 or 0, a list or an object gives no value |
| BackendApp.OptionalIntRefusesWords | backend/app.py:642-654 | a word sent as text is stored as no value |
| BackendApp.OptionalIntRefusesDecimals | backend/app.py:642-654 | a decimal sent as text is stored as no value |
| BackendApp.OptionalIntReadsPlus | backend/app.py:642-654 | a signed number sent as text is stored as that number |
| BackendApp.AccessCheck | backend/app.py:622-634 | the caller passes exactly when it is a known admin or a worker assigned to the project; an unknown user gets 401, an unassigned worker 403 |
| BackendApp.CreateReport | backend/app.py:590-660 | 400 comes exactly when the project id is empty or both text and quick actions are; past that, an unknown token gets 401, a worker not assigned to the project 403, an unknown project 404, and a caller who passes the access check on an existing project succeeds exactly when the weather is a value sqlite can bind (not a list or object), and otherwise the INSERT crashes; a stored report has the trimmed project id and text, the parsed quick actions, the caller as author, the weather as sent and the leniently parsed numbers |
| BackendApp.PdfNamesWithoutSpaces | backend/app.py:757-762 | a PDF's download name holds no space from the project name, and its middle is the project name with spaces turned into underscores |
| BackendAuth.IsLocal | backend/auth.py:7-9 | a request is local exactly when its address is `127.0.0.1` or `::1` |
| BackendAuth.AfterFirst | backend/auth.py:38 | `split(c, 1)[1]` exists exactly when the text holds `c`, and is a proper suffix of it |
| BackendAuth.AfterFirstPastPrefix | backend/auth.py:38 | the split happens at the first `c`, so a prefix without `c` is cut off whole |
| BackendAuth.BearerToken | backend/auth.py:34-38 | for a `Bearer ` header the split leaves exactly the text after `Bearer ` |
| BackendAuth.TokenGate | backend/auth.py:19-46 | the solo shortcut proceeds as the oldest admin; otherwise a header without `Bearer ` gets 401 "Token fehlt", an undecodable token 401, and a decodable one proceeds as its user |
| BackendAuth.TokenGateDecides | backend/auth.py:24-42 | every refusal is a 401; without the shortcut a request gets through exactly when it has a decodable Bearer token; with solo mode limited to local requests, a remote request is treated as if solo mode were off |
| BackendAuth.RequireAdmin | backend/auth.py:48-52 | a caller is an admin exactly when its user row exists with the role `admin` |
| Calendar.DayOfWeek | bauapp-frontend/src/pages/TimesheetPage.tsx:138 | the weekday number is always between 0 (Sunday) and 6 |
| Calendar.WeekStart | bauapp-frontend/src/pages/TimesheetPage.tsx:137-140 | the computed start is a Monday no more than six days before the date, so a Sunday belongs to the week that began six days earlier |
| Calendar.GetWeekDates | bauapp-frontend/src/pages/TimesheetPage.tsx:136-149 | the loop pushes exactly the seven dates of the week window |
| Calendar.WeekDatesShape | bauapp-frontend/src/pages/AdminTimesheetPage.tsx:133-146 | the window is seven consecutive days, starts on a Monday and holds the reference date |
| Calendar.WeekDatesOfMember | bauapp-frontend/src/pages/TimesheetPage.tsx:136-151 | every date of a window selects that same window |
| Calendar.WeekDatesShift | bauapp-frontend/src/pages/TimesheetPage.tsx:186-196 | moving the reference date by seven days moves the week start by exactly one week |
| Calendar.WeekSelection.PrevWeek | bauapp-frontend/src/pages/TimesheetPage.tsx:186-190 | the previous week button moves the reference date and the shown week back by seven days |
| Calendar.WeekSelection.NextWeek | bauapp-frontend/src/pages/TimesheetPage.tsx:192-196 | the next week button moves the reference date and the shown week forward by seven days |
| Calendar.WeekSelection.GoToCurrentWeek | bauapp-frontend/src/pages/TimesheetPage.tsx:198-200 | the reference date becomes today |
| TimeArith.ToNumber | bauapp-frontend/src/pages/TimesheetPage.tsx:157-159 | a time part is read as a number exactly when it is empty (0) or all decimal digits, which `Number()` reads the same way; see Left out for the parts `Number()` reads beyond that |
| TimeArith.ParseClock | bauapp-frontend/src/pages/TimesheetPage.tsx:157-163 | a parsed time is a non-negative number of minutes |
| TimeArith.ParseClockText | bauapp-frontend/src/pages/TimesheetPage.tsx:157-163 | parsing the `HH:MM` text of a time gives back its minutes |
| TimeArith.OutOfRangeClockAccepted | bauapp-frontend/src/pages/TimesheetPage.tsx:157-163 | there is no range check: "25:99" is read as 25 hours and 99 minutes |
| TimeArith.ShiftHours | bauapp-frontend/src/pages/TimesheetPage.tsx:155-169 | hours are given exactly when both times are set and parse; they are never negative, are 0 when the break eats the shift, and are otherwise the worked minutes divided by 60 |
| TimeArith.EightHourShift | bauapp-frontend/src/pages/AdminTimesheetPage.tsx:151-163 | 08:00 to 16:30 with a 30-minute break is 8 hours |
| TimeArith.EndBeforeStartIsZero | bauapp-frontend/src/pages/NewReportPage.tsx:156-167 | an end before the start gives 0 hours, not a negative value |
| TimeArith.ShiftWithinDay | bauapp-frontend/src/pages/TimesheetPage.tsx:155-169 | times within a day and a non-negative break give less than 24 hours |
| TimeArith.LongerBreakFewerHours | bauapp-frontend/src/pages/TimesheetPage.tsx:164-166 | a longer break never yields more hours |
| Timesheet.ReportEntriesOfUser | bauapp-frontend/src/pages/TimesheetPage.tsx:84-101 | a worker's rows all come from their own reports; an admin gets one row per report |
| Timesheet.CalculateHours | bauapp-frontend/src/pages/TimesheetPage.tsx:155-169 | a row with two readable times counts the worked minutes less the break, floored at 0, over 60 hours; otherwise its own `hours`, or 0 |
| Timesheet.ManualRowsCountZero | bauapp-frontend/src/pages/TimesheetPage.tsx:203-217 | a hand-made row has no times and no hours, so it counts 0 hours |
| Timesheet.WeeklyTotalIsSumOfWeek | bauapp-frontend/src/pages/TimesheetPage.tsx:171-183 | the weekly total is the sum of hours of exactly the rows dated in the week, each counted once |
| Timesheet.WeekDatesDistinct | bauapp-frontend/src/pages/TimesheetPage.tsx:136-149 | the seven week dates are pairwise different |
| Timesheet.AveragePerDay | bauapp-frontend/src/pages/TimesheetPage.tsx:491 | the per-day figure times five is the weekly total |
| Timesheet.MergedOrdered | bauapp-frontend/src/pages/TimesheetPage.tsx:127-133 | the merged list holds exactly the report rows and the hand-made rows, newest date first, rows of one date in their original order |
| Timesheet.TimesheetState.AddEntry | bauapp-frontend/src/pages/TimesheetPage.tsx:203-225 | without a project nothing is added; otherwise one hand-made row is appended, named after the project or 'Unbekanntes Projekt', and the form is reset |
| Timesheet.TimesheetState.SaveEdit | bauapp-frontend/src/pages/TimesheetPage.tsx:228-239 | a report row is never edited; an edited hand-made row replaces every row with its id; the dialog closes |
| Timesheet.TimesheetState.DeleteEntry | bauapp-frontend/src/pages/TimesheetPage.tsx:242-250 | an id that no hand-made row has changes nothing; otherwise exactly the rows with that id go |
| Timesheet.DeleteRemovesExactly | bauapp-frontend/src/pages/TimesheetPage.tsx:248 | after a delete no row has the id, every other row is kept, and the order is unchanged |
| Timesheet.SaveEditReplacesExactly | bauapp-frontend/src/pages/TimesheetPage.tsx:236 | a saved edit keeps the length and replaces exactly the rows with the edited id |
| AdminTimesheet.EntryOfReport | bauapp-frontend/src/pages/AdminTimesheetPage.tsx:78-92 | an entry is dated on the calendar day of its report's timestamp, is named `report-` and the report's id, keeps the report's user, project id, break and text, takes its times from the report or empty ones, and names its project by the report's project name, else the project list's name for the id, else the id itself |
| AdminTimesheet.CalculateHours | bauapp-frontend/src/pages/AdminTimesheetPage.tsx:151-163 | hours are never negative, and are 0 when a time is missing or does not parse |
| AdminTimesheet.CalculateHoursOfShift | bauapp-frontend/src/pages/AdminTimesheetPage.tsx:158-162 | with both times readable, hours times 60 is the worked minutes less the break (a missing break counts 0), floored at 0 |
| AdminTimesheet.EntriesForExact | bauapp-frontend/src/pages/AdminTimesheetPage.tsx:166-172 | a day's entries are exactly the entries on that date of that worker (every worker when the id is empty), in their order |
| AdminTimesheet.WorkerFor | bauapp-frontend/src/pages/AdminTimesheetPage.tsx:119-126 | a card carries the entry's user id and its user's name, or 'Unbekannt' exactly when that name is empty |
| AdminTimesheet.Username | bauapp-frontend/src/pages/AdminTimesheetPage.tsx:120 | the shown username holds no whitespace |
| AdminTimesheet.UsernameOneWord | bauapp-frontend/src/pages/AdminTimesheetPage.tsx:120 | a one-word name is shown lowered and otherwise unchanged |
| AdminTimesheet.UsernameTwoWords | bauapp-frontend/src/pages/AdminTimesheetPage.tsx:120 | a first and last name separated by whitespace are shown lowered and joined by one dot, as in `max.huber` |
| AdminTimesheet.DeriveWorkers | bauapp-frontend/src/pages/AdminTimesheetPage.tsx:115-130 | the map-building loop yields exactly the worker list `WorkersOf` describes |
| AdminTimesheet.WorkersOfCover | bauapp-frontend/src/pages/AdminTimesheetPage.tsx:115-130 | every user id among the entries gets a card |
| AdminTimesheet.WorkersOfDistinct | bauapp-frontend/src/pages/AdminTimesheetPage.tsx:118 | no user id gets two cards |
| AdminTimesheet.FirstIndex | bauapp-frontend/src/pages/AdminTimesheetPage.tsx:117-118 | the position of a user's first entry: that entry is the user's, and no earlier one is |
| AdminTimesheet.WorkersOfFirstEntry | bauapp-frontend/src/pages/AdminTimesheetPage.tsx:118-126 | each card is built from its user's first entry, since later entries never overwrite it |
| AdminTimesheet.WorkersOfFirstAppearance | bauapp-frontend/src/pages/AdminTimesheetPage.tsx:129 | cards are listed in the order in which their users first appear in the entries |
| AdminTimesheet.WorkerWeeklyStats | bauapp-frontend/src/pages/AdminTimesheetPage.tsx:175-195 | the nested loops give every worker, and only workers, the record that folds that worker's day entries over the week dates |
| AdminTimesheet.AddWeekDate | bauapp-frontend/src/pages/AdminTimesheetPage.tsx:182-192 | one pass of the outer loop adds that date's entries to every worker's record and adds no key |
| AdminTimesheet.StatHoursAreSum | bauapp-frontend/src/pages/AdminTimesheetPage.tsx:186-189 | a worker's hours are the sum of `calculateHours` over the collected entries, and never negative |
| AdminTimesheet.StatDaysCountsDates | bauapp-frontend/src/pages/AdminTimesheetPage.tsx:185-188 | `days` counts the week dates that have entries, not the entries, so it is at most the number of dates |
| AdminTimesheet.StatEntriesExact | bauapp-frontend/src/pages/AdminTimesheetPage.tsx:184-189 | the collected entries are exactly the worker's entries dated in the week |
| AdminTimesheet.StatWithoutEntriesIsZero | bauapp-frontend/src/pages/AdminTimesheetPage.tsx:178-180 | a worker without entries in the week keeps the zero record |
| AdminTimesheet.StatHoursByDay | bauapp-frontend/src/pages/AdminTimesheetPage.tsx:182-189 | a worker's hours are the sum over the week dates of that worker's day hours |
| AdminTimesheet.AveragePerDay | bauapp-frontend/src/pages/AdminTimesheetPage.tsx:358 | the average is 0 without days, and otherwise times the days gives the hours |
| AdminTimesheet.AverageBounded | bauapp-frontend/src/pages/AdminTimesheetPage.tsx:352-358 | the average per day is never negative and never above the week's hours |
| AdminTimesheet.DisplayedWorkersChoice | bauapp-frontend/src/pages/AdminTimesheetPage.tsx:309 | 'all' shows every worker; any other choice shows at most the one worker with that id |
| AdminTimesheet.WorkerHoursByDay | bauapp-frontend/src/pages/AdminTimesheetPage.tsx:198-200 | the total weekly hours equal the per-day totals of all workers added over the week |
| AdminTimesheet.FooterTotalByDay | bauapp-frontend/src/pages/AdminTimesheetPage.tsx:440-457 | with 'all' selected, the footer's grand total is the footer's per-day totals added over the same dates |
| Dashboard.ActiveProjectsExact | bauapp-frontend/src/pages/Dashboard.tsx:58 | the active projects are exactly the projects with status 'active', in their order |
| Dashboard.TotalReportsAdds | bauapp-frontend/src/pages/Dashboard.tsx:59 | the report total over two lists is the sum of their totals, and is non-negative for non-negative counts |
| Dashboard.LatestReportIsFirstNewest | bauapp-frontend/src/pages/Dashboard.tsx:60-65 | there is no latest report exactly when there are no reports; otherwise it is the first report with the greatest timestamp |
| Dashboard.LatestReportProject | bauapp-frontend/src/pages/Dashboard.tsx:96-98 | the project line is never empty and reads 'Kein Bericht' without reports; otherwise it is the latest report's own project name, else the name `NameById` finds for its project, else 'Unbekanntes Projekt' |
| Dashboard.NameById | bauapp-frontend/src/pages/Dashboard.tsx:86-97 | the name looked up for an id is the name of the last project with that id, as a `Map` built from the list keeps it, and empty when no project has the id |
| Dashboard.TodayReportsExact | bauapp-frontend/src/pages/Dashboard.tsx:66-70 | the reports of the last 24 hours are exactly the reports created at or after one day before now |
| Dashboard.OpenHintsExact | bauapp-frontend/src/pages/Dashboard.tsx:71-79 | the open hints are exactly the flagged reports, in their order |
| Dashboard.MatchSpansTags | bauapp-frontend/src/pages/Dashboard.tsx:72-75 | tags are matched as one joined text, so the separate tags 'Material' and 'Fehlt' flag a report |
| Dashboard.InspectionTagFlags | bauapp-frontend/src/pages/Dashboard.tsx:72-76 | a report tagged 'Inspektion' is an open hint, whatever the case of the tag |
| Dashboard.LatestOpenHintIsFirstNewest | bauapp-frontend/src/pages/Dashboard.tsx:80-85 | there is no latest hint exactly when there is no hint; otherwise it is the first hint with the greatest timestamp |
| Dashboard.OpenHintsSortedOrdered | bauapp-frontend/src/pages/Dashboard.tsx:87-89 | the sorted hints are a permutation of the hints, newest first, equal timestamps in their original order |
| Dashboard.HintTileTarget | bauapp-frontend/src/pages/Dashboard.tsx:126 | the hint tile is clickable exactly when there is an open hint |
| Dashboard.ShownHints | bauapp-frontend/src/pages/Dashboard.tsx:249 | at most the four newest hints are listed, the first ones of the sorted list |
| AllReports.AllReportsOrdered | bauapp-frontend/src/pages/AllReportsPage.tsx:55-57 | the sorted copy is a permutation of the reports, newest first, equal timestamps in their original order |
| AllReports.FilteredReportsOrdered | bauapp-frontend/src/pages/AllReportsPage.tsx:59-68 | the filtered list is an order-preserving part of the sorted list, still newest first, holding exactly the matching reports |
| AllReports.FilteredReportsMembers | bauapp-frontend/src/pages/AllReportsPage.tsx:59-68 | a report is listed exactly when its text or author contains the search, ignoring case, and it belongs to the chosen project |
| AllReports.AllReportsSameMembers | bauapp-frontend/src/pages/AllReportsPage.tsx:55-57 | sorting neither adds nor loses a report |
| AllReports.NoFilterKeepsAll | bauapp-frontend/src/pages/AllReportsPage.tsx:59-68 | the empty search with the 'all' filter lists every report |
| AllReports.GetProjectName | bauapp-frontend/src/pages/AllReportsPage.tsx:78-80 | the shown name is never empty: the report's own name, else the project's name, else 'Unbekannt', which is also shown when the project is found but its name is empty |
| ProjectsPage.FilteredProjectsExact | bauapp-frontend/src/pages/ProjectsPage.tsx:21-31 | the filtered list is an order-preserving part of the projects holding exactly those whose name, customer or address contains the search, ignoring case, with the chosen status |
| ProjectsPage.NoFilterKeepsAll | bauapp-frontend/src/pages/ProjectsPage.tsx:21-31 | the empty search on the 'all' tab lists every project |
| ProjectsPage.StatusesPartition | bauapp-frontend/src/pages/ProjectsPage.tsx:33-38 | the counts of the four statuses add up to the number of projects |
| ProjectsPage.CountsBounded | bauapp-frontend/src/pages/ProjectsPage.tsx:33-38 | the tab counts never exceed the total; the shortfall is exactly the archived projects |
| NewReport.RemoveAt | bauapp-frontend/src/pages/NewReportPage.tsx:142-145 | removing a position drops exactly that element and keeps the others in order; an index outside the list drops nothing |
| NewReport.ClickWeather | bauapp-frontend/src/pages/NewReportPage.tsx:406 | clicking the selected weather clears it; clicking another selects it |
| NewReport.HoursPreviewCases | bauapp-frontend/src/pages/NewReportPage.tsx:156-169 | the preview is blank exactly when a time is missing or unreadable, is never negative, and an empty break field counts as no break |
| NewReport.ValidateMatchesButton | bauapp-frontend/src/pages/NewReportPage.tsx:174-182 | the submit handler refuses exactly when the submit button is disabled, and text of only whitespace counts as no text |
| NewReport.OptionalText | bauapp-frontend/src/pages/NewReportPage.tsx:196-197 | an empty time is left undefined and any other is sent as typed |
| NewReport.ReportForm.constructor | bauapp-frontend/src/pages/NewReportPage.tsx:31-41 | the form starts empty, with the project from the address when there is one |
| NewReport.ReportForm.ToggleQuickAction | bauapp-frontend/src/pages/NewReportPage.tsx:147-153 | a tag is added when absent and removed when present, the tags stay distinct, and nothing else changes |
| NewReport.ReportForm.SelectImages | bauapp-frontend/src/pages/NewReportPage.tsx:108-140 | a selection that would take the total over ten photos is refused and changes nothing; otherwise the compressed photos and their previews are appended, and at most ten photos are ever held |
| NewReport.ReportForm.RemoveImage | bauapp-frontend/src/pages/NewReportPage.tsx:142-145 | the photo and its preview at that position both leave, and the two lists stay aligned |
| NewReport.ReportForm.ClickWeatherButton | bauapp-frontend/src/pages/NewReportPage.tsx:406 | only the weather changes, as `ClickWeather` says |
| NewReport.ReportForm.Submit | bauapp-frontend/src/pages/NewReportPage.tsx:171-199 | a submission is refused, with the check's message, exactly when the button would be disabled; otherwise the draft carries the trimmed text, the photos and tags, and leaves a worker count of 0, empty times and an empty break undefined |
| Notifications.MarkReadExact | bauapp-frontend/src/store/uiStore.ts:113-118 | marking an id read keeps length, order and every other field, sets `read` exactly on that id, and a second mark changes nothing |
| Notifications.MarkAllReadExact | bauapp-frontend/src/store/uiStore.ts:120-123 | marking all read keeps length, order and every other field, leaves nothing unread, and a second mark changes nothing |
| Notifications.MarkReadCount | bauapp-frontend/src/components/layout/Header.tsx:45-56 | marking an id read lowers the unread count by the number of unread notifications with that id |
| Notifications.MarkReadCountDistinct | bauapp-frontend/src/components/layout/Header.tsx:45-56 | with distinct ids the unread count drops by one exactly when that notification was unread |
| Notifications.UnreadWithIdCount | bauapp-frontend/src/components/layout/Header.tsx:45-56 | with distinct ids at most one unread notification has a given id |
| UIStore.ApplyUpdateOverridesSupplied | bauapp-frontend/src/store/uiStore.ts:125-128 | a settings update sets every supplied key to its new value, keeps every other key, and is idempotent |
| UIStore.EmptyUpdateKeeps | bauapp-frontend/src/store/uiStore.ts:125-128 | an update that supplies no key changes nothing |
| UIStore.RemoveToastExact | bauapp-frontend/src/store/uiStore.ts:100-103 | removing a toast takes out every toast with that id and keeps the others in order |
| UIStore.Store.constructor | bauapp-frontend/src/store/uiStore.ts:49-78 | after a page load everything has its initial value, with the two unread sample notifications (one for admins, one for everyone), except the settings, which come back when they were saved |
| UIStore.Store.ToggleSidebar | bauapp-frontend/src/store/uiStore.ts:80 | only the sidebar flag flips |
| UIStore.Store.OpenModal | bauapp-frontend/src/store/uiStore.ts:82 | the modal is open with the given content, nothing else changes |
| UIStore.Store.CloseModal | bauapp-frontend/src/store/uiStore.ts:84 | the modal is closed and empty, nothing else changes |
| UIStore.Store.AddToast | bauapp-frontend/src/store/uiStore.ts:86-90 | one toast is appended at the end, nothing else changes |
| UIStore.Store.RemoveToast | bauapp-frontend/src/store/uiStore.ts:93-103 | exactly the toasts with that id leave the queue, nothing else changes |
| UIStore.Store.AddNotification | bauapp-frontend/src/store/uiStore.ts:105-111 | a new unread notification stamped 'gerade eben' goes first, and the unread count grows by one |
| UIStore.Store.MarkNotificationRead | bauapp-frontend/src/store/uiStore.ts:113-118 | only the notifications change, as `MarkRead` says |
| UIStore.Store.MarkAllNotificationsRead | bauapp-frontend/src/store/uiStore.ts:120-123 | every notification is read afterwards, and nothing else changes |
| UIStore.Store.UpdateSettings | bauapp-frontend/src/store/uiStore.ts:125-128 | the settings become the update applied to the old settings, nothing else changes |
| UIStore.Store.ToggleDarkMode | bauapp-frontend/src/store/uiStore.ts:130-134 | only the dark-mode setting flips |
| Header.MenuTargets | bauapp-frontend/src/components/layout/Header.tsx:231-288 | the menu offers the Admin-Panel exactly to an admin |
| Header.HeaderState.constructor | bauapp-frontend/src/components/layout/Header.tsx:13-43 | the header starts with both dropdowns closed and its three mock notifications, two of them unread |
| Header.HeaderState.ClickBell | bauapp-frontend/src/components/layout/Header.tsx:95-98 | the bell toggles the notification dropdown and closes the menu, so at most one dropdown is open |
| Header.HeaderState.ClickAvatar | bauapp-frontend/src/components/layout/Header.tsx:184-193 | on a narrow screen the avatar leads to the profile and changes nothing here; otherwise it toggles the menu and closes the notifications |
| Header.HeaderState.MarkAsRead | bauapp-frontend/src/components/layout/Header.tsx:52-56 | with distinct ids the badge drops by one exactly when the clicked notification was unread |
| Header.HeaderState.MarkAllAsRead | bauapp-frontend/src/components/layout/Header.tsx:58-60 | every notification is read, the badge shows 0, and the list keeps its length |
| ReportDetail.PrevNextCycle | bauapp-frontend/src/pages/ReportDetailPage.tsx:213-238 | both lightbox buttons keep a valid photo index valid, and each undoes the other |
| ReportDetail.AdvanceWithoutWrap | bauapp-frontend/src/pages/ReportDetailPage.tsx:234-238 | clicks on "next" that do not pass the last photo move one place each |
| ReportDetail.AdvanceSplit | bauapp-frontend/src/pages/ReportDetailPage.tsx:234-238 | a run of clicks can be split into two runs |
| ReportDetail.AdvanceFullCircle | bauapp-frontend/src/pages/ReportDetailPage.tsx:234-238 | from any photo, as many clicks on "next" as there are photos come back to it, passing through the first |
| ReportDetail.ReportView.constructor | bauapp-frontend/src/pages/ReportDetailPage.tsx:29-32 | the page starts with no report, no open photo, and the spinner on |
| ReportDetail.ReportView.Load | bauapp-frontend/src/pages/ReportDetailPage.tsx:34-56 | without an id nothing happens; otherwise the spinner stops and a report is shown exactly when the reply is ok with a body |
| ReportDetail.ReportView.Open | bauapp-frontend/src/pages/ReportDetailPage.tsx:182 | a click on a photo opens the lightbox at that photo |
| ReportDetail.ReportView.Close | bauapp-frontend/src/pages/ReportDetailPage.tsx:202-207 | closing leaves no photo open |
| ReportDetail.ReportView.Previous | bauapp-frontend/src/pages/ReportDetailPage.tsx:213-224 | with more than one photo the lightbox moves to the previous photo, wrapping to the last; the index stays valid |
| ReportDetail.ReportView.Next | bauapp-frontend/src/pages/ReportDetailPage.tsx:213-238 | with more than one photo the lightbox moves to the next photo, wrapping to the first; the index stays valid |
| UsersPage.FilteredUsersExact | bauapp-frontend/src/pages/UsersPage.tsx:48-55 | the list holds exactly the users whose name or username contains the search, ignoring case, and no worker comes before an admin |
| UsersPage.FindUser | bauapp-frontend/src/pages/UsersPage.tsx:145 | a user is found exactly when one has the id, and the one found is the first in the list with it |
| UsersPage.ProjectsForUserExact | bauapp-frontend/src/pages/UsersPage.tsx:144-148 | a user's projects keep the project order and are exactly those assigned to the first user with the id; none without such a user or assignments |
| UsersPage.UsersState.constructor | bauapp-frontend/src/pages/UsersPage.tsx:25-40 | the page starts with the given users, an empty form and every dialog closed |
| UsersPage.UsersState.AddUser | bauapp-frontend/src/pages/UsersPage.tsx:57-83 | a form with a missing field or a password under six characters changes nothing; otherwise one user without projects and with a generated avatar is appended and the form is reset |
| UsersPage.UsersState.EditUser | bauapp-frontend/src/pages/UsersPage.tsx:85-104 | without an edited user, or with a new password under six characters, nothing changes; otherwise the edited user replaces every user with its id and the dialog closes |
| UsersPage.UsersState.DeleteUser | bauapp-frontend/src/pages/UsersPage.tsx:106-110 | every user with the id leaves the list and the selection is cleared |
| UsersPage.UsersState.ToggleProject | bauapp-frontend/src/pages/UsersPage.tsx:112-121 | the project's membership in the edited user's assignments flips, starting from none when there are none |
| UsersPage.UsersState.SaveProjectAssignments | bauapp-frontend/src/pages/UsersPage.tsx:123-130 | the edited user replaces every user with its id, and the dialog closes |
| UsersPage.DeleteRemovesExactly | bauapp-frontend/src/pages/UsersPage.tsx:107 | after a delete no user has the id, and the others stay in their order |
| UsersPage.SaveReplacesOnlyThatUser | bauapp-frontend/src/pages/UsersPage.tsx:97 | a save keeps the length and changes exactly the users with the edited id |
| UsersPage.ToggleProjectFlips | bauapp-frontend/src/pages/UsersPage.tsx:115-118 | toggling flips that project's assignment and leaves every other one as it was |
| ProjectStore.FieldValue | backend/app.py:591-601 | the server reads a form field as text or as absent, never as anything else |
| ProjectStore.FormDataGet | backend/app.py:591 | the request data the handler reads holds, for each name, exactly the form's first text field of that name |
| ProjectStore.Uploads | bauapp-frontend/src/store/projectStore.ts:101 | one file entry per photo, all uploads |
| ProjectStore.CommonFieldNames | bauapp-frontend/src/store/projectStore.ts:89-101 | none of the fields the store appends is a start, end or break field |
| ProjectStore.AsWrittenDropsTimes | bauapp-frontend/src/store/projectStore.ts:89-101 | as written, whatever the draft holds, the backend stores no start time, no end time and no break |
| ProjectStore.AsWrittenLosesStartTime | bauapp-frontend/src/store/projectStore.ts:89-101 | a report entered from 08:00 reaches the database without its start time |
| ProjectStore.StoredTimeOf | backend/app.py:599-600 | a stripped, non-empty time sent as text is stored as itself, no field as no time |
| ProjectStore.StoredNumberOf | backend/app.py:601 | a number sent as its text is stored as that number, no field as no number |
| ProjectStore.CorrectedStartTime | bauapp-frontend/src/store/projectStore.ts:89-101 | in the corrected form the start time read by the server is the draft's |
| ProjectStore.CorrectedEndTime | bauapp-frontend/src/store/projectStore.ts:89-101 | in the corrected form the end time read by the server is the draft's |
| ProjectStore.CorrectedBreakMinutes | bauapp-frontend/src/store/projectStore.ts:89-101 | in the corrected form the break read by the server is the draft's, written as text |
| ProjectStore.CorrectedFormKeepsTimes | backend/app.py:599-601 | with the corrected form the backend stores exactly the draft's start, end and break |
| ProjectStore.Store.constructor | bauapp-frontend/src/store/projectStore.ts:26-30 | the store starts empty, with no selection and not loading |
| ProjectStore.Store.LoadProjects | bauapp-frontend/src/store/projectStore.ts:32-46 | the list becomes the reply's array whatever the status, and empty for anything else or a thrown request; loading ends |
| ProjectStore.Store.LoadProjectById | bauapp-frontend/src/store/projectStore.ts:48-66 | a failed or empty reply clears the selection and the reports; otherwise the project is selected and its reports, or none, shown |
| ProjectStore.Store.LoadReports | bauapp-frontend/src/store/projectStore.ts:68-86 | like loading a project, but only the reports change |
| ProjectStore.Store.AddReport | bauapp-frontend/src/store/projectStore.ts:88-121 | the form sent is the corrected form; on success the new report goes first, otherwise an error and nothing changes |
| ProjectStore.Store.CreateProject | bauapp-frontend/src/store/projectStore.ts:123-143 | on success the new project goes first, otherwise an error and nothing changes |
| ProjectStore.Store.UpdateProject | bauapp-frontend/src/store/projectStore.ts:145-163 | on success the returned project replaces every project with the id and the selection when it has the id; otherwise an error and nothing changes |
| ProjectStore.UpdateReplacesOnlyThatId | bauapp-frontend/src/store/projectStore.ts:160 | an update keeps length and order and changes exactly the projects with the id |
| AuthStore.MapUser | bauapp-frontend/src/store/authStore.ts:47-54 | the front end's user copies identity and role, turns missing assignments into none, and an empty or missing avatar into no avatar |
| AuthStore.RefusalMessage | bauapp-frontend/src/store/authStore.ts:38-45 | a refused login always shows a message: the server's when it sent a non-empty one |
| AuthStore.Store.constructor | bauapp-frontend/src/store/authStore.ts:19-27 | after a page load the saved user, token and flag come back, or a signed-out store; not loading, no error |
| AuthStore.Store.Login | bauapp-frontend/src/store/authStore.ts:28-71 | success exactly for an ok reply carrying a user, which then is signed in; a refusal shows its message, a thrown request or a reply without a user shows "unreachable", and a failure leaves the saved part alone |
| AuthStore.Store.Logout | bauapp-frontend/src/store/authStore.ts:73-80 | signed out with no user, token or error; the loading flag stays |
| AuthStore.Store.ClearError | bauapp-frontend/src/store/authStore.ts:82 | the error is gone and nothing else changes |
| RouteGuard.Guard | bauapp-frontend/src/components/auth/ProtectedRoute.tsx:9-25 | a visitor not signed in goes to the login page, a non-admin on an admin route to the start page, and exactly everyone else sees the page |
| RouteGuard.DefaultGuardAdmitsEveryone | bauapp-frontend/src/router.tsx:26 | mounted without requireAdmin the guard lets every signed-in user through, whatever the role |
| RouteGuard.GuardAfterLogin | bauapp-frontend/src/components/auth/ProtectedRoute.tsx:16-25 | a signed-in user reaches every page the role allows; signed out, every page leads to the login page |
| MobileNav.NavItems | bauapp-frontend/src/components/layout/MobileNav.tsx:16-29 | five entries with distinct paths, only the middle one highlighted and leading to the new report, the fourth by role, settings last |
| MobileNav.AtMostOneActive | bauapp-frontend/src/components/layout/MobileNav.tsx:34-35 | at most one entry is active, and the shared pages each have one |
| MobileNav.RolesDifferOnlyInFourth | bauapp-frontend/src/components/layout/MobileNav.tsx:20-28 | the two roles see the same entries except the fourth |
| Sidebar.VisibleItems | bauapp-frontend/src/components/layout/Sidebar.tsx:25-37 | the four main entries, then the four admin entries exactly for an admin, with distinct paths |
| Sidebar.ClickNavItem | bauapp-frontend/src/components/layout/Sidebar.tsx:47 | following any entry flips the sidebar and changes nothing else in the interface store |
| AdminPage.OpenAction | bauapp-frontend/src/pages/AdminPage.tsx:56-62 | the page loads projects exactly for an admin and otherwise sends to the start page |
| AdminPage.AdminStats | bauapp-frontend/src/pages/AdminPage.tsx:64-93 | the figures are the number of projects, the sum of their report counts, and the number of users whose role is worker |
| AdminPage.AdminStatsCount | bauapp-frontend/src/pages/AdminPage.tsx:75-82 | the worker figure equals the user count exactly when everyone is a worker; a new project adds one project and its reports |
| AdminPage.FirstProjects | bauapp-frontend/src/pages/AdminPage.tsx:286 | the table shows the first five projects, or all when fewer |
| AdminPage.PayloadOf | bauapp-frontend/src/pages/AdminPage.tsx:104-112 | a new project is sent active, without workers, with the form's texts, and without a photo when none was picked |
| AdminPage.NewProjectDialog.constructor | bauapp-frontend/src/pages/AdminPage.tsx:28-36 | the dialog starts closed with an empty form and no preview |
| AdminPage.NewProjectDialog.SelectImage | bauapp-frontend/src/pages/AdminPage.tsx:38-49 | a picked photo becomes the preview and the form's photo; no file changes nothing |
| AdminPage.NewProjectDialog.RemoveProjectImage | bauapp-frontend/src/pages/AdminPage.tsx:51-54 | both the preview and the form's photo are cleared |
| AdminPage.NewProjectDialog.CreateProject | bauapp-frontend/src/pages/AdminPage.tsx:95-126 | an incomplete form only warns; otherwise the payload is sent, and on success the project goes first, the dialog closes and empties, and everyone is notified; on failure an error and the form stays; the store's reports, selection and loading flag, the UI settings, sidebar and modal are left as they were |
| SettingsPage.SwitchUpdate | bauapp-frontend/src/pages/SettingsPage.tsx:23-24 | a switch flips its own setting and no other |
| SettingsPage.SwitchTwiceRestores | bauapp-frontend/src/pages/SettingsPage.tsx:23-24 | switching twice gives back the settings |
| SettingsPage.LanguageAfterClick | bauapp-frontend/src/pages/SettingsPage.tsx:240-241 | an available language is taken, an unavailable one changes nothing |
| SettingsPage.EnglishNeverChosen | bauapp-frontend/src/pages/SettingsPage.tsx:54-57 | no button of the dialog makes the language English |
| SettingsPage.QualityLabel | bauapp-frontend/src/pages/SettingsPage.tsx:103-108 | each quality has its German label |
| SettingsPage.QualityLabelsDistinct | bauapp-frontend/src/pages/SettingsPage.tsx:103-108 | the label tells the quality apart |
| SettingsPage.ClearedKeeping | bauapp-frontend/src/pages/SettingsPage.tsx:122-127 | after the clear only the kept key is left, and only when it held a non-empty text, unchanged |
| SettingsPage.ClearAsWrittenSignsOut | bauapp-frontend/src/pages/SettingsPage.tsx:123-126 | as written, the saved sign-in never survives a cache clear |
| SettingsPage.ClearKeepsSignIn | bauapp-frontend/src/store/authStore.ts:85 | corrected, a saved sign-in survives the clear and is all that is left |
| SettingsPage.Storage.GetItem | bauapp-frontend/src/pages/SettingsPage.tsx:123 | reading a key gives its text exactly when it is stored |
| SettingsPage.Page.constructor | bauapp-frontend/src/pages/SettingsPage.tsx:20-21 | both dialogs start closed |
| SettingsPage.Page.HandleToggle | bauapp-frontend/src/pages/SettingsPage.tsx:23-26 | the switch's setting flips, and a confirmation is shown; the notifications, the sidebar and the modal are left as they were |
| SettingsPage.Page.HandleDarkModeToggle | bauapp-frontend/src/pages/SettingsPage.tsx:28-34 | dark mode flips, and the message names the mode switched to; the notifications, the sidebar and the modal are left as they were |
| SettingsPage.Page.ClickLanguage | bauapp-frontend/src/pages/SettingsPage.tsx:36-40 | an available language is saved, confirmed and closes the dialog; an unavailable one changes nothing; the notifications, the sidebar and the modal are left as they were |
| SettingsPage.Page.HandleQualityChange | bauapp-frontend/src/pages/SettingsPage.tsx:42-46 | the quality is saved, confirmed and the dialog closes; the notifications, the sidebar and the modal are left as they were |
| SettingsPage.Page.ClearCache | bauapp-frontend/src/pages/SettingsPage.tsx:122-129 | corrected: the storage keeps only the saved sign-in, and a confirmation is shown; the notifications, the sidebar and the modal are left as they were |
| Seqs.SortDescPermutes | bauapp-frontend/src/pages/AllReportsPage.tsx:55-57 | sorting newest first keeps exactly the same elements, each as often |
| Seqs.SortDescSorted | bauapp-frontend/src/pages/AllReportsPage.tsx:55-57 | sorting leaves the list ordered newest first |
| Seqs.SortDescStable | bauapp-frontend/src/pages/AllReportsPage.tsx:55-57 | elements with the same time keep their relative order, as the browser's stable sort does |
| Text.Lower | bauapp-frontend/src/pages/ProjectsPage.tsx:23-25 | lowering keeps the length and maps each character in its place, A to Z and Ä, Ö, Ü to their small letters and every other character to itself (see Left out for the rest of Unicode) |
| Types.FindProject | bauapp-frontend/src/pages/AllReportsPage.tsx:79 | a project is found exactly when one has the id, and the one found is the first in the list with that id, as `Array.find` returns |
| Calendar.WeekDates | bauapp-frontend/src/pages/TimesheetPage.tsx:136-149 | a week is seven dates; that they run from the Monday on is stated by `Calendar.WeekDatesShape` |
| Calendar.WeekSelection.constructor | bauapp-frontend/src/pages/TimesheetPage.tsx:41 | the page opens on the week of today |
| Timesheet.TimesheetState.constructor | bauapp-frontend/src/pages/TimesheetPage.tsx:40-50 | no manual entries, an empty new entry dated today, nothing being edited, the dialog closed |
| SettingsPage.Storage.constructor | bauapp-frontend/src/pages/SettingsPage.tsx:123-126 | the storage holds what the browser had saved |
| SettingsPage.Storage.Clear | bauapp-frontend/src/pages/SettingsPage.tsx:124 | nothing is left in the storage |
| SettingsPage.Storage.SetItem | bauapp-frontend/src/pages/SettingsPage.tsx:126 | the key holds the text and every other key is unchanged |

## Left out

- Python's `str.strip()` and `int()` are modelled for ASCII whitespace and plain decimal digits. Unicode whitespace and the digit separators `_` that `int()` accepts are not modelled.
- Text.Trim: JavaScript's `trim()` and the `\s` of its regular expressions, like Python's `strip()`, are modelled with `Text.IsWhitespace`, which holds for ASCII space, tab, line feed, carriage return, vertical tab and form feed only. The no-break space, the line and paragraph separators and the other Unicode spaces that the source also strips or splits on are kept as ordinary characters.
- Timesheet.ReportEntriesOfUser and AdminTimesheet.EntryOfReport: when there is no token or the request for the reports throws, both timesheet pages fall back to the built-in mock reports (bauapp-frontend/src/pages/TimesheetPage.tsx:58-76 and 103-121, bauapp-frontend/src/pages/AdminTimesheetPage.tsx:54-70 and 94-109). Those rows name their project by the project list, else the id, without looking at the report's own project name; that fallback and its mock data are not modelled. A response that is not a list also falls back to the mock reports, passed through the same mapping as fetched ones.
- Lower (`Text.Lower`): lowers A to Z and Ä, Ö, Ü only. `toLowerCase()` in the searches and in `AdminTimesheet.Username`, and Python's `lower()`, map every Unicode capital (É, Ç, Ø and so on), so texts that differ only in the case of such a letter match in the source but not in the model.
- BackendApp.OptionalInt: JSON numbers with a fraction are not modelled (a JSON value is an integer, a truth value, a text, a list, an object or null), so `int(7.5) == 7` on a number sent as a number has no counterpart.
- UIStore.Store.Persisted: the saved part of the interface store is its settings field itself (the `partialize` option). The member carries no contract of its own; what a reload restores is stated by `UIStore.Store.constructor`.
- ProjectStore.Store.CreateProject and ProjectStore.Store.UpdateProject: where the source throws an `Error` ('Projekt konnte nicht erstellt werden', 'Projekt konnte nicht aktualisiert werden'), the model returns an error result with that same text. The exception's propagation is not modelled; the store's state is unchanged in both, and the calling page's `catch` receives the same message.
- Python's `str()` of a value other than text or an integer, and the inside of JSON objects, are not modelled. A JSON object is one opaque value.
- BackendApp.PatchAssignments: `str(v).strip()` of the column values (name, address, customer name, status, description, image) is a parameter `strip` of the clause functions; the handler's is `BackendApp.Stripped`, and `BackendApp.PatchStoresStrippedName` states the result with it. The assigned ids are not stripped by the source and their assignment rows are not modelled.
- CreateProject (`BackendApp.CreateProject`): `list()` of a JSON object is the list of its keys. An object is opaque in this model, so its keys are not formed and the object is answered as sent.
- CreateReport (`BackendApp.CreateReport`), and likewise `CreateProject`, `PatchRequest` and `LoginInput`: a JSON body that is not an object (a list, a number or a text) makes `data.get` raise. The model's request is a map of keys, so it cannot be such a body. A null or unparsable body is read as empty, as app.py:591-593 does. An integer outside sqlite's 64-bit range also makes the INSERT raise; that is not modelled either.
- Token encoding and decoding, signatures, expiry and password hashing are foreign library calls. Decoding is a parameter that gives a user id or nothing.
- The database is not modelled. Its queries, the schema, seeding, the oldest admin, project rows, role rows and the assignment table are parameters.
- The JSON parsing of the quick-action text is a parameter: it gives a list, some other value, or a failure. The front end's `JSON.stringify` of quick actions is also a parameter.
- The ids of toasts, notifications, users and manual entries come from `Date.now()`. They are parameters, and so are today's date and the current time.
- Time zones are not modelled: local `getDay`/`setDate` against UTC `toISOString`. A date is a day number.
- Floating point is not modelled. Hours are exact reals from whole minutes, and `toFixed` and locale formatting are left out.
- The order in which fetch replies arrive is not modelled. Each reply is an input to the handler it reaches.
- Toasts are removed by a timer after their duration. The timer is not modelled; the removal is `UIStore.Store.RemoveToast`.
- The `dark` class that dark mode sets on the document is not modelled, nor is any other DOM effect.
- The sample user list that the admin overview counts is a parameter.
- TimeArith.ToNumber: `Number()` also reads a time part with surrounding spaces, a sign, a decimal point or an exponent (" 8", "+8", "-1", "7.5", "1e1"). The model reads only an empty or all-digit part and treats the rest as unreadable, so such a time gives 0 hours on the admin timesheet, the entry's hours on the worker timesheet and no preview on the new-report form, where the source computes hours from the number.
- TimeArith.ToNumber: a time without a `:` leaves its minutes `undefined`. `Number.isNaN(undefined)` is false, so the source's check lets it through and the hours come out as `NaN`: a `NaN` weekly total and a "NaNh" preview. `NaN` is not modelled; the model treats such a time as unparsable and gives 0, the entry's hours or no preview instead.
- NewReport.ReportForm.Submit: the model stops where the store is called. The store's part is `ProjectStore.Store.AddReport`; the toast, the notification and the navigation afterwards are not modelled.
- The toasts that the timesheet and users pages show after their handlers are not modelled. Only the page state is.
- The admin timesheet's footer shows one column per weekday, Monday to Friday, while its total covers all seven days. The model states the total and the per-day column sums, not the table layout.
- Image compression, `FileReader` and the data URLs it produces are parameters.
- Speech recognition, image saving, document scanning and PDF generation are not modelled: they are browser APIs, image libraries and reportlab.
- `localStorage` is a map from keys to texts. Zustand's own serialisation of the saved state is not modelled.
- Presentation components, the login, profile and project-detail pages, the router table and the backend configuration are not part of this model.

## Findings

| source | as written | input that shows it | evidently intended | confidence | as-written member | corrected member |
|---|---|---|---|---|---|---|
| bauapp-frontend/src/pages/SettingsPage.tsx:122-129 | "Cache leeren" saves and restores the key `bauapp-auth-storage`. The sign-in store saves under `auth-storage` (bauapp-frontend/src/store/authStore.ts:85), so the clear removes the sign-in and the user is signed out at the next reload | a storage holding only `auth-storage` with a signed-in state becomes empty | keep the key under which the sign-in is actually saved | not executed | SettingsPage.ClearAsWrittenSignsOut | SettingsPage.ClearKeepsSignIn, SettingsPage.Page.ClearCache |
| bauapp-frontend/src/store/projectStore.ts:89-101 | `addReport` appends no `startTime`, `endTime` or `breakMinutes` field, although the new-report form passes them (bauapp-frontend/src/pages/NewReportPage.tsx:196-198). `create_report` then stores no working times | a draft from 08:00 to 16:00 with a 30-minute break is stored with no start, end or break | send the three times as form fields when they are set | not executed | ProjectStore.AsWrittenDropsTimes, ProjectStore.AsWrittenLosesStartTime | ProjectStore.CorrectedFormKeepsTimes, ProjectStore.Store.AddReport |

=== FILE: admin_page.dfy ===
/** The admin overview: the redirect for non-admins, the figures at the top,
    the first projects of the list, and the new-project dialog with its
    photo, its checks and the request it sends. */
module AdminPage {
  import opened Wrappers
  import opened Seqs
  import opened Types
  import opened Fetch
  import opened Notifications
  import Dashboard
  import ProjectStore
  import UIStore

  /** What the page does when it opens. */
  datatype OnOpen = RedirectHome | LoadProjects

  /** Only an admin stays; anyone else is sent to the start page before any project is loaded. */
  function OpenAction(user: Option<User>): (a: OnOpen)
    ensures a == LoadProjects <==> user.Some? && user.value.role == Admin
  {
    if user.Some? && user.value.role == Admin then LoadProjects else RedirectHome
  }

  function IsWorkerUser(u: User): bool {
    u.role == Worker
  }

  /** The three counted figures: projects, reports, and workers (of the
      sample user list the page reads). */
  datatype Stats = Stats(projects: nat, reports: int, workers: nat)

  function AdminStats(projects: seq<Project>, users: seq<User>): (s: Stats)
    ensures s.projects == |projects|
    ensures s.reports == Dashboard.TotalReports(projects)
    ensures s.workers <= |users|
    ensures s.workers == |set i | 0 <= i < |users| && users[i].role == Worker|
  {
    var isWorker := IsWorkerUser;
    CountIndices(users, isWorker);
    assert Positions(users, isWorker) == set i | 0 <= i < |users| && users[i].role == Worker;
    Stats(|projects|, Dashboard.TotalReports(projects), Count(users, isWorker))
  }

  /** The worker figure counts exactly the workers, and the report figure
      grows by a new project's count when it is put in front of the list. */
  lemma {:induction false} AdminStatsCount(projects: seq<Project>, users: seq<User>, p: Project)
    ensures AdminStats(projects, users).workers == |users| <==> forall u :: u in users ==> u.role == Worker
    ensures AdminStats([p] + projects, users).projects == AdminStats(projects, users).projects + 1
    ensures AdminStats([p] + projects, users).reports == p.reportsCount.GetOr(0) + AdminStats(projects, users).reports
  {
    FilterMembers(users, IsWorkerUser);
    if forall u :: u in users ==> u.role == Worker {
      FilterKeepsAll(users, IsWorkerUser);
    } else {
      var i :| 0 <= i < |users| && users[i].role != Worker;
      FilterDropsFailing(users, IsWorkerUser, i);
    }
    SumIntConcat([p], projects, Dashboard.ReportsCountOrZero);
  }

  /** The table's rows: the first five projects. */
  function FirstProjects(projects: seq<Project>): (r: seq<Project>)
    ensures |r| == (if |projects| < 5 then |projects| else 5)
    ensures r == projects[..|r|]
  {
    if |projects| < 5 then projects else projects[..5]
  }

  /** The dialog's fields. */
  datatype ProjectForm = ProjectForm(name: string, address: string, customerName: string, description: string,
                                     imageUrl: string)

  const EmptyForm := ProjectForm("", "", "", "", "")

  /** What `createProject` is called with. */
  datatype ProjectPayload = ProjectPayload(name: string, address: string, customerName: string, description: string,
                                           imageUrl: Option<string>, status: ProjectStatus, assignedWorkers: seq<string>)

  /** The required fields are filled. */
  predicate Complete(f: ProjectForm) {
    f.name != "" && f.address != "" && f.customerName != ""
  }

  /** The request body: a new project is active and has no workers; an empty
      photo is left out. */
  function PayloadOf(f: ProjectForm): (p: ProjectPayload)
    ensures p.status == Active && p.assignedWorkers == []
    ensures p.name == f.name && p.address == f.address && p.customerName == f.customerName
    ensures p.description == f.description
    ensures p.imageUrl.None? <==> f.imageUrl == ""
    ensures p.imageUrl.Some? ==> p.imageUrl.value == f.imageUrl
  {
    ProjectPayload(f.name, f.address, f.customerName, f.description,
                   if f.imageUrl == "" then None else Some(f.imageUrl), Active, [])
  }

  const MissingFields := "Bitte alle Pflichtfelder ausfüllen"
  const Created := "Projekt erstellt!"
  const CreateFailed := "Fehler beim Erstellen"

  /** The dialog's state. */
  class NewProjectDialog {
    var form: ProjectForm
    var preview: Option<string>
    var isOpen: bool

    constructor ()
      ensures form == EmptyForm && preview == None && !isOpen
    {
      form := EmptyForm;
      preview := None;
      isOpen := false;
    }

    /** The photo picked, read as a data address (given); no file changes nothing. */
    method SelectImage(dataUrl: Option<string>)
      modifies this
      ensures dataUrl.None? ==> form == old(form) && preview == old(preview)
      ensures dataUrl.Some? ==> preview == dataUrl && form == old(form).(imageUrl := dataUrl.value)
      ensures isOpen == old(isOpen)
    {
      if dataUrl.Some? {
        preview := dataUrl;
        form := form.(imageUrl := dataUrl.value);
      }
    }

    /** `removeProjectImage`: both the preview and the photo field are cleared. */
    method RemoveProjectImage()
      modifies this
      ensures preview == None && form == old(form).(imageUrl := "")
      ensures isOpen == old(isOpen)
    {
      preview := None;
      form := form.(imageUrl := "");
    }

    /** `handleCreateProject`. An incomplete form sends nothing and only warns.
        Otherwise the payload goes to the store; on success the dialog closes
        and is emptied, a notification for everyone is posted, and on failure
        the form stays. Toast and notification ids are parameters. */
    method CreateProject(store: ProjectStore.Store, ui: UIStore.Store, response: Response<Project>,
                         toastId: string, noteId: string)
      returns (sent: Option<ProjectPayload>)
      modifies this, store, ui
      ensures !Complete(old(form)) ==>
                && sent == None && form == old(form) && preview == old(preview) && isOpen == old(isOpen)
                && store.projects == old(store.projects)
                && ui.toasts == old(ui.toasts) + [UIStore.Toast(toastId, MissingFields, UIStore.Warning)]
                && ui.notifications == old(ui.notifications)
      ensures Complete(old(form)) && Succeeded(response) ==>
                && sent == Some(PayloadOf(old(form)))
                && store.projects == [Payload(response)] + old(store.projects)
                && form == EmptyForm && preview == None && !isOpen
                && ui.toasts == old(ui.toasts) + [UIStore.Toast(toastId, Created, UIStore.Success)]
                && ui.notifications == [Notification(noteId, "Neues Projekt",
                                                     "Projekt \"" + old(form).name + "\" wurde erstellt",
                                                     "gerade eben", false, Some(Everyone))] + old(ui.notifications)
      ensures Complete(old(form)) && !Succeeded(response) ==>
                && sent == Some(PayloadOf(old(form)))
                && store.projects == old(store.projects)
                && form == old(form) && preview == old(preview) && isOpen == old(isOpen)
                && ui.toasts == old(ui.toasts) + [UIStore.Toast(toastId, CreateFailed, UIStore.Error)]
                && ui.notifications == old(ui.notifications)
      ensures ui.settings == old(ui.settings)
      ensures ui.isSidebarOpen == old(ui.isSidebarOpen) && ui.isModalOpen == old(ui.isModalOpen) && ui.modalContent == old(ui.modalContent)
      ensures store.reports == old(store.reports) && store.selectedProject == old(store.selectedProject)
              && store.isLoading == old(store.isLoading)
    {
      if form.name == "" || form.address == "" || form.customerName == "" {
        ui.AddToast(toastId, MissingFields, UIStore.Warning);
        return None;
      }
      sent := Some(PayloadOf(form));
      var result := store.CreateProject(response);
      if result.Err? {
        ui.AddToast(toastId, CreateFailed, UIStore.Error);
        return;
      }
      ui.AddToast(toastId, Created, UIStore.Success);
      ui.AddNotification(noteId, "Neues Projekt", "Projekt \"" + form.name + "\" wurde erstellt", Everyone);
      isOpen := false;
      form := EmptyForm;
      preview := None;
    }
  }
}

=== FILE: admin_timesheet.dfy ===
/** The admin's weekly time overview: reports become time entries, the
    workers are collected from the entries, and per worker the page sums the
    hours and counts the days with entries in the selected week. */
module AdminTimesheet {
  import opened Wrappers
  import opened Seqs
  import opened Text
  import opened Types
  import opened TimeArith
  import opened Calendar

  const MillisPerDay := 24 * 60 * 60 * 1000

  /** A time entry; a time that the report does not carry is the empty string. */
  datatype TimeEntry = TimeEntry(
    id: string,
    date: int,
    userId: string,
    userName: string,
    projectId: string,
    projectName: string,
    startTime: string,
    endTime: string,
    breakMinutes: Option<int>,
    notes: string)

  /** A worker card. The username and the avatar are fixed functions of the
      name (see `Username`); the avatar image itself is not modelled. */
  datatype Worker = Worker(id: string, name: string)

  datatype WeeklyStat = WeeklyStat(hours: real, days: nat, entries: seq<TimeEntry>)

  /** A report as a time entry: the calendar day of its timestamp, the project
      name from the report, the project list or the project id, in that order,
      and empty times when the report has none. */
  function EntryOfReport(r: Report, projects: seq<Project>): (e: TimeEntry)
    ensures e.date * MillisPerDay <= r.createdAt < (e.date + 1) * MillisPerDay
    ensures e.projectName != "" || r.projectId == ""
    ensures e.id == "report-" + r.id && e.userId == r.userId && e.userName == r.userName && e.projectId == r.projectId
    ensures e.startTime == r.startTime.GetOr("") && e.endTime == r.endTime.GetOr("")
    ensures e.breakMinutes == r.breakMinutes && e.notes == r.text
    ensures r.projectName.GetOr("") != "" ==> e.projectName == r.projectName.value
    ensures r.projectName.GetOr("") == "" && ProjectNameOf(projects, r.projectId) != "" ==>
              e.projectName == ProjectNameOf(projects, r.projectId)
    ensures r.projectName.GetOr("") == "" && ProjectNameOf(projects, r.projectId) == "" ==> e.projectName == r.projectId
  {
    var name :=
      if r.projectName.GetOr("") != "" then r.projectName.value
      else if ProjectNameOf(projects, r.projectId) != "" then ProjectNameOf(projects, r.projectId)
      else r.projectId;
    TimeEntry("report-" + r.id, r.createdAt / MillisPerDay, r.userId, r.userName, r.projectId, name,
              r.startTime.GetOr(""), r.endTime.GetOr(""), r.breakMinutes, r.text)
  }

  // ---------------------------------------------------------------------
  // Hours of one entry
  // ---------------------------------------------------------------------

  /** `calculateHours`: 0 when a time is missing or does not parse. */
  function CalculateHours(e: TimeEntry): (h: real)
    ensures h >= 0.0
    ensures e.startTime == "" || e.endTime == "" ==> h == 0.0
    ensures ParseClock(e.startTime).None? || ParseClock(e.endTime).None? ==> h == 0.0
  {
    ShiftHours(e.startTime, e.endTime, e.breakMinutes.GetOr(0)).GetOr(0.0)
  }

  /** With both times present and readable the hours are the worked minutes
      over 60, where a missing break counts as 0 and a negative span as 0. */
  lemma CalculateHoursOfShift(e: TimeEntry)
    requires e.startTime != "" && e.endTime != ""
    requires ParseClock(e.startTime).Some? && ParseClock(e.endTime).Some?
    ensures CalculateHours(e) * 60.0
         == Max0(ParseClock(e.endTime).value - ParseClock(e.startTime).value - e.breakMinutes.GetOr(0)) as real
  {
  }

  // ---------------------------------------------------------------------
  // Entries of one day
  // ---------------------------------------------------------------------

  /** The test of `getEntriesForDateAndWorker`: the date matches, and so does the
      worker unless the worker id is empty (falsy), which matches everyone. */
  predicate OnDateFor(e: TimeEntry, date: int, workerId: string) {
    e.date == date && (workerId != "" ==> e.userId == workerId)
  }

  /** `getEntriesForDateAndWorker(date, workerId)`. */
  function EntriesFor(entries: seq<TimeEntry>, date: int, workerId: string): seq<TimeEntry> {
    Filter(entries, (e: TimeEntry) => OnDateFor(e, date, workerId))
  }

  /** The day's entries are exactly the matching entries, in their order. */
  lemma {:induction false} EntriesForExact(entries: seq<TimeEntry>, date: int, workerId: string)
    ensures IsSubsequence(EntriesFor(entries, date, workerId), entries)
    ensures forall e :: e in EntriesFor(entries, date, workerId) ==> e in entries && OnDateFor(e, date, workerId)
    ensures forall i :: 0 <= i < |entries| && OnDateFor(entries[i], date, workerId) ==>
              entries[i] in EntriesFor(entries, date, workerId)
  {
    FilterIsSubsequence(entries, (e: TimeEntry) => OnDateFor(e, date, workerId));
    FilterMembers(entries, (e: TimeEntry) => OnDateFor(e, date, workerId));
  }

  function DayHours(entries: seq<TimeEntry>, date: int, workerId: string): real {
    SumReal(EntriesFor(entries, date, workerId), CalculateHours)
  }

  // ---------------------------------------------------------------------
  // Workers
  // ---------------------------------------------------------------------

  /** The worker card an entry creates: the entry's user, named 'Unbekannt' when the name is empty. */
  function WorkerFor(e: TimeEntry): (w: Worker)
    ensures w.id == e.userId && w.name != ""
    ensures e.userName != "" ==> w.name == e.userName
    ensures e.userName == "" ==> w.name == "Unbekannt"
  {
    var name := if e.userName == "" then "Unbekannt" else e.userName;
    Worker.Worker(e.userId, name)
  }

  /** The username shown under a worker: the lower-cased name with every run
      of whitespace replaced by a single '.'. */
  function Username(w: Worker): (u: string)
    ensures forall i :: 0 <= i < |u| ==> !IsWhitespace(u[i])
  {
    ReplaceWhitespaceRuns(Lower(w.name), '.')
  }

  /** Lower-casing keeps a text free of whitespace. */
  lemma LowerNoWhitespace(s: string)
    requires forall i :: 0 <= i < |s| ==> !IsWhitespace(s[i])
    ensures forall i :: 0 <= i < |Lower(s)| ==> !IsWhitespace(Lower(s)[i])
  {
  }

  /** A one-word name gives its lower-cased self. */
  lemma UsernameOneWord(w: Worker)
    requires forall i :: 0 <= i < |w.name| ==> !IsWhitespace(w.name[i])
    ensures Username(w) == Lower(w.name)
  {
    LowerNoWhitespace(w.name);
    ReplaceRunsNoWhitespace(Lower(w.name), '.');
  }

  /** Two words with any run of whitespace between them give the two
      lower-cased words joined by one '.'. */
  lemma UsernameTwoWords(w: Worker, a: string, gap: string, b: string)
    requires w.name == a + gap + b
    requires forall i :: 0 <= i < |a| ==> !IsWhitespace(a[i])
    requires forall i :: 0 <= i < |b| ==> !IsWhitespace(b[i])
    requires gap != [] && forall i :: 0 <= i < |gap| ==> IsWhitespace(gap[i])
    ensures Username(w) == Lower(a) + "." + Lower(b)
  {
    var la, lb := Lower(a), Lower(b);
    LowerConcat(a + gap, b);
    LowerConcat(a, gap);
    LowerWhitespace(gap);
    assert Lower(w.name) == la + gap + lb;
    LowerNoWhitespace(a);
    LowerNoWhitespace(b);
    assert lb == [] || !IsWhitespace(lb[0]);
    ReplaceRunsAcrossRun(la, gap, lb, '.');
    ReplaceRunsNoWhitespace(lb, '.');
  }

  predicate DistinctIds(workers: seq<Worker>) {
    forall k, l :: 0 <= k < l < |workers| ==> workers[k].id != workers[l].id
  }

  predicate HasWorker(workers: seq<Worker>, id: string) {
    exists k :: 0 <= k < |workers| && workers[k].id == id
  }

  /** The `workers` memo as a fold over the entries: a user id not seen before
      adds the worker built from that entry. */
  function WorkersOf(entries: seq<TimeEntry>): seq<Worker> {
    if entries == [] then []
    else
      var prev := WorkersOf(entries[..|entries| - 1]);
      var e := entries[|entries| - 1];
      if HasWorker(prev, e.userId) then prev else prev + [WorkerFor(e)]
  }

  /** The loop of the `workers` memo: a map from user id to worker, whose
      values in insertion order are the result. */
  method DeriveWorkers(entries: seq<TimeEntry>) returns (workers: seq<Worker>)
    ensures workers == WorkersOf(entries)
  {
    var known: map<string, Worker> := map[];
    workers := [];
    for i := 0 to |entries|
      invariant workers == WorkersOf(entries[..i])
      invariant forall id :: id in known <==> HasWorker(workers, id)
    {
      var e := entries[i];
      assert entries[..i + 1][..i] == entries[..i];
      if e.userId !in known {
        var w := WorkerFor(e);
        known := known[e.userId := w];
        HasWorkerAppend(workers, w);
        workers := workers + [w];
      }
    }
    assert entries[..|entries|] == entries;
  }

  lemma HasWorkerAppend(workers: seq<Worker>, w: Worker)
    ensures forall id :: HasWorker(workers + [w], id) <==> HasWorker(workers, id) || id == w.id
  {
    forall id | HasWorker(workers, id) ensures HasWorker(workers + [w], id) {
      var k :| 0 <= k < |workers| && workers[k].id == id;
      assert (workers + [w])[k].id == id;
    }
    assert (workers + [w])[|workers|] == w;
  }

  /** The index of the first entry of user `id`; `|entries|` when there is none. */
  function FirstIndex(entries: seq<TimeEntry>, id: string): (f: nat)
    ensures f <= |entries|
    ensures f < |entries| ==> entries[f].userId == id
    ensures forall j :: 0 <= j < f ==> entries[j].userId != id
  {
    if entries == [] then 0
    else if entries[0].userId == id then 0
    else 1 + FirstIndex(entries[1..], id)
  }

  /** The first index of a user that already occurs in a prefix is the same in the whole list. */
  lemma FirstIndexOfPrefix(entries: seq<TimeEntry>, n: nat, id: string)
    requires n <= |entries| && FirstIndex(entries[..n], id) < n
    ensures FirstIndex(entries, id) == FirstIndex(entries[..n], id)
  {
    var g := FirstIndex(entries[..n], id);
    assert entries[g] == entries[..n][g];
    assert forall j :: 0 <= j < g ==> entries[j] == entries[..n][j];
  }

  /** Every user id of the entries has a worker. */
  lemma {:induction false} WorkersOfCover(entries: seq<TimeEntry>)
    ensures forall i :: 0 <= i < |entries| ==> HasWorker(WorkersOf(entries), entries[i].userId)
  {
    if entries != [] {
      var n := |entries| - 1;
      var p := entries[..n];
      var e := entries[n];
      WorkersOfCover(p);
      var prev := WorkersOf(p);
      if !HasWorker(prev, e.userId) {
        HasWorkerAppend(prev, WorkerFor(e));
      }
      forall i | 0 <= i < n ensures HasWorker(WorkersOf(entries), entries[i].userId) {
        assert entries[i] == p[i];
      }
    }
  }

  /** No user id is listed twice. */
  lemma {:induction false} WorkersOfDistinct(entries: seq<TimeEntry>)
    ensures DistinctIds(WorkersOf(entries))
  {
    if entries != [] {
      var p := entries[..|entries| - 1];
      WorkersOfDistinct(p);
    }
  }

  /** Every worker's user id occurs in the entries. */
  predicate AllOccur(entries: seq<TimeEntry>, workers: seq<Worker>) {
    forall k :: 0 <= k < |workers| ==> FirstIndex(entries, workers[k].id) < |entries|
  }

  /** A worker already listed for the entries before the last one keeps the
      first index it had there. */
  lemma KnownWorkersKeepFirstIndex(entries: seq<TimeEntry>)
    requires entries != []
    requires AllOccur(entries[..|entries| - 1], WorkersOf(entries[..|entries| - 1]))
    ensures var p := entries[..|entries| - 1];
            var prev := WorkersOf(p);
            forall k :: 0 <= k < |prev| ==> FirstIndex(entries, prev[k].id) == FirstIndex(p, prev[k].id) < |p|
  {
    var n := |entries| - 1;
    var prev := WorkersOf(entries[..n]);
    forall k | 0 <= k < |prev| ensures FirstIndex(entries, prev[k].id) == FirstIndex(entries[..n], prev[k].id) {
      FirstIndexOfPrefix(entries, n, prev[k].id);
    }
  }

  /** A user id not listed for the entries before the last one first occurs in the last entry. */
  lemma NewWorkerFirstIndex(entries: seq<TimeEntry>)
    requires entries != []
    requires !HasWorker(WorkersOf(entries[..|entries| - 1]), entries[|entries| - 1].userId)
    ensures FirstIndex(entries, entries[|entries| - 1].userId) == |entries| - 1
  {
    var n := |entries| - 1;
    var p := entries[..n];
    WorkersOfCover(p);
  }

  /** Each card is built from its user's first entry. */
  predicate CardsFromFirstEntries(entries: seq<TimeEntry>, workers: seq<Worker>) {
    forall k :: 0 <= k < |workers| ==>
      FirstIndex(entries, workers[k].id) < |entries| &&
      workers[k] == WorkerFor(entries[FirstIndex(entries, workers[k].id)])
  }

  /** The cards of the entries before the last one stay right for all entries. */
  lemma KnownCardsStay(entries: seq<TimeEntry>)
    requires entries != []
    requires CardsFromFirstEntries(entries[..|entries| - 1], WorkersOf(entries[..|entries| - 1]))
    ensures CardsFromFirstEntries(entries, WorkersOf(entries[..|entries| - 1]))
  {
    var n := |entries| - 1;
    var prev := WorkersOf(entries[..n]);
    forall k | 0 <= k < |prev|
      ensures FirstIndex(entries, prev[k].id) < |entries| && prev[k] == WorkerFor(entries[FirstIndex(entries, prev[k].id)])
    {
      CardStays(entries, n, prev[k]);
    }
  }

  /** A card built from the first entry of a prefix is built from the first entry of the whole. */
  lemma CardStays(entries: seq<TimeEntry>, n: nat, w: Worker)
    requires n <= |entries| && FirstIndex(entries[..n], w.id) < n
    requires w == WorkerFor(entries[..n][FirstIndex(entries[..n], w.id)])
    ensures FirstIndex(entries, w.id) < |entries| && w == WorkerFor(entries[FirstIndex(entries, w.id)])
  {
    FirstIndexOfPrefix(entries, n, w.id);
    var f := FirstIndex(entries[..n], w.id);
    assert entries[f] == entries[..n][f];
  }

  /** Every listed worker's card is built from that user's first entry. */
  lemma {:induction false} WorkersOfFirstEntry(entries: seq<TimeEntry>)
    ensures CardsFromFirstEntries(entries, WorkersOf(entries))
  {
    if entries != [] {
      var n := |entries| - 1;
      var prev := WorkersOf(entries[..n]);
      WorkersOfFirstEntry(entries[..n]);
      KnownCardsStay(entries);
      if !HasWorker(prev, entries[n].userId) {
        NewWorkerFirstIndex(entries);
        var w := WorkerFor(entries[n]);
        assert WorkersOf(entries) == prev + [w];
        assert forall k :: 0 <= k < |prev| ==> (prev + [w])[k] == prev[k];
      }
    }
  }

  /** Workers are listed in the order in which their user ids first occur. */
  lemma {:induction false} WorkersOfFirstAppearance(entries: seq<TimeEntry>)
    ensures forall k, l :: 0 <= k < l < |WorkersOf(entries)| ==>
              FirstIndex(entries, WorkersOf(entries)[k].id) < FirstIndex(entries, WorkersOf(entries)[l].id)
  {
    if entries != [] {
      var n := |entries| - 1;
      var p := entries[..n];
      var prev := WorkersOf(p);
      WorkersOfFirstEntry(p);
      WorkersOfFirstAppearance(p);
      KnownWorkersKeepFirstIndex(entries);
      if !HasWorker(prev, entries[n].userId) {
        NewWorkerFirstIndex(entries);
        assert WorkersOf(entries) == prev + [WorkerFor(entries[n])];
      }
    }
  }

  // ---------------------------------------------------------------------
  // Weekly statistics
  // ---------------------------------------------------------------------

  /** A date with entries adds their hours, one day and the entries themselves. */
  function AddDay(prev: WeeklyStat, day: seq<TimeEntry>): WeeklyStat {
    if |day| > 0 then WeeklyStat(prev.hours + SumReal(day, CalculateHours), prev.days + 1, prev.entries + day)
    else prev
  }

  /** One worker's statistics as a fold over the week dates. */
  function StatOf(entries: seq<TimeEntry>, dates: seq<int>, workerId: string): WeeklyStat {
    if dates == [] then WeeklyStat(0.0, 0, [])
    else AddDay(StatOf(entries, dates[..|dates| - 1], workerId), EntriesFor(entries, dates[|dates| - 1], workerId))
  }

  /** One more date extends a worker's record by that date's entries. */
  lemma StatOfNextDate(entries: seq<TimeEntry>, dates: seq<int>, i: nat, workerId: string)
    requires i < |dates|
    ensures StatOf(entries, dates[..i + 1], workerId)
         == AddDay(StatOf(entries, dates[..i], workerId), EntriesFor(entries, dates[i], workerId))
  {
    assert dates[..i + 1][..i] == dates[..i];
  }

  /** Updating one worker's record leaves the records of the other workers as they were. */
  lemma UpdateOneWorker(stats: map<string, WeeklyStat>, workers: seq<Worker>, k: nat, v: WeeklyStat)
    requires DistinctIds(workers) && k < |workers|
    ensures forall j :: 0 <= j < |workers| && j != k && workers[j].id in stats ==>
              workers[j].id in stats[workers[k].id := v] && stats[workers[k].id := v][workers[j].id] == stats[workers[j].id]
  {
  }

  /** `workerWeeklyStats`: a zero record per worker, then for every week date and
      every worker the day's entries are added to that worker's record. */
  method WorkerWeeklyStats(entries: seq<TimeEntry>, weekDates: seq<int>, workers: seq<Worker>)
    returns (stats: map<string, WeeklyStat>)
    requires DistinctIds(workers)
    ensures forall id :: id in stats ==> HasWorker(workers, id)
    ensures forall k :: 0 <= k < |workers| ==> workers[k].id in stats && stats[workers[k].id] == StatOf(entries, weekDates, workers[k].id)
  {
    stats := map[];
    for k := 0 to |workers|
      invariant forall id :: id in stats ==> HasWorker(workers, id)
      invariant forall j :: 0 <= j < k ==> workers[j].id in stats && stats[workers[j].id] == WeeklyStat(0.0, 0, [])
    {
      stats := stats[workers[k].id := WeeklyStat(0.0, 0, [])];
    }
    for i := 0 to |weekDates|
      invariant forall id :: id in stats ==> HasWorker(workers, id)
      invariant forall j :: 0 <= j < |workers| ==> workers[j].id in stats && stats[workers[j].id] == StatOf(entries, weekDates[..i], workers[j].id)
    {
      stats := AddWeekDate(stats, entries, weekDates, i, workers);
    }
    assert weekDates[..|weekDates|] == weekDates;
  }

  /** The body of the outer `forEach`: date `i` is added to every worker's record. */
  method AddWeekDate(stats: map<string, WeeklyStat>, entries: seq<TimeEntry>, weekDates: seq<int>, i: nat, workers: seq<Worker>)
    returns (next: map<string, WeeklyStat>)
    requires DistinctIds(workers) && i < |weekDates|
    requires forall j :: 0 <= j < |workers| ==> workers[j].id in stats && stats[workers[j].id] == StatOf(entries, weekDates[..i], workers[j].id)
    ensures next.Keys == stats.Keys
    ensures forall j :: 0 <= j < |workers| ==> workers[j].id in next && next[workers[j].id] == StatOf(entries, weekDates[..i + 1], workers[j].id)
  {
    next := stats;
    for k := 0 to |workers|
      invariant next.Keys == stats.Keys
      invariant forall j :: 0 <= j < k ==> next[workers[j].id] == StatOf(entries, weekDates[..i + 1], workers[j].id)
      invariant forall j :: k <= j < |workers| ==> next[workers[j].id] == StatOf(entries, weekDates[..i], workers[j].id)
    {
      var w := workers[k];
      StatOfNextDate(entries, weekDates, i, w.id);
      var dayEntries := EntriesFor(entries, weekDates[i], w.id);
      if |dayEntries| > 0 {
        var dayHours := SumReal(dayEntries, CalculateHours);
        var s := next[w.id];
        var updated := WeeklyStat(s.hours + dayHours, s.days + 1, s.entries + dayEntries);
        UpdateOneWorker(next, workers, k, updated);
        next := next[w.id := updated];
      }
    }
  }

  /** A worker's hours are the sum of `calculateHours` over the collected entries, and never negative. */
  lemma {:induction false} StatHoursAreSum(entries: seq<TimeEntry>, dates: seq<int>, workerId: string)
    ensures StatOf(entries, dates, workerId).hours == SumReal(StatOf(entries, dates, workerId).entries, CalculateHours)
    ensures StatOf(entries, dates, workerId).hours >= 0.0
  {
    if dates != [] {
      var prev := StatOf(entries, dates[..|dates| - 1], workerId);
      var day := EntriesFor(entries, dates[|dates| - 1], workerId);
      StatHoursAreSum(entries, dates[..|dates| - 1], workerId);
      SumRealConcat(prev.entries, day, CalculateHours);
      SumRealNonNegative(day, CalculateHours);
    }
  }

  predicate HasEntriesOn(entries: seq<TimeEntry>, workerId: string, d: int) {
    EntriesFor(entries, d, workerId) != []
  }

  /** `days` counts the week dates with at least one entry (not the entries), so
      it is at most the number of dates. */
  lemma {:induction false} StatDaysCountsDates(entries: seq<TimeEntry>, dates: seq<int>, workerId: string)
    ensures StatOf(entries, dates, workerId).days == Count(dates, (d: int) => HasEntriesOn(entries, workerId, d))
    ensures StatOf(entries, dates, workerId).days <= |dates|
  {
    if dates != [] {
      var n := |dates| - 1;
      var has := (d: int) => HasEntriesOn(entries, workerId, d);
      StatDaysCountsDates(entries, dates[..n], workerId);
      assert dates == dates[..n] + [dates[n]];
      FilterConcat(dates[..n], [dates[n]], has);
      assert Filter([dates[n]], has) == if has(dates[n]) then [dates[n]] else [];
      assert StatOf(entries, dates, workerId)
          == AddDay(StatOf(entries, dates[..n], workerId), EntriesFor(entries, dates[n], workerId));
    }
  }

  /** The collected entries are the worker's entries on the week dates: each
      collected entry is such an entry, and each such entry is collected. */
  lemma {:induction false} StatEntriesExact(entries: seq<TimeEntry>, dates: seq<int>, workerId: string)
    ensures forall e :: e in StatOf(entries, dates, workerId).entries ==>
              e in entries && e.date in dates && OnDateFor(e, e.date, workerId)
    ensures forall i :: 0 <= i < |entries| && entries[i].date in dates && OnDateFor(entries[i], entries[i].date, workerId) ==>
              entries[i] in StatOf(entries, dates, workerId).entries
  {
    if dates != [] {
      var n := |dates| - 1;
      var prev := StatOf(entries, dates[..n], workerId);
      var day := EntriesFor(entries, dates[n], workerId);
      StatEntriesExact(entries, dates[..n], workerId);
      EntriesForExact(entries, dates[n], workerId);
      forall e | e in StatOf(entries, dates, workerId).entries
        ensures e in entries && e.date in dates && OnDateFor(e, e.date, workerId)
      {
        if e in prev.entries {
          assert e.date in dates[..n];
        }
      }
      forall i | 0 <= i < |entries| && entries[i].date in dates && OnDateFor(entries[i], entries[i].date, workerId)
        ensures entries[i] in StatOf(entries, dates, workerId).entries
      {
        if entries[i].date != dates[n] {
          assert entries[i].date in dates[..n];
        }
      }
    }
  }

  /** A worker without entries in the week keeps the zero record. */
  lemma {:induction false} StatWithoutEntriesIsZero(entries: seq<TimeEntry>, dates: seq<int>, workerId: string)
    requires forall i :: 0 <= i < |entries| ==> !(entries[i].date in dates && OnDateFor(entries[i], entries[i].date, workerId))
    ensures StatOf(entries, dates, workerId) == WeeklyStat(0.0, 0, [])
  {
    if dates != [] {
      var n := |dates| - 1;
      StatWithoutEntriesIsZero(entries, dates[..n], workerId);
      FilterNone(entries, (e: TimeEntry) => OnDateFor(e, dates[n], workerId));
    }
  }

  /** A worker's hours are the sum over the dates of that worker's day hours. */
  lemma {:induction false} StatHoursByDay(entries: seq<TimeEntry>, dates: seq<int>, workerId: string)
    ensures StatOf(entries, dates, workerId).hours == SumReal(dates, (d: int) => DayHours(entries, d, workerId))
  {
    var f := (d: int) => DayHours(entries, d, workerId);
    if dates != [] {
      var n := |dates| - 1;
      var prev := StatOf(entries, dates[..n], workerId);
      StatHoursByDay(entries, dates[..n], workerId);
      assert StatOf(entries, dates, workerId).hours == prev.hours + f(dates[n]);
      SumRealSnoc(dates, f);
    }
  }

  function WorkerHours(entries: seq<TimeEntry>, dates: seq<int>): Worker -> real {
    (w: Worker) => StatOf(entries, dates, w.id).hours
  }

  /** `totalWeeklyHours`: the hours of all workers' records added up. */
  function TotalWeeklyHours(entries: seq<TimeEntry>, dates: seq<int>, workers: seq<Worker>): real {
    SumReal(workers, WorkerHours(entries, dates))
  }

  /** `stats.days > 0 ? stats.hours / stats.days : 0`. */
  function AveragePerDay(s: WeeklyStat): (avg: real)
    ensures s.days == 0 ==> avg == 0.0
    ensures s.days > 0 ==> avg * s.days as real == s.hours
  {
    if s.days > 0 then s.hours / s.days as real else 0.0
  }

  /** The average never exceeds the week's hours and is never negative. */
  lemma AverageBounded(entries: seq<TimeEntry>, dates: seq<int>, workerId: string)
    ensures var s := StatOf(entries, dates, workerId);
            0.0 <= AveragePerDay(s) <= s.hours
  {
    var s := StatOf(entries, dates, workerId);
    StatHoursAreSum(entries, dates, workerId);
    if s.days > 0 {
      QuotientBounded(s.hours, s.days as real);
    }
  }

  lemma QuotientBounded(h: real, d: real)
    requires h >= 0.0 && d >= 1.0
    ensures 0.0 <= h / d <= h
  {
    assert h / d * d == h;
    assert h * (d - 1.0) >= 0.0;
  }

  /** The worker filter: 'all' or one worker id. */
  function DisplayedWorkers(workers: seq<Worker>, selected: string): seq<Worker> {
    Filter(workers, (w: Worker) => selected == "all" || w.id == selected)
  }

  /** 'all' shows every worker; any other choice shows at most the one worker with that id. */
  lemma DisplayedWorkersChoice(workers: seq<Worker>, selected: string)
    requires DistinctIds(workers)
    ensures selected == "all" ==> DisplayedWorkers(workers, selected) == workers
    ensures selected != "all" ==> |DisplayedWorkers(workers, selected)| <= 1
    ensures forall w :: w in DisplayedWorkers(workers, selected) ==> w in workers && (selected == "all" || w.id == selected)
  {
    var p := (w: Worker) => selected == "all" || w.id == selected;
    if selected == "all" {
      FilterKeepsAll(workers, p);
    } else {
      var shown := DisplayedWorkers(workers, selected);
      FilterIsSubsequence(workers, p);
      FilterMembers(workers, p);
      if |shown| > 1 {
        assert shown[0].id == selected && shown[1].id == selected;
        SubsequenceDistinct(shown, workers);
        assert false;
      }
    }
  }

  /** Ids that are distinct in a list are distinct in any of its subsequences. */
  lemma {:induction false} SubsequenceDistinct(a: seq<Worker>, b: seq<Worker>)
    requires IsSubsequence(a, b) && DistinctIds(b)
    ensures DistinctIds(a)
  {
    if a != [] && b != [] {
      if a[0] == b[0] && IsSubsequence(a[1..], b[1..]) {
        SubsequenceDistinct(a[1..], b[1..]);
        forall l | 0 < l < |a| ensures a[0].id != a[l].id {
          SubsequenceMembers(a[1..], b[1..]);
          var m :| 0 <= m < |b[1..]| && b[1..][m] == a[1..][l - 1];
          assert b[m + 1] == a[l];
        }
      } else {
        SubsequenceDistinct(a, b[1..]);
      }
    }
  }

  /** The footer's per-day total: the displayed workers' hours on that date. */
  function DayTotal(entries: seq<TimeEntry>, date: int, displayed: seq<Worker>): real {
    SumReal(displayed, (w: Worker) => DayHours(entries, date, w.id))
  }

  /** The footer's grand total: the week total for 'all', else the selected
      worker's hours, 0 for an id without a record. */
  function FooterTotal(entries: seq<TimeEntry>, dates: seq<int>, workers: seq<Worker>, selected: string): real {
    if selected == "all" then TotalWeeklyHours(entries, dates, workers)
    else if HasWorker(workers, selected) then StatOf(entries, dates, selected).hours
    else 0.0
  }

  /** Adding the footer's per-day totals over the whole week gives the
      total of the shown workers' weekly hours. */
  lemma {:induction false} WorkerHoursByDay(entries: seq<TimeEntry>, dates: seq<int>, workers: seq<Worker>)
    ensures TotalWeeklyHours(entries, dates, workers) == SumReal(dates, (d: int) => DayTotal(entries, d, workers))
  {
    if workers == [] {
      SumRealZero(dates, (d: int) => DayTotal(entries, d, workers));
    } else {
      var w, rest := workers[0], workers[1..];
      WorkerHoursByDay(entries, dates, rest);
      StatHoursByDay(entries, dates, w.id);
      SumRealAdd(dates, (d: int) => DayHours(entries, d, w.id), (d: int) => DayTotal(entries, d, rest),
                 (d: int) => DayTotal(entries, d, workers));
    }
  }

  /** With 'all' selected, the grand total equals the per-day totals added over the whole week. */
  lemma FooterTotalByDay(entries: seq<TimeEntry>, dates: seq<int>, workers: seq<Worker>)
    ensures FooterTotal(entries, dates, workers, "all")
         == SumReal(dates, (d: int) => DayTotal(entries, d, DisplayedWorkers(workers, "all")))
  {
    FilterKeepsAll(workers, (w: Worker) => "all" == "all" || w.id == "all");
    WorkerHoursByDay(entries, dates, workers);
  }
}

=== FILE: all_reports.dfy ===
/** The admin's list of all reports: sorted newest first, then filtered by a
    case-insensitive search over text and author and by a project filter. */
module AllReports {
  import opened Seqs
  import opened Text
  import opened Types

  /** `allReports`: a newest-first copy of the reports. */
  function AllReports(reports: seq<Report>): seq<Report> {
    SortDesc(reports, CreatedAt)
  }

  /** The sorted copy is a permutation of the reports, newest first, and
      reports with equal timestamps keep their order. */
  lemma AllReportsOrdered(reports: seq<Report>, t: int)
    ensures multiset(AllReports(reports)) == multiset(reports)
    ensures SortedDesc(AllReports(reports), CreatedAt)
    ensures Filter(AllReports(reports), KeyIs(CreatedAt, t)) == Filter(reports, KeyIs(CreatedAt, t))
  {
    SortDescPermutes(reports, CreatedAt);
    SortDescSorted(reports, CreatedAt);
    SortDescStable(reports, CreatedAt, t);
  }

  /** The filter of `filteredReports`: the lower-cased search occurs in the
      lower-cased text or author name, and the project filter is 'all' or the
      report's project. */
  predicate Keep(r: Report, search: string, projectFilter: string) {
    && (Contains(Lower(r.text), Lower(search)) || Contains(Lower(r.userName), Lower(search)))
    && (projectFilter == "all" || r.projectId == projectFilter)
  }

  /** `filteredReports`. */
  function FilteredReports(reports: seq<Report>, search: string, projectFilter: string): seq<Report> {
    Filter(AllReports(reports), (r: Report) => Keep(r, search, projectFilter))
  }

  /** The filtered list is an order-preserving part of the sorted list, so it is
      still newest first, and it holds exactly the sorted reports that match. */
  lemma FilteredReportsOrdered(reports: seq<Report>, search: string, projectFilter: string)
    ensures IsSubsequence(FilteredReports(reports, search, projectFilter), AllReports(reports))
    ensures SortedDesc(FilteredReports(reports, search, projectFilter), CreatedAt)
    ensures forall r :: r in FilteredReports(reports, search, projectFilter) ==> r in reports && Keep(r, search, projectFilter)
    ensures forall i :: 0 <= i < |reports| && Keep(reports[i], search, projectFilter) ==>
              reports[i] in FilteredReports(reports, search, projectFilter)
  {
    var keep := (r: Report) => Keep(r, search, projectFilter);
    FilterIsSubsequence(AllReports(reports), keep);
    SortDescSorted(reports, CreatedAt);
    FilterKeepsSorted(AllReports(reports), keep, CreatedAt);
    FilteredReportsMembers(reports, search, projectFilter);
  }

  /** The filtered list holds exactly the reports that match. */
  lemma FilteredReportsMembers(reports: seq<Report>, search: string, projectFilter: string)
    ensures forall r :: r in FilteredReports(reports, search, projectFilter) ==> r in reports && Keep(r, search, projectFilter)
    ensures forall i :: 0 <= i < |reports| && Keep(reports[i], search, projectFilter) ==>
              reports[i] in FilteredReports(reports, search, projectFilter)
  {
    var keep := (r: Report) => Keep(r, search, projectFilter);
    var all := AllReports(reports);
    AllReportsSameMembers(reports);
    FilterExact(all, keep);
  }

  /** Sorting neither adds nor loses a report. */
  lemma AllReportsSameMembers(reports: seq<Report>)
    ensures forall r :: r in AllReports(reports) <==> r in reports
  {
    SortDescPermutes(reports, CreatedAt);
    forall r ensures r in AllReports(reports) <==> r in reports {
      assert r in AllReports(reports) <==> r in multiset(AllReports(reports));
      assert r in reports <==> r in multiset(reports);
    }
  }

  /** The empty search with the 'all' filter keeps every report, newest first. */
  lemma NoFilterKeepsAll(reports: seq<Report>)
    ensures FilteredReports(reports, "", "all") == AllReports(reports)
  {
    var all := AllReports(reports);
    forall i | 0 <= i < |all| ensures Keep(all[i], "", "all") {
      assert Lower("") == "";
      assert [] <= Lower(all[i].text);
    }
    FilterKeepsAll(all, (r: Report) => Keep(r, "", "all"));
  }

  /** `getProjectName(projectId, fallback)`: the report's own project name, else
      the project lookup, else 'Unbekannt'; empty names count as missing. */
  function GetProjectName(projects: seq<Project>, projectId: string, fallback: string): (name: string)
    ensures name != ""
    ensures fallback != "" ==> name == fallback
    ensures fallback == "" && FindProject(projects, projectId).None? ==> name == "Unbekannt"
    ensures fallback == "" && FindProject(projects, projectId).Some? && FindProject(projects, projectId).value.name != "" ==>
              name == FindProject(projects, projectId).value.name
    ensures fallback == "" && FindProject(projects, projectId).Some? && FindProject(projects, projectId).value.name == "" ==>
              name == "Unbekannt"
  {
    if fallback != "" then fallback
    else if ProjectNameOf(projects, projectId) != "" then ProjectNameOf(projects, projectId)
    else "Unbekannt"
  }
}

=== FILE: auth_store.dfy ===
/** The sign-in store: the signed-in user, the token, the authenticated
    flag, the loading flag and the error message; the login request's reply
    is given as a `Response`. */
module AuthStore {
  import opened Wrappers
  import opened Types
  import opened Fetch

  /** The user record the login reply carries. */
  datatype ServerUser = ServerUser(
    id: string,
    username: string,
    name: string,
    role: UserRole,
    assignedProjects: Option<seq<string>>,
    avatarUrl: Option<string>)

  /** The login reply's body; an unreadable body reads as the empty object. */
  datatype LoginBody = LoginBody(error: Option<string>, user: Option<ServerUser>, token: Option<string>)

  const EmptyBody := LoginBody(None, None, None)

  const LoginFailed := "Anmeldung fehlgeschlagen"
  const Unreachable := "Server nicht erreichbar"

  /** The front end's user: no assignments become the empty list and an
      empty or missing avatar address becomes no avatar. */
  function MapUser(u: ServerUser): (r: User)
    ensures r.id == u.id && r.username == u.username && r.name == u.name && r.role == u.role
    ensures r.assignedProjects.Some?
    ensures u.assignedProjects.Some? ==> r.assignedProjects == u.assignedProjects
    ensures u.assignedProjects.None? ==> r.assignedProjects == Some([])
    ensures r.avatar.None? <==> u.avatarUrl.None? || u.avatarUrl == Some("")
    ensures r.avatar.Some? ==> r.avatar == u.avatarUrl
  {
    User(u.id, u.username, u.name, u.role,
         Some(u.assignedProjects.GetOr([])),
         if u.avatarUrl == Some("") then None else u.avatarUrl)
  }

  /** The message for a refused login: the server's, unless empty or missing. */
  function RefusalMessage(body: LoginBody): (m: string)
    ensures m != ""
    ensures body.error.Some? && body.error.value != "" ==> m == body.error.value
  {
    match body.error
    case Some(e) => if e != "" then e else LoginFailed
    case None => LoginFailed
  }

  /** The part kept in storage under `auth-storage`. */
  datatype Saved = Saved(user: Option<User>, token: Option<string>, isAuthenticated: bool)

  const StorageKey := "auth-storage"

  class Store {
    var user: Option<User>
    var token: Option<string>
    var isAuthenticated: bool
    var isLoading: bool
    var error: Option<string>

    /** A store after a page load: the saved part comes back, the rest starts fresh. */
    constructor (saved: Option<Saved>)
      ensures saved.Some? ==> user == saved.value.user && token == saved.value.token
                              && isAuthenticated == saved.value.isAuthenticated
      ensures saved.None? ==> user == None && token == None && !isAuthenticated
      ensures !isLoading && error == None
    {
      var s := saved.GetOr(Saved(None, None, false));
      user := s.user;
      token := s.token;
      isAuthenticated := s.isAuthenticated;
      isLoading := false;
      error := None;
    }

    /** `partialize`: only the user, the token and the flag are stored. */
    function Persisted(): (s: Saved)
      reads this
      ensures s.user == user && s.token == token && s.isAuthenticated == isAuthenticated
    {
      Saved(user, token, isAuthenticated)
    }

    /** `login`. A thrown fetch, and an ok reply whose body has no user
        (reading `data.user.id` throws), end in the same catch. */
    method Login(response: Response<LoginBody>) returns (success: bool)
      modifies this
      ensures success <==> response.Reply? && response.ok && response.body.GetOr(EmptyBody).user.Some?
      ensures success ==>
                var body := response.body.value;
                && user == Some(MapUser(body.user.value)) && token == body.token
                && isAuthenticated && error == None
      ensures !success ==> Persisted() == old(Persisted())
      ensures response.Reply? && !response.ok ==>
                error == Some(RefusalMessage(response.body.GetOr(EmptyBody)))
      ensures !success && !(response.Reply? && !response.ok) ==> error == Some(Unreachable)
      ensures !isLoading
    {
      isLoading := true;
      error := None;
      if response.Thrown? {
        isLoading := false;
        error := Some(Unreachable);
        return false;
      }
      var data := response.body.GetOr(EmptyBody);
      if !response.ok {
        isLoading := false;
        error := Some(RefusalMessage(data));
        return false;
      }
      if data.user.None? {
        isLoading := false;
        error := Some(Unreachable);
        return false;
      }
      user := Some(MapUser(data.user.value));
      token := data.token;
      isAuthenticated := true;
      isLoading := false;
      error := None;
      success := true;
    }

    /** `logout`: signed out, no error; the loading flag is left alone. */
    method Logout()
      modifies this
      ensures user == None && token == None && !isAuthenticated && error == None
      ensures isLoading == old(isLoading)
    {
      user := None;
      token := None;
      isAuthenticated := false;
      error := None;
    }

    /** `clearError`. */
    method ClearError()
      modifies this
      ensures error == None
      ensures user == old(user) && token == old(token) && isAuthenticated == old(isAuthenticated)
      ensures isLoading == old(isLoading)
    {
      error := None;
    }
  }
}

=== FILE: backend_app.dfy ===
/** The request rules of the Flask backend: upload URLs, the login input
    check, project creation and partial update, report creation with its
    lenient field parsing, the worker-assignment access rule and the names of
    exported PDF files. Database rows are inputs; what a query would find is
    passed in. */
module BackendApp {
  import opened Wrappers
  import opened Seqs
  import opened Text
  import opened Numbers
  import opened Types

  /** A value from a request: JSON, or a form field (always a string). A JSON
      object is represented by its Python `str()` text: the handlers test its
      truth, print it, or walk through its keys, which are texts sqlite binds,
      and none of that needs more than whether it is empty. */
  datatype Json = JNull | JBool(b: bool) | JInt(i: int) | JStr(s: string) | JList(items: seq<Json>) | JObject(text: string)

  /** Python truthiness. */
  predicate Truthy(v: Json) {
    match v
    case JNull => false
    case JBool(b) => b
    case JInt(i) => i != 0
    case JStr(s) => s != ""
    case JList(items) => items != []
    case JObject(text) => text != "{}"
  }

  /** `data.get(key)`: an absent key reads as `None`. */
  function Get(data: map<string, Json>, key: string): Json {
    if key in data then data[key] else JNull
  }

  /** How a handler ends: a result, an error reply with its status, or an
      uncaught exception (which Flask answers with status 500). */
  datatype Outcome<+T> = Done(value: T) | Fail(status: int, error: string) | Crash

  // ---------------------------------------------------------------------
  // Numbers as text

  /** `str(i)` in Python, `String(i)` in JavaScript. */
  function IntString(i: int): (s: string)
    ensures s != []
  {
    if i < 0 then "-" + DigitString(-i) else DigitString(i)
  }

  /** Python's `int(s)` for a string: surrounding whitespace, an optional sign,
      then decimal digits; anything else raises, which is `None` here. */
  function ParseInt(s: string): (r: Option<int>)
    ensures r.Some? <==> SignedDigits(Trim(s))
  {
    ParseSigned(Trim(s))
  }

  /** The number read is the digits' value, negated after a minus sign. */
  lemma ParseIntValue(s: string)
    requires SignedDigits(Trim(s))
    ensures var t := Trim(s);
            && (IsDigits(t) ==> ParseInt(s) == Some(DigitsValue(t) as int))
            && (t[0] == '+' ==> ParseInt(s) == Some(DigitsValue(t[1..]) as int))
            && (t[0] == '-' ==> ParseInt(s) == Some(-(DigitsValue(t[1..]) as int)))
  {
  }

  /** The texts `int()` reads: at least one decimal digit, after an optional sign. */
  predicate SignedDigits(t: string) {
    || (t != [] && IsDigits(t))
    || (|t| > 1 && (t[0] == '+' || t[0] == '-') && IsDigits(t[1..]))
  }

  /** An optional sign followed by at least one decimal digit. */
  function ParseSigned(t: string): (r: Option<int>)
    ensures r.Some? <==> SignedDigits(t)
    ensures r.Some? && IsDigits(t) ==> r.value == DigitsValue(t) as int
    ensures r.Some? && t[0] == '+' ==> r.value == DigitsValue(t[1..]) as int
    ensures r.Some? && t[0] == '-' ==> r.value == -(DigitsValue(t[1..]) as int)
  {
    var negative := t != [] && t[0] == '-';
    var digits := if t != [] && (t[0] == '-' || t[0] == '+') then t[1..] else t;
    if digits != [] && IsDigits(digits) then
      Some(if negative then -(DigitsValue(digits) as int) else DigitsValue(digits) as int)
    else None
  }

  /** A string that neither starts nor ends with whitespace is its own trim. */
  lemma TrimUnchanged(s: string)
    requires s != [] && !IsWhitespace(s[0]) && !IsWhitespace(s[|s| - 1])
    ensures Trim(s) == s
  {
    assert LeadingBlanks(s) == 0;
    assert TrimStart(s) == s;
  }

  /** A digit string reads back as its value. */
  lemma ParseDigits(d: string)
    requires d != [] && IsDigits(d)
    ensures ParseInt(d) == Some(DigitsValue(d) as int)
  {
    assert IsDigit(d[0]) && IsDigit(d[|d| - 1]);
    TrimUnchanged(d);
    assert ParseSigned(d) == Some(DigitsValue(d) as int);
  }

  /** A digit string after a minus reads back as the negated value. */
  lemma ParseMinusDigits(d: string)
    requires d != [] && IsDigits(d)
    ensures ParseInt("-" + d) == Some(-(DigitsValue(d) as int))
  {
    MinusDigitsTrimmed(d);
    ParseSignedMinus(d);
  }

  lemma ParseSignedMinus(d: string)
    requires d != [] && IsDigits(d)
    ensures ParseSigned("-" + d) == Some(-(DigitsValue(d) as int))
  {
    var m := "-" + d;
    assert m[0] == '-' && m[1..] == d;
  }

  lemma MinusDigitsTrimmed(d: string)
    requires d != [] && IsDigits(d)
    ensures Trim("-" + d) == "-" + d
  {
    var m := "-" + d;
    assert IsDigit(d[|d| - 1]);
    assert m[|m| - 1] == d[|d| - 1];
    TrimUnchanged(m);
  }

  /** Printing an integer and reading it back gives the same integer. */
  lemma ParseIntString(i: int)
    ensures ParseInt(IntString(i)) == Some(i)
  {
    var n: nat := if i < 0 then -i else i;
    DigitStringRoundTrip(n);
    if i < 0 {
      ParseMinusDigits(DigitString(n));
    } else {
      ParseDigits(DigitString(n));
    }
  }

  /** A word is refused. */
  lemma ParseIntRefusesWord()
    ensures ParseInt("abc") == None
  {
    TrimUnchanged("abc");
    assert !IsDigit("abc"[0]);
  }

  /** A decimal number is refused. */
  lemma ParseIntRefusesDecimal()
    ensures ParseInt("7.5") == None
  {
    TrimUnchanged("7.5");
    assert !IsDigit("7.5"[1]);
  }

  /** Two numbers separated by a space are refused. */
  lemma ParseIntRefusesInnerSpace()
    ensures ParseInt("1 2") == None
  {
    TrimUnchanged("1 2");
    assert !IsDigit("1 2"[1]);
  }

  /** A leading plus sign is accepted. */
  lemma ParseIntReadsPlus()
    ensures ParseInt("+5") == Some(5)
  {
    TrimUnchanged("+5");
    assert "+5"[1..] == "5" && DigitsValue("5") == 5;
  }

  /** Surrounding whitespace is accepted. */
  lemma ParseIntReadsPadded()
    ensures ParseInt(" 7 ") == Some(7)
  {
    assert Trim(" 7 ") == "7" by {
      assert LeadingBlanks(" 7 ") == 1;
      assert TrimStart(" 7 ") == "7 ";
    }
    assert DigitsValue("7") == 7;
  }

  /** Python's `str(v)`. A string inside a list is shown in single quotes. */
  function PyStr(v: Json): string {
    match v
    case JNull => "None"
    case JBool(b) => if b then "True" else "False"
    case JInt(i) => IntString(i)
    case JStr(s) => s
    case JList(items) => "[" + ReprItems(items) + "]"
    case JObject(text) => text
  }

  function ReprItems(items: seq<Json>): string
    decreases items
  {
    if items == [] then ""
    else
      var first := match items[0] case JStr(s) => "'" + s + "'" case _ => PyStr(items[0]);
      if |items| == 1 then first else first + ", " + ReprItems(items[1..])
  }

  // ---------------------------------------------------------------------
  // Upload URLs

  /** `make_url`: the host without its trailing slashes, one slash, then the
      path with backslashes turned into slashes and leading slashes removed. */
  function MakeUrl(hostUrl: string, relPath: string): string {
    RStrip(hostUrl, '/') + "/" + LStrip(ReplaceChar(relPath, '\\', '/'), '/')
  }

  /** The URL is the host part and the path part joined by exactly one slash:
      the host part does not end with one, the path part neither starts with
      one nor holds a backslash, and each part is the input with only slashes
      taken off its outer end. */
  lemma MakeUrlShape(hostUrl: string, relPath: string)
    ensures var h := RStrip(hostUrl, '/');
            var p := LStrip(ReplaceChar(relPath, '\\', '/'), '/');
            && MakeUrl(hostUrl, relPath) == h + "/" + p
            && (h == [] || h[|h| - 1] != '/')
            && (p == [] || p[0] != '/')
            && '\\' !in p
            && h <= hostUrl
            && (forall i :: |h| <= i < |hostUrl| ==> hostUrl[i] == '/')
  {
    var h := RStrip(hostUrl, '/');
    assert h == hostUrl[..|h|];
    NoBackslashLeft(relPath);
    RStripOnlySlashes(hostUrl);
  }

  /** After the replacement and the strip no backslash is left. */
  lemma NoBackslashLeft(relPath: string)
    ensures '\\' !in LStrip(ReplaceChar(relPath, '\\', '/'), '/')
  {
    var q := ReplaceChar(relPath, '\\', '/');
    var p := LStrip(q, '/');
    forall i | 0 <= i < |p| ensures p[i] != '\\' {
      assert p[i] == q[|q| - |p| + i];
    }
  }

  lemma {:induction false} RStripOnlySlashes(s: string)
    ensures forall i :: |RStrip(s, '/')| <= i < |s| ==> s[i] == '/'
  {
    if s != [] && s[|s| - 1] == '/' {
      RStripOnlySlashes(s[..|s| - 1]);
    }
  }

  // ---------------------------------------------------------------------
  // Login

  /** `(value or "").strip()`: a falsy value is the empty text, a string is
      trimmed, and any other value raises (`None`). */
  function TextOf(v: Json): Option<string> {
    if !Truthy(v) then Some("")
    else match v
      case JStr(s) => Some(Trim(s))
      case _ => None
  }

  /** The login handler's input check; the result is the trimmed username. */
  function LoginInput(data: map<string, Json>): (r: Outcome<string>)
    ensures r.Fail? ==> r.status == 400
    ensures r.Done? ==> r.value != [] && Truthy(Get(data, "password"))
  {
    match TextOf(Get(data, "username"))
    case None => Crash
    case Some(username) =>
      if username == [] || !Truthy(Get(data, "password")) then Fail(400, "Username und Passwort erforderlich")
      else Done(username)
  }

  /** A login is refused with 400 exactly when the username is blank or the password is empty. */
  lemma LoginInputRefuses(username: string, password: string)
    ensures var r := LoginInput(map["username" := JStr(username), "password" := JStr(password)]);
            && (r.Fail? <==> (forall i :: 0 <= i < |username| ==> IsWhitespace(username[i])) || password == [])
            && (r.Done? ==> r.value == Trim(username))
  {
    TrimEmptyIffBlank(username);
  }

  // ---------------------------------------------------------------------
  // Projects

  const Statuses: seq<string> := ["active", "paused", "completed", "archived"]

  /** The project that `create_project` stores. */
  datatype NewProject = NewProject(
    name: string,
    address: string,
    customerName: string,
    description: Option<string>,
    imageUrl: Option<string>,
    status: string,
    assignedWorkers: Json)

  /** `x.strip() or None`. */
  function NoneIfEmpty(s: string): Option<string> {
    if s == "" then None else Some(s)
  }

  /** `(data.get("status") or "active").strip()`, then the whitelist: a
      missing or empty status and an unknown one are both 'active'. */
  function StatusField(v: Json): (r: Option<string>)
    ensures r.None? <==> Truthy(v) && !v.JStr?
    ensures r.Some? ==> r.value in Statuses
    ensures v.JStr? && Trim(v.s) in Statuses ==> r == Some(Trim(v.s))
    ensures !Truthy(v) || (v.JStr? && Trim(v.s) !in Statuses) ==> r == Some("active")
  {
    if !Truthy(v) then Some("active")
    else match v
      case JStr(s) => Some(if Trim(s) in Statuses then Trim(s) else "active")
      case _ => None
  }

  /** Values sqlite can bind as a column parameter: null, a truth value, an
      integer or a text. A list or an object makes the INSERT raise. */
  predicate Bindable(v: Json) {
    !v.JList? && !v.JObject?
  }

  /** Assigned workers the handlers can store: a value a `for` loop can walk
      through whose items sqlite can bind. A text walks through its
      characters and an object through its keys, which all bind; a list's
      items must themselves bind. */
  predicate WorkersStorable(v: Json) {
    Iterable(v) && (v.JList? ==> forall i :: 0 <= i < |v.items| ==> Bindable(v.items[i]))
  }

  /** Values a `for` loop can walk through; any other truthy value makes
      the loop over the assigned workers raise. */
  predicate Iterable(v: Json) {
    v.JStr? || v.JList? || v.JObject?
  }

  /** `list(v)` of an iterable value: a text becomes the list of its
      characters and a list stays as it is. An object is opaque here, so the
      list of its keys is not formed and the object is passed on. */
  function ListOf(v: Json): (r: Json)
    requires Iterable(v)
    ensures r.JList? || (v.JObject? && r == v)
    ensures v.JStr? ==> |r.items| == |v.s| && forall i :: 0 <= i < |v.s| ==> r.items[i] == JStr([v.s[i]])
    ensures v.JList? ==> r == v
  {
    match v
    case JStr(s) => JList(Characters(s))
    case _ => v
  }

  /** The one-character texts of `s`, in order. */
  function Characters(s: string): (r: seq<Json>)
    ensures |r| == |s| && forall i :: 0 <= i < |s| ==> r[i] == JStr([s[i]])
  {
    if s == [] then [] else [JStr([s[0]])] + Characters(s[1..])
  }

  /** The text fields `create_project` reads are text or falsy, and the status is readable. */
  predicate ProjectTextsReadable(data: map<string, Json>) {
    && TextOf(Get(data, "name")).Some? && TextOf(Get(data, "address")).Some?
    && TextOf(Get(data, "customerName")).Some? && TextOf(Get(data, "description")).Some?
    && TextOf(Get(data, "imageUrl")).Some? && StatusField(Get(data, "status")).Some?
  }

  /** `data.get("assignedWorkers") or []` can be walked through and each
      worker id it yields can be bound into the assignment INSERT. */
  predicate WorkersIterable(data: map<string, Json>) {
    Truthy(Get(data, "assignedWorkers")) ==> WorkersStorable(Get(data, "assignedWorkers"))
  }

  /** One of the required texts is blank. */
  predicate RequiredBlank(data: map<string, Json>) {
    TextOf(Get(data, "name")) == Some("") || TextOf(Get(data, "address")) == Some("")
    || TextOf(Get(data, "customerName")) == Some("")
  }

  /** `create_project`: only an admin may create; text fields are trimmed, an
      unknown status becomes 'active', and a blank name, address or customer
      name is refused with 400. A text field of the wrong kind raises at
      once; assigned workers that cannot be walked through raise after the
      checks. */
  function CreateProject(isAdmin: bool, data: map<string, Json>): (r: Outcome<NewProject>)
    ensures !isAdmin ==> r == Fail(403, "Keine Berechtigung")
    ensures isAdmin && !ProjectTextsReadable(data) ==> r == Crash
    ensures isAdmin && ProjectTextsReadable(data) ==> (r.Fail? <==> RequiredBlank(data))
    ensures isAdmin && ProjectTextsReadable(data) && !RequiredBlank(data) ==> (r.Done? <==> WorkersIterable(data))
    ensures r.Done? ==> Some(r.value.name) == TextOf(Get(data, "name")) && r.value.name != ""
    ensures r.Done? ==> Some(r.value.address) == TextOf(Get(data, "address")) && r.value.address != ""
    ensures r.Done? ==> Some(r.value.customerName) == TextOf(Get(data, "customerName")) && r.value.customerName != ""
    ensures r.Done? ==> Some(r.value.status) == StatusField(Get(data, "status")) && r.value.status in Statuses
    ensures r.Done? ==> (TextOf(Get(data, "description")).Some?
              && r.value.description == NoneIfEmpty(TextOf(Get(data, "description")).value))
    ensures r.Done? ==> (TextOf(Get(data, "imageUrl")).Some?
              && r.value.imageUrl == NoneIfEmpty(TextOf(Get(data, "imageUrl")).value))
    ensures r.Done? ==> WorkersIterable(data)
    ensures r.Done? && !Truthy(Get(data, "assignedWorkers")) ==> r.value.assignedWorkers == JList([])
    ensures r.Done? && Truthy(Get(data, "assignedWorkers")) ==> r.value.assignedWorkers == ListOf(Get(data, "assignedWorkers"))
  {
    if !isAdmin then Fail(403, "Keine Berechtigung")
    else
      var name := TextOf(Get(data, "name"));
      var address := TextOf(Get(data, "address"));
      var customer := TextOf(Get(data, "customerName"));
      var description := TextOf(Get(data, "description"));
      var imageUrl := TextOf(Get(data, "imageUrl"));
      var status := StatusField(Get(data, "status"));
      var workers := Get(data, "assignedWorkers");
      if name.None? || address.None? || customer.None? || description.None? || imageUrl.None? || status.None? then Crash
      else if name.value == "" || address.value == "" || customer.value == "" then
        Fail(400, "name, address und customerName sind erforderlich")
      else if !WorkersIterable(data) then Crash
      else
        Done(NewProject(name.value, address.value, customer.value, NoneIfEmpty(description.value),
                        NoneIfEmpty(imageUrl.value), status.value, if Truthy(workers) then ListOf(workers) else JList([])))
  }

  /** The request keys `patch_project` looks at. */
  const PatchKeys: set<string> := {"name", "address", "customerName", "status", "description", "imageUrl", "assignedWorkers"}

  /** `str(v).strip()`. */
  function Stripped(v: Json): string {
    Trim(PyStr(v))
  }

  /** `str(v).strip() if v is not None and str(v).strip() else None`, with
      `str(v).strip()` given as `strip` (the handler's is `Stripped`). */
  function OptionalColumn(v: Json, strip: Json -> string): Option<string> {
    if v == JNull then None else NoneIfEmpty(strip(v))
  }

  /** The columns `patch_project` may set; `Clause` is the text of the
      `SET` clause the handler appends for each. */
  datatype Column = Name | Address | CustomerName | Status | Description | ImageUrl | UpdatedAt

  function Clause(c: Column): string {
    match c
    case Name => "name = ?"
    case Address => "address = ?"
    case CustomerName => "customer_name = ?"
    case Status => "status = ?"
    case Description => "description = ?"
    case ImageUrl => "image_url = ?"
    case UpdatedAt => "updated_at = ?"
  }

  /** One `SET` clause with the parameter bound to it (`None` is NULL): the
      handler's `fields` list holds the clauses, its `params` list the values. */
  datatype Assignment = Assignment(column: Column, value: Option<string>)

  /** Whether the request sets column `c`: name, address, customer and
      status when supplied and not null, description and image whenever their
      key is present, the update time always. */
  predicate Supplied(c: Column, updates: map<string, Json>) {
    match c
    case Name => Get(updates, "name") != JNull
    case Address => Get(updates, "address") != JNull
    case CustomerName => Get(updates, "customerName") != JNull
    case Status => Get(updates, "status") != JNull
    case Description => "description" in updates
    case ImageUrl => "imageUrl" in updates
    case UpdatedAt => true
  }

  /** The value the handler binds to column `c` (`None` is NULL): the
      trimmed request value; for the status, an unknown one keeps the stored
      status; a blank description or image is NULL; the update time is `now`. */
  function ColumnValue(c: Column, updates: map<string, Json>, storedStatus: string, now: string, strip: Json -> string): Option<string> {
    match c
    case Name => Some(strip(Get(updates, "name")))
    case Address => Some(strip(Get(updates, "address")))
    case CustomerName => Some(strip(Get(updates, "customerName")))
    case Status => Some(PatchedStatus(updates, storedStatus, strip))
    case Description => OptionalColumn(Get(updates, "description"), strip)
    case ImageUrl => OptionalColumn(Get(updates, "imageUrl"), strip)
    case UpdatedAt => Some(now)
  }

  /** The status a PATCH stores: the trimmed request value when it is one of
      the four known ones, otherwise the stored status is kept. */
  function PatchedStatus(updates: map<string, Json>, storedStatus: string, strip: Json -> string): (r: string)
    ensures r in Statuses || r == storedStatus
    ensures strip(Get(updates, "status")) in Statuses ==> r == strip(Get(updates, "status"))
  {
    var st := strip(Get(updates, "status"));
    if st in Statuses then st else storedStatus
  }

  function Ones(b: bool): nat {
    if b then 1 else 0
  }

  /** How many columns the request sets, the update time included. */
  function SuppliedCount(updates: map<string, Json>): nat {
    Ones(Supplied(Name, updates)) + Ones(Supplied(Address, updates)) + Ones(Supplied(CustomerName, updates))
    + Ones(Supplied(Status, updates)) + Ones(Supplied(Description, updates)) + Ones(Supplied(ImageUrl, updates)) + 1
  }

  /** `[a]` when `present`, otherwise nothing. */
  function When(present: bool, a: Assignment): seq<Assignment> {
    if present then [a] else []
  }

  /** The clause for column `c`, if the request sets it. */
  function SetsOf(c: Column, updates: map<string, Json>, storedStatus: string, now: string, strip: Json -> string): seq<Assignment> {
    When(Supplied(c, updates), Assignment(c, ColumnValue(c, updates, storedStatus, now, strip)))
  }

  /** The clauses a PATCH sets, in the handler's column order. */
  function PatchSets(updates: map<string, Json>, storedStatus: string, now: string, strip: Json -> string): seq<Assignment> {
    SetsOf(Name, updates, storedStatus, now, strip) + SetsOf(Address, updates, storedStatus, now, strip)
    + SetsOf(CustomerName, updates, storedStatus, now, strip) + SetsOf(Status, updates, storedStatus, now, strip)
    + SetsOf(Description, updates, storedStatus, now, strip) + SetsOf(ImageUrl, updates, storedStatus, now, strip)
    + SetsOf(UpdatedAt, updates, storedStatus, now, strip)
  }

  /** What a PATCH sets: every column the request supplies, bound to its
      value, and nothing else. */
  lemma PatchSetsMembers(updates: map<string, Json>, storedStatus: string, now: string, strip: Json -> string)
    ensures forall a :: a in PatchSets(updates, storedStatus, now, strip) <==>
              Supplied(a.column, updates) && a.value == ColumnValue(a.column, updates, storedStatus, now, strip)
  {
    var name := SetsOf(Name, updates, storedStatus, now, strip);
    var address := SetsOf(Address, updates, storedStatus, now, strip);
    var customer := SetsOf(CustomerName, updates, storedStatus, now, strip);
    var status := SetsOf(Status, updates, storedStatus, now, strip);
    var description := SetsOf(Description, updates, storedStatus, now, strip);
    var image := SetsOf(ImageUrl, updates, storedStatus, now, strip);
    var time := SetsOf(UpdatedAt, updates, storedStatus, now, strip);
    var r := PatchSets(updates, storedStatus, now, strip);
    assert r == name + address + customer + status + description + image + time;
    forall a ensures a in r <==> a in SetsOf(a.column, updates, storedStatus, now, strip) {
      assert a in r <==> a in name || a in address || a in customer || a in status
                         || a in description || a in image || a in time;
    }
  }

  /** There are as many clauses as supplied columns, so none is set twice,
      and the update time is always set, last. */
  lemma PatchSetsShape(updates: map<string, Json>, storedStatus: string, now: string, strip: Json -> string)
    ensures var r := PatchSets(updates, storedStatus, now, strip);
            && |r| == SuppliedCount(updates)
            && r != [] && r[|r| - 1] == Assignment(UpdatedAt, Some(now))
  {
  }

  /** With Python's `str(v).strip()` as the strip, a PATCH of a name sent as
      text stores the name stripped, and sets nothing but the name and the
      update time. */
  lemma PatchStoresStrippedName(s: string, storedStatus: string, now: string)
    ensures PatchSets(map["name" := JStr(s)], storedStatus, now, Stripped)
            == [Assignment(Name, Some(Trim(s))), Assignment(UpdatedAt, Some(now))]
  {
  }

  /** One `if ...: fields.append(...); params.append(...)` step of the handler. */
  method AppendIf(present: bool, sets: seq<Assignment>, column: Column, value: Option<string>)
    returns (sets': seq<Assignment>)
    ensures sets' == sets + When(present, Assignment(column, value))
  {
    sets' := sets;
    if present {
      sets' := sets + [Assignment(column, value)];
    }
  }

  /** `patch_project` after its checks: the `SET` clauses with their values,
      in the handler's order; `PatchSetsMembers` and `PatchSetsShape` say
      what they are.
      `str(v).strip()` is given as `strip` (it is `Stripped`), and the project
      id that closes the parameters is not part of the result. */
  method PatchAssignments(updates: map<string, Json>, storedStatus: string, now: string, strip: Json -> string)
    returns (sets: seq<Assignment>)
    ensures sets == PatchSets(updates, storedStatus, now, strip)
  {
    sets := [];
    sets := AppendIf(Get(updates, "name") != JNull, sets, Name, Some(strip(Get(updates, "name"))));
    sets := AppendIf(Get(updates, "address") != JNull, sets, Address, Some(strip(Get(updates, "address"))));
    sets := AppendIf(Get(updates, "customerName") != JNull, sets, CustomerName, Some(strip(Get(updates, "customerName"))));
    var st := strip(Get(updates, "status"));
    if st !in Statuses {
      st := storedStatus;
    }
    sets := AppendIf(Get(updates, "status") != JNull, sets, Status, Some(st));
    sets := AppendIf("description" in updates, sets, Description, OptionalColumn(Get(updates, "description"), strip));
    sets := AppendIf("imageUrl" in updates, sets, ImageUrl, OptionalColumn(Get(updates, "imageUrl"), strip));
    sets := AppendIf(true, sets, UpdatedAt, Some(now));
    assert [] + SetsOf(Name, updates, storedStatus, now, strip) == SetsOf(Name, updates, storedStatus, now, strip);
  }

  /** The new assigned workers of a PATCH can be stored: absent, null, or
      an iterable value whose worker ids sqlite can bind. Anything else makes
      the handler's `for` loop or its INSERT raise. */
  predicate PatchWorkersIterable(data: map<string, Json>) {
    Get(data, "assignedWorkers") != JNull ==> WorkersStorable(Get(data, "assignedWorkers"))
  }

  /** `patch_project`'s checks: admins only, at least one whitelisted key
      (its value may even be null), and an existing project; then assigned
      workers that cannot be walked through raise. The result is the
      whitelisted part of the request. */
  function PatchRequest(isAdmin: bool, data: map<string, Json>, projectExists: bool): (r: Outcome<map<string, Json>>)
    ensures r.Done? ==> r.value.Keys == data.Keys * PatchKeys && r.value.Keys != {}
    ensures r.Done? ==> forall k :: k in r.value ==> r.value[k] == data[k]
    ensures !isAdmin ==> r == Fail(403, "Keine Berechtigung")
    ensures isAdmin && data.Keys * PatchKeys == {} ==> r == Fail(400, "Keine Änderungen")
    ensures isAdmin && data.Keys * PatchKeys != {} && !projectExists ==> r.Fail? && r.status == 404
    ensures isAdmin && data.Keys * PatchKeys != {} && projectExists ==> (r.Done? <==> PatchWorkersIterable(data))
    ensures isAdmin && data.Keys * PatchKeys != {} && projectExists && !PatchWorkersIterable(data) ==> r == Crash
  {
    if !isAdmin then Fail(403, "Keine Berechtigung")
    else
      var updates := map k | k in data.Keys * PatchKeys :: data[k];
      if data.Keys * PatchKeys == {} then Fail(400, "Keine Änderungen")
      else if !projectExists then Fail(404, "Projekt nicht gefunden")
      else if !PatchWorkersIterable(data) then Crash
      else Done(updates)
  }

  // ---------------------------------------------------------------------
  // Reports

  /** The quick-action list: a list is kept, a string is parsed as JSON and
      kept only if that gives a list, and anything else is no actions. `parse`
      is `json.loads` (`None` when it raises). */
  function QuickActionList(raw: Json, parse: string -> Option<Json>): seq<Json> {
    if !Truthy(raw) then []
    else match raw
      case JList(items) => items
      case JStr(s) =>
        (match parse(s)
         case Some(JList(items)) => items
         case _ => [])
      case _ => []
  }

  /** The lenient quick-action parse keeps exactly lists and strings that parse to lists. */
  lemma QuickActionListCases(raw: Json, parse: string -> Option<Json>)
    ensures raw.JList? ==> QuickActionList(raw, parse) == raw.items
    ensures raw.JStr? && raw.s != "" && parse(raw.s).Some? && parse(raw.s).value.JList? ==>
              QuickActionList(raw, parse) == parse(raw.s).value.items
    ensures raw.JStr? && (parse(raw.s).None? || !parse(raw.s).value.JList?) ==> QuickActionList(raw, parse) == []
    ensures !raw.JList? && !raw.JStr? ==> QuickActionList(raw, parse) == []
  {
  }

  /** `workersPresent` / `breakMinutes`: null or blank is no value, a value
      `int()` rejects is no value, anything else is the integer. */
  function OptionalInt(v: Json): Option<int> {
    if v == JNull || Trim(PyStr(v)) == "" then None
    else match v
      case JStr(s) => ParseInt(s)
      case JInt(i) => Some(i)
      case JBool(b) => Some(if b then 1 else 0)
      case _ => None
  }

  /** A number sent as text comes back as the same number; an empty text is no value. */
  lemma OptionalIntOfText(i: int)
    ensures OptionalInt(JStr(IntString(i))) == Some(i)
    ensures OptionalInt(JStr("")) == None
    ensures OptionalInt(JNull) == None
  {
    ParseIntString(i);
    assert Trim(IntString(i)) != [] by {
      var s := IntString(i);
      TrimUnchanged(s);
    }
  }

  /** Which values `int()` turns into a number: a text exactly when it is a
      signed digit string (so a word or a decimal gives no value), an integer
      and a truth value as themselves, a list or an object never. */
  lemma OptionalIntCases(v: Json)
    ensures v.JStr? && Trim(v.s) != "" ==> OptionalInt(v) == ParseInt(v.s)
    ensures v.JStr? ==> (OptionalInt(v).Some? <==> SignedDigits(Trim(v.s)))
    ensures v.JInt? ==> OptionalInt(v) == Some(v.i)
    ensures v.JBool? ==> OptionalInt(v) == Some(if v.b then 1 else 0)
    ensures v.JList? || v.JObject? ==> OptionalInt(v) == None
  {
    if v.JInt? {
      TrimUnchanged(IntString(v.i));
    }
    if v.JBool? {
      TrimUnchanged(PyStr(v));
    }
  }

  /** A word sent as text is stored as no value. */
  lemma OptionalIntRefusesWords()
    ensures OptionalInt(JStr("abc")) == None
  {
    ParseIntRefusesWord();
    OptionalIntWord("abc");
  }

  /** A decimal number sent as text is stored as no value. */
  lemma OptionalIntRefusesDecimals()
    ensures OptionalInt(JStr("7.5")) == None
  {
    ParseIntRefusesDecimal();
    OptionalIntWord("7.5");
  }

  /** A number with a plus sign sent as text is stored as that number. */
  lemma OptionalIntReadsPlus()
    ensures OptionalInt(JStr("+5")) == Some(5)
  {
    ParseIntReadsPlus();
    OptionalIntWord("+5");
  }

  /** A text that is its own trim and not blank is read by `int()` alone. */
  lemma OptionalIntWord(s: string)
    requires s != [] && !IsWhitespace(s[0]) && !IsWhitespace(s[|s| - 1])
    ensures OptionalInt(JStr(s)) == ParseInt(s)
  {
    TrimUnchanged(s);
  }

  /** The report row `create_report` stores. */
  datatype StoredReport = StoredReport(
    projectId: string,
    userId: string,
    text: string,
    quickActions: seq<Json>,
    weather: Json,
    workersPresent: Option<int>,
    startTime: Option<string>,
    endTime: Option<string>,
    breakMinutes: Option<int>)

  /** What the database knows about the request: the caller's role (if the
      user exists), whether the caller is assigned to the project, and
      whether the project exists. */
  datatype Lookup = Lookup(role: Option<UserRole>, isAssigned: bool, projectExists: bool)

  /** The worker-assignment rule: an unknown user is refused with 401, a worker
      not assigned to the project with 403; an admin always passes. */
  function AccessCheck(role: Option<UserRole>, isAssigned: bool, denial: string): (r: Outcome<()>)
    ensures r.Done? <==> role.Some? && (role.value == Admin || isAssigned)
    ensures role.None? ==> r == Fail(401, "Ungültiger oder abgelaufener Token")
    ensures role == Some(Worker) && !isAssigned ==> r == Fail(403, denial)
  {
    match role
    case None => Fail(401, "Ungültiger oder abgelaufener Token")
    case Some(Admin) => Done(())
    case Some(Worker) => if isAssigned then Done(()) else Fail(403, denial)
  }

  /** `create_report`'s input check: a project id, and text or quick actions. */
  predicate ReportInputMissing(projectId: string, text: string, actions: seq<Json>) {
    projectId == "" || (text == "" && actions == [])
  }

  /** The text fields `create_report` strips are text or falsy. */
  predicate ReportTextsReadable(data: map<string, Json>) {
    && TextOf(Get(data, "projectId")).Some? && TextOf(Get(data, "text")).Some?
    && TextOf(Get(data, "startTime")).Some? && TextOf(Get(data, "endTime")).Some?
  }

  /** The request passes the input check. */
  predicate ReportInputPresent(data: map<string, Json>, parse: string -> Option<Json>)
    requires ReportTextsReadable(data)
  {
    !ReportInputMissing(TextOf(Get(data, "projectId")).value, TextOf(Get(data, "text")).value,
                        QuickActionList(Get(data, "quickActions"), parse))
  }

  /** `create_report` up to the INSERT: fields are read and normalised one by
      one, the input is checked, then the caller's access and the project. */
  method CreateReport(userId: string, data: map<string, Json>, parse: string -> Option<Json>, db: Lookup)
    returns (outcome: Outcome<StoredReport>)
    ensures TextOf(Get(data, "projectId")).None? || TextOf(Get(data, "text")).None? ==> outcome == Crash
    ensures TextOf(Get(data, "startTime")).None? || TextOf(Get(data, "endTime")).None? ==> outcome == Crash
    ensures outcome.Done? ==>
              var r := outcome.value;
              && Some(r.projectId) == TextOf(Get(data, "projectId"))
              && Some(r.text) == TextOf(Get(data, "text"))
              && !ReportInputMissing(r.projectId, r.text, r.quickActions)
              && r.quickActions == QuickActionList(Get(data, "quickActions"), parse)
              && r.userId == userId && r.weather == Get(data, "weather") && Bindable(r.weather)
              && r.workersPresent == OptionalInt(Get(data, "workersPresent"))
              && r.breakMinutes == OptionalInt(Get(data, "breakMinutes"))
              && r.startTime == NoneIfEmpty(TextOf(Get(data, "startTime")).value)
              && r.endTime == NoneIfEmpty(TextOf(Get(data, "endTime")).value)
              && AccessCheck(db.role, db.isAssigned, "").Done? && db.projectExists
    ensures outcome.Fail? && outcome.status == 400 <==>
              (TextOf(Get(data, "projectId")).Some? && TextOf(Get(data, "text")).Some?
               && TextOf(Get(data, "startTime")).Some? && TextOf(Get(data, "endTime")).Some?
               && ReportInputMissing(TextOf(Get(data, "projectId")).value, TextOf(Get(data, "text")).value,
                                     QuickActionList(Get(data, "quickActions"), parse)))
    ensures ReportTextsReadable(data) && ReportInputPresent(data, parse) && db.role.None? ==>
              outcome == Fail(401, "Ungültiger oder abgelaufener Token")
    ensures ReportTextsReadable(data) && ReportInputPresent(data, parse) && db.role == Some(Worker) && !db.isAssigned ==>
              outcome == Fail(403, "Kein Zugriff auf dieses Projekt")
    ensures ReportTextsReadable(data) && ReportInputPresent(data, parse) && AccessCheck(db.role, db.isAssigned, "").Done? ==>
              (if !db.projectExists then outcome == Fail(404, "Projekt nicht gefunden")
               else if Bindable(Get(data, "weather")) then outcome.Done?
               else outcome == Crash)
  {
    var projectId := TextOf(Get(data, "projectId"));
    var text := TextOf(Get(data, "text"));
    var rawActions := Get(data, "quickActions");
    var weather := Get(data, "weather");
    var startTime := TextOf(Get(data, "startTime"));
    var endTime := TextOf(Get(data, "endTime"));
    if projectId.None? || text.None? || startTime.None? || endTime.None? {
      return Crash;
    }
    var actions := QuickActionList(rawActions, parse);
    if ReportInputMissing(projectId.value, text.value, actions) {
      return Fail(400, "projectId und (text oder quickActions) sind erforderlich");
    }
    var access := AccessCheck(db.role, db.isAssigned, "Kein Zugriff auf dieses Projekt");
    if access.Fail? {
      return Fail(access.status, access.error);
    }
    if !db.projectExists {
      return Fail(404, "Projekt nicht gefunden");
    }
    if !Bindable(weather) {
      return Crash;
    }
    var workers := OptionalInt(Get(data, "workersPresent"));
    var breakMinutes := OptionalInt(Get(data, "breakMinutes"));
    outcome := Done(StoredReport(projectId.value, userId, text.value, actions, weather, workers,
                                 NoneIfEmpty(startTime.value), NoneIfEmpty(endTime.value), breakMinutes));
  }

  // ---------------------------------------------------------------------
  // PDF export

  /** The download name of a project's PDF. */
  function ProjectPdfName(projectName: string): string {
    "Projekt_" + ReplaceChar(projectName, ' ', '_') + ".pdf"
  }

  /** The download name of a report's PDF. */
  function ReportPdfName(projectName: string, reportId: string): string {
    "Bericht_" + ReplaceChar(projectName, ' ', '_') + "_" + reportId + ".pdf"
  }

  /** The file names contain no space from the project name (only the report
      id's own spaces remain), and the name can be read back with every space
      turned into an underscore. */
  lemma PdfNamesWithoutSpaces(projectName: string, reportId: string)
    ensures ' ' !in ProjectPdfName(projectName)
    ensures ' ' !in reportId ==> ' ' !in ReportPdfName(projectName, reportId)
    ensures ProjectPdfName(projectName)[8..|ProjectPdfName(projectName)| - 4] == ReplaceChar(projectName, ' ', '_')
  {
    var safe := ReplaceChar(projectName, ' ', '_');
    assert ' ' !in safe by {
      forall i | 0 <= i < |safe| ensures safe[i] != ' ' {
      }
    }
    var p := ProjectPdfName(projectName);
    assert p == "Projekt_" + safe + ".pdf";
    assert p[8..|p| - 4] == safe;
  }
}

=== FILE: backend_auth.dfy ===
/** The backend's request gate: the local-request test, the solo-mode
    shortcut, the Bearer-token check in front of every protected handler, and
    the admin test. Token decoding (signature, expiry, claims) and the
    database lookups are parameters. */
module BackendAuth {
  import opened Wrappers
  import opened Text
  import opened Types

  /** The addresses counted as this machine. */
  const LocalAddresses: set<string> := {"127.0.0.1", "::1"}

  /** `_is_local_request`: a missing address counts as the empty one. */
  function IsLocal(remoteAddr: Option<string>): (r: bool)
    ensures r <==> remoteAddr == Some("127.0.0.1") || remoteAddr == Some("::1")
  {
    remoteAddr.GetOr("") in LocalAddresses
  }

  /** The text after the first `c`, or nothing when `s` has no `c`
      (`s.split(c, 1)[1]`, which raises in the latter case). */
  function AfterFirst(s: string, c: char): (r: Option<string>)
    ensures r.None? <==> c !in s
    ensures r.Some? ==> |r.value| < |s| && r.value == s[|s| - |r.value|..]
  {
    if s == [] then None
    else if s[0] == c then Some(s[1..])
    else AfterFirst(s[1..], c)
  }

  /** Whatever follows `a`, when `a` has no `c`, is split off at the `c` that ends `a`. */
  lemma {:induction false} AfterFirstPastPrefix(a: string, c: char, b: string)
    requires c !in a
    ensures AfterFirst(a + [c] + b, c) == Some(b)
  {
    var s := a + [c] + b;
    if a == [] {
      assert s[0] == c && s[1..] == b;
    } else {
      assert a[0] in a;
      assert s[0] == a[0] && s[0] != c;
      assert s[1..] == a[1..] + [c] + b;
      assert c !in a[1..] by {
        forall k | 0 <= k < |a[1..]| ensures a[1..][k] != c {
          assert a[1..][k] == a[k + 1] && a[k + 1] in a;
        }
      }
      AfterFirstPastPrefix(a[1..], c, b);
    }
  }

  const BearerPrefix := "Bearer "

  /** The header carries a token: it is non-empty and starts with `Bearer `. */
  predicate HasBearer(header: string) {
    header != "" && BearerPrefix <= header
  }

  /** The token handed to the decoder: everything after `Bearer `, stripped. */
  lemma BearerToken(header: string)
    requires HasBearer(header)
    ensures AfterFirst(header, ' ') == Some(header[|BearerPrefix|..])
  {
    assert header == "Bearer" + [' '] + header[|BearerPrefix|..];
    AfterFirstPastPrefix("Bearer", ' ', header[|BearerPrefix|..]);
  }

  /** What the gate does with a request: call the handler as a user, or answer with an error. */
  datatype Gate = Proceed(userId: string) | Refuse(status: int, error: string)

  const MissingToken := "Token fehlt"
  const InvalidToken := "Ungültiger oder abgelaufener Token"

  /** The solo-mode shortcut applies: solo mode is on, the request is local
      or need not be, and there is an admin to act as. */
  predicate SoloShortcut(soloMode: bool, soloLocalOnly: bool, remoteAddr: Option<string>, oldestAdmin: Option<string>) {
    soloMode && (!soloLocalOnly || IsLocal(remoteAddr)) && oldestAdmin.Some?
  }

  /** `token_required`. `oldestAdmin` is the id of the earliest created admin
      if there is one; a missing `Authorization` header is `None`; `decode`
      gives the token's `user_id`, or nothing when decoding fails in any way. */
  function TokenGate(soloMode: bool, soloLocalOnly: bool, remoteAddr: Option<string>, oldestAdmin: Option<string>,
                     header: Option<string>, decode: string -> Option<string>): (r: Gate)
    ensures SoloShortcut(soloMode, soloLocalOnly, remoteAddr, oldestAdmin) ==> r == Proceed(oldestAdmin.value)
    ensures !SoloShortcut(soloMode, soloLocalOnly, remoteAddr, oldestAdmin) ==>
              var h := header.GetOr("");
              && (!HasBearer(h) ==> r == Refuse(401, MissingToken))
              && (HasBearer(h) ==>
                    match decode(Trim(h[|BearerPrefix|..]))
                    case None => r == Refuse(401, InvalidToken)
                    case Some(id) => r == Proceed(id))
  {
    if soloMode && (!soloLocalOnly || IsLocal(remoteAddr)) && oldestAdmin.Some? then
      Proceed(oldestAdmin.value)
    else
      var token := header.GetOr("");
      if token == "" || !(BearerPrefix <= token) then Refuse(401, MissingToken)
      else
        BearerToken(token);
        match AfterFirst(token, ' ')
        case None => Refuse(401, InvalidToken)
        case Some(rest) =>
          match decode(Trim(rest))
          case None => Refuse(401, InvalidToken)
          case Some(id) => Proceed(id)
  }

  /** Every refusal is a 401, and without the shortcut a request gets through
      exactly when it carries a Bearer token that decodes. Solo mode
      restricted to local requests never lets a remote request skip the token. */
  lemma TokenGateDecides(soloMode: bool, soloLocalOnly: bool, remoteAddr: Option<string>, oldestAdmin: Option<string>,
                         header: Option<string>, decode: string -> Option<string>)
    ensures var r := TokenGate(soloMode, soloLocalOnly, remoteAddr, oldestAdmin, header, decode);
            && (r.Refuse? ==> r.status == 401)
            && (!SoloShortcut(soloMode, soloLocalOnly, remoteAddr, oldestAdmin) ==>
                  (r.Proceed? <==> header.Some? && HasBearer(header.value)
                                   && decode(Trim(header.value[|BearerPrefix|..])).Some?))
            && (soloLocalOnly && !IsLocal(remoteAddr) ==>
                  r == TokenGate(false, soloLocalOnly, remoteAddr, oldestAdmin, header, decode))
  {
  }

  /** `require_admin`: the user's row, if any, carries the role `admin`. */
  function RequireAdmin(row: Option<UserRole>): (r: bool)
    ensures r <==> row.Some? && row.value == Admin
  {
    match row
    case Some(role) => role == Admin
    case None => false
  }
}

=== FILE: calendar.dfy ===
/** Calendar days and the Monday-first week window both timesheet pages
    show. A date is a day number counted from 1970-01-01, which was a
    Thursday; the weekday numbering is JavaScript's `getDay`, 0 for Sunday
    through 6 for Saturday. */
module Calendar {

  /** `date.getDay()`. */
  function DayOfWeek(d: int): (w: int)
    ensures 0 <= w < 7
  {
    (d + 4) % 7
  }

  const Sunday := 0
  const Monday := 1

  /** The Monday of the week holding `d`: `getDate() - day + (day === 0 ? -6 : 1)`,
      so a Sunday belongs to the week that started six days earlier. */
  function WeekStart(d: int): (s: int)
    ensures DayOfWeek(s) == Monday
    ensures s <= d < s + 7
  {
    var day := DayOfWeek(d);
    d - day + (if day == Sunday then -6 else 1)
  }

  /** The seven dates of the week holding `d`, Monday first. */
  function WeekDates(d: int): (r: seq<int>)
    ensures |r| == 7
  {
    var s := WeekStart(d);
    [s, s + 1, s + 2, s + 3, s + 4, s + 5, s + 6]
  }

  /** `getWeekDates(date)`: find the Monday, then push seven consecutive dates. */
  method GetWeekDates(date: int) returns (dates: seq<int>)
    ensures dates == WeekDates(date)
  {
    var day := DayOfWeek(date);
    var start := date - day + (if day == Sunday then -6 else 1);
    dates := [];
    for i := 0 to 7
      invariant |dates| == i
      invariant forall k :: 0 <= k < i ==> dates[k] == start + k
    {
      dates := dates + [start + i];
    }
  }

  /** The window is seven consecutive days, starts on a Monday and holds the reference date. */
  lemma WeekDatesShape(d: int)
    ensures DayOfWeek(WeekDates(d)[0]) == Monday
    ensures forall i :: 0 < i < 7 ==> WeekDates(d)[i] == WeekDates(d)[i - 1] + 1
    ensures d in WeekDates(d)
  {
    var s := WeekStart(d);
    assert WeekDates(d)[d - s] == d;
  }

  /** Every date of a window selects that same window: the week is well defined. */
  lemma {:induction false} WeekDatesOfMember(d: int, x: int)
    requires x in WeekDates(d)
    ensures WeekDates(x) == WeekDates(d)
  {
    var s, t := WeekStart(d), WeekStart(x);
    assert s <= x < s + 7;
    assert (t - s) % 7 == 0 by {
      assert DayOfWeek(t) == DayOfWeek(s);
    }
  }

  /** Moving the reference date by seven days moves the whole window by one week. */
  lemma WeekDatesShift(d: int)
    ensures WeekStart(d + 7) == WeekStart(d) + 7
    ensures WeekStart(d - 7) == WeekStart(d) - 7
  {
    assert DayOfWeek(d + 7) == DayOfWeek(d);
    assert DayOfWeek(d - 7) == DayOfWeek(d);
  }

  /** The week a timesheet page shows, by its reference date (`selectedWeek`). */
  class WeekSelection {
    var selected: int

    constructor (today: int)
      ensures selected == today
    {
      selected := today;
    }

    /** `prevWeek`: the reference date moves back exactly seven days. */
    method PrevWeek()
      modifies this
      ensures selected == old(selected) - 7
      ensures WeekStart(selected) == WeekStart(old(selected)) - 7
    {
      WeekDatesShift(selected);
      selected := selected - 7;
    }

    /** `nextWeek`: the reference date moves forward exactly seven days. */
    method NextWeek()
      modifies this
      ensures selected == old(selected) + 7
      ensures WeekStart(selected) == WeekStart(old(selected)) + 7
    {
      WeekDatesShift(selected);
      selected := selected + 7;
    }

    /** `goToCurrentWeek`: the reference date becomes today (the clock is a parameter). */
    method GoToCurrentWeek(today: int)
      modifies this
      ensures selected == today
    {
      selected := today;
    }
  }
}

=== FILE: dashboard.dfy ===
/** The figures of the start page: active projects, the report total, the
    latest report, the reports of the last 24 hours and the "open hints"
    (reports that mention missing material, an inspection or a problem). */
module Dashboard {
  import opened Wrappers
  import opened Seqs
  import opened Text
  import opened Types

  const MillisPerDay := 24 * 60 * 60 * 1000

  predicate IsActive(p: Project) {
    p.status == Active
  }

  /** `activeProjects`. */
  function ActiveProjects(projects: seq<Project>): seq<Project> {
    Filter(projects, IsActive)
  }

  /** The active projects are exactly the projects with status 'active', in their order. */
  lemma {:induction false} ActiveProjectsExact(projects: seq<Project>)
    ensures forall p :: p in ActiveProjects(projects) ==> p in projects && p.status == Active
    ensures forall i :: 0 <= i < |projects| && projects[i].status == Active ==> projects[i] in ActiveProjects(projects)
    ensures IsSubsequence(ActiveProjects(projects), projects)
  {
    FilterIsSubsequence(projects, IsActive);
    FilterMembers(projects, IsActive);
  }

  function ReportsCountOrZero(p: Project): int {
    p.reportsCount.GetOr(0)
  }

  /** `totalReports`: the sum of `reportsCount`, a missing count adding 0. */
  function TotalReports(projects: seq<Project>): int {
    SumInt(projects, ReportsCountOrZero)
  }

  /** With non-negative counts the total is non-negative, and the projects of
      two lists add up. */
  lemma TotalReportsAdds(a: seq<Project>, b: seq<Project>)
    requires forall i :: 0 <= i < |a| ==> ReportsCountOrZero(a[i]) >= 0
    ensures TotalReports(a) >= 0
    ensures TotalReports(a + b) == TotalReports(a) + TotalReports(b)
  {
    SumIntNonNegative(a, ReportsCountOrZero);
    SumIntConcat(a, b, ReportsCountOrZero);
  }

  /** `latestReport`: the reduction keeping the later of two reports by a strict `>`. */
  function LatestReport(reports: seq<Report>): Option<Report> {
    Latest(reports, CreatedAt)
  }

  /** No latest report exactly when there are no reports; otherwise it is the
      first report with the greatest timestamp. */
  lemma LatestReportIsFirstNewest(reports: seq<Report>)
    ensures LatestReport(reports).None? <==> reports == []
    ensures reports != [] ==> exists i :: IsFirstMaximum(reports, CreatedAt, i) && LatestReport(reports) == Some(reports[i])
  {
    LatestIsFirstMaximum(reports, CreatedAt);
  }

  /** `new Map(projects.map((p) => [p.id, p.name])).get(id)`: a later
      project with the same id overwrites an earlier one, so the name is the
      last one with that id; no project gives nothing (the empty text). */
  function NameById(projects: seq<Project>, id: string): (r: string)
    ensures (forall i :: 0 <= i < |projects| ==> projects[i].id != id) ==> r == ""
    ensures (exists i :: 0 <= i < |projects| && projects[i].id == id) ==>
              exists i :: 0 <= i < |projects| && projects[i].id == id && r == projects[i].name
                          && forall j :: i < j < |projects| ==> projects[j].id != id
  {
    if projects == [] then ""
    else if projects[|projects| - 1].id == id then projects[|projects| - 1].name
    else NameById(projects[..|projects| - 1], id)
  }

  /** The project line under the latest report: its `projectName`, else the
      project lookup, else 'Unbekanntes Projekt'; 'Kein Bericht' without reports. */
  function LatestReportProject(reports: seq<Report>, projects: seq<Project>): (r: string)
    ensures r != ""
    ensures reports == [] ==> r == "Kein Bericht"
    ensures reports != [] ==>
              var latest := LatestReport(reports).value;
              && (latest.projectName.GetOr("") != "" ==> r == latest.projectName.value)
              && (latest.projectName.GetOr("") == "" && NameById(projects, latest.projectId) != "" ==>
                    r == NameById(projects, latest.projectId))
              && (latest.projectName.GetOr("") == "" && NameById(projects, latest.projectId) == "" ==>
                    r == "Unbekanntes Projekt")
  {
    match LatestReport(reports)
    case None => "Kein Bericht"
    case Some(latest) =>
      if latest.projectName.GetOr("") != "" then latest.projectName.value
      else if NameById(projects, latest.projectId) != "" then NameById(projects, latest.projectId)
      else "Unbekanntes Projekt"
  }

  /** `todayReports`: reports created at most 24 hours before `now`. */
  function TodayReports(reports: seq<Report>, now: int): seq<Report> {
    Filter(reports, (r: Report) => r.createdAt >= now - MillisPerDay)
  }

  lemma {:induction false} TodayReportsExact(reports: seq<Report>, now: int)
    ensures forall r :: r in TodayReports(reports, now) ==> r in reports && r.createdAt >= now - MillisPerDay
    ensures forall i :: 0 <= i < |reports| && reports[i].createdAt >= now - MillisPerDay ==>
              reports[i] in TodayReports(reports, now)
  {
    FilterMembers(reports, (r: Report) => r.createdAt >= now - MillisPerDay);
  }

  /** The quick actions joined by a space and lower-cased; '' when there are none. */
  function TagText(r: Report): string {
    match r.quickActions
    case None => ""
    case Some(actions) => Lower(Join(actions, " "))
  }

  /** The open-hint classifier: the joined tags mention 'material fehlt' or
      'inspektion', or the text mentions 'problem', ignoring case. */
  predicate IsOpenHint(r: Report) {
    || Contains(TagText(r), "material fehlt")
    || Contains(TagText(r), "inspektion")
    || Contains(Lower(r.text), "problem")
  }

  /** `openHints`. */
  function OpenHints(reports: seq<Report>): seq<Report> {
    Filter(reports, IsOpenHint)
  }

  /** The open hints are the flagged reports, in their original order. */
  lemma {:induction false} OpenHintsExact(reports: seq<Report>)
    ensures IsSubsequence(OpenHints(reports), reports)
    ensures forall r :: r in OpenHints(reports) ==> r in reports && IsOpenHint(r)
    ensures forall i :: 0 <= i < |reports| && IsOpenHint(reports[i]) ==> reports[i] in OpenHints(reports)
  {
    FilterIsSubsequence(reports, IsOpenHint);
    FilterMembers(reports, IsOpenHint);
  }

  /** Tags are matched as one joined string, so a phrase may span two tags:
      the separate tags 'Material' and 'Fehlt' flag a report. */
  lemma MatchSpansTags(r: Report)
    requires r.quickActions == Some(["Material", "Fehlt"])
    ensures IsOpenHint(r)
  {
    var tags: seq<string> := ["Material", "Fehlt"];
    assert tags[1..] == ["Fehlt"];
    var joined := Join(tags, " ");
    assert joined == "Material" + " " + "Fehlt";
    var lowered := Lower(joined);
    forall i | 0 <= i < |lowered| ensures lowered[i] == "material fehlt"[i] {
    }
    assert lowered == "material fehlt";
    assert "material fehlt" <= TagText(r);
  }

  /** A report tagged with the 'Inspektion' quick action is an open hint. */
  lemma InspectionTagFlags(r: Report)
    requires r.quickActions == Some(["Inspektion"])
    ensures IsOpenHint(r)
  {
    var tags: seq<string> := ["Inspektion"];
    assert Join(tags, " ") == "Inspektion";
    InspectionLowered(Join(tags, " "));
    assert TagText(r) == "inspektion";
    assert Contains(TagText(r), "inspektion");
  }

  lemma InspectionLowered(tag: string)
    requires tag == "Inspektion"
    ensures Lower(tag) == "inspektion"
  {
    assert tag[1..] == "nspektion";
    LowerKeepsLowercase(tag[1..]);
  }

  /** `latestOpenHint`. */
  function LatestOpenHint(reports: seq<Report>): Option<Report> {
    Latest(OpenHints(reports), CreatedAt)
  }

  /** No latest hint exactly when there is no hint; otherwise it is the first
      hint with the greatest timestamp. */
  lemma LatestOpenHintIsFirstNewest(reports: seq<Report>)
    ensures LatestOpenHint(reports).None? <==> OpenHints(reports) == []
    ensures OpenHints(reports) != [] ==>
              exists i :: IsFirstMaximum(OpenHints(reports), CreatedAt, i) && LatestOpenHint(reports) == Some(OpenHints(reports)[i])
  {
    LatestIsFirstMaximum(OpenHints(reports), CreatedAt);
  }

  /** `openHintsSorted`: newest first. */
  function OpenHintsSorted(reports: seq<Report>): seq<Report> {
    SortDesc(OpenHints(reports), CreatedAt)
  }

  /** The sorted hints are a permutation of the hints, newest first, with
      equal timestamps in their original order. */
  lemma OpenHintsSortedOrdered(reports: seq<Report>, t: int)
    ensures multiset(OpenHintsSorted(reports)) == multiset(OpenHints(reports))
    ensures SortedDesc(OpenHintsSorted(reports), CreatedAt)
    ensures Filter(OpenHintsSorted(reports), KeyIs(CreatedAt, t)) == Filter(OpenHints(reports), KeyIs(CreatedAt, t))
  {
    SortDescPermutes(OpenHints(reports), CreatedAt);
    SortDescSorted(OpenHints(reports), CreatedAt);
    SortDescStable(OpenHints(reports), CreatedAt, t);
  }

  /** The open-hints tile links to the latest hint, and is clickable only when there is one. */
  function HintTileTarget(reports: seq<Report>): (target: Option<string>)
    ensures target.Some? <==> OpenHints(reports) != []
  {
    LatestOpenHintIsFirstNewest(reports);
    match LatestOpenHint(reports)
    case Some(h) => Some(h.id)
    case None => None
  }

  /** `openHintsSorted.slice(0, 4)`: the four newest hints at most. */
  function ShownHints(reports: seq<Report>): (shown: seq<Report>)
    ensures |shown| <= 4
    ensures shown <= OpenHintsSorted(reports)
    ensures |shown| == if |OpenHints(reports)| < 4 then |OpenHints(reports)| else 4
  {
    SortDescPermutes(OpenHints(reports), CreatedAt);
    assert |OpenHintsSorted(reports)| == |OpenHints(reports)| by {
      assert |multiset(OpenHintsSorted(reports))| == |multiset(OpenHints(reports))|;
    }
    var sorted := OpenHintsSorted(reports);
    if |sorted| <= 4 then sorted else sorted[..4]
  }
}

=== FILE: fetch.dfy ===
/** The outcome of an HTTP request as the front end sees it: either the call
    threw (no connection), or a reply arrived with its `ok` flag and a body
    that may fail to parse. The network itself is not modelled. */
module Fetch {
  import opened Wrappers

  /** `body` is `None` when `response.json()` failed or gave `null`. */
  datatype Response<+T> = Thrown | Reply(ok: bool, body: Option<T>)

  /** The common success test `response.ok && data`. */
  predicate Succeeded<T>(r: Response<T>) {
    r.Reply? && r.ok && r.body.Some?
  }

  /** The parsed body of a successful reply. */
  function Payload<T>(r: Response<T>): (d: T)
    requires Succeeded(r)
    ensures r == Reply(true, Some(d))
  {
    r.body.value
  }
}

=== FILE: header.dfy ===
/** The page header: the notification bell with its unread badge and the
    user menu, two dropdowns of which at most one is open after a click. */
module Header {
  import opened Wrappers
  import opened Seqs
  import opened Types
  import opened Notifications

  /** The user-menu entries, by their target; the Admin-Panel entry only for admins. */
  function MenuTargets(role: Option<UserRole>): (targets: seq<string>)
    ensures "/admin" in targets <==> role == Some(Admin)
  {
    ["/", "/profile", "/timesheet", "/settings"] + (if role == Some(Admin) then ["/admin"] else [])
  }

  /** The header's own mock notifications: three, the first two unread.
      They carry no audience. */
  const MockNotifications: seq<Notification> := [
    Notification("1", "Neuer Bericht",
                 "Max Huber hat einen Bericht für \"Einfamilienhaus Sonnenberg\" erstellt",
                 "vor 5 Min.", false, None),
    Notification("2", "Projekt aktualisiert",
                 "Das Projekt \"Dachsanierung Altbau\" wurde auf \"Aktiv\" gesetzt",
                 "vor 1 Std.", false, None),
    Notification("3", "Material geliefert", "Material für Bürogebäude Techpark wurde geliefert",
                 "vor 3 Std.", true, None)
  ]

  /** The header's state. */
  class HeaderState {
    var notifications: seq<Notification>
    var showMenu: bool
    var showNotifications: bool

    constructor ()
      ensures notifications == MockNotifications && !showMenu && !showNotifications
      ensures Unread() == 2
    {
      assert UnreadCount(MockNotifications[2..]) == 0;
      assert UnreadCount(MockNotifications[1..]) == 1;
      notifications := MockNotifications;
      showMenu := false;
      showNotifications := false;
    }

    /** The count on the bell. */
    function Unread(): nat
      reads this
    {
      UnreadCount(notifications)
    }

    /** A click on the bell opens or closes the notifications and closes the menu. */
    method ClickBell()
      modifies this
      ensures showNotifications == !old(showNotifications) && !showMenu
      ensures !(showMenu && showNotifications)
      ensures notifications == old(notifications)
    {
      showNotifications := !showNotifications;
      showMenu := false;
    }

    /** A click on the avatar: on a narrow screen it goes to the profile page
        and changes nothing here; otherwise it opens or closes the menu and
        closes the notifications. */
    method ClickAvatar(narrow: bool) returns (target: Option<string>)
      modifies this
      ensures narrow ==> target == Some("/profile") && showMenu == old(showMenu)
                          && showNotifications == old(showNotifications)
      ensures !narrow ==> target == None && showMenu == !old(showMenu) && !showNotifications
      ensures !narrow ==> !(showMenu && showNotifications)
      ensures notifications == old(notifications)
    {
      if narrow {
        return Some("/profile");
      }
      showMenu := !showMenu;
      showNotifications := false;
      return None;
    }

    /** `markAsRead`. */
    method MarkAsRead(id: string)
      modifies this
      ensures notifications == MarkRead(old(notifications), id)
      ensures DistinctIds(old(notifications)) ==>
                ((exists i :: 0 <= i < |old(notifications)| && old(notifications)[i].id == id && !old(notifications)[i].read)
                 <==> Unread() == old(Unread()) - 1)
      ensures showMenu == old(showMenu) && showNotifications == old(showNotifications)
    {
      if DistinctIds(notifications) {
        MarkReadCountDistinct(notifications, id);
      }
      notifications := MarkRead(notifications, id);
    }

    /** `markAllAsRead`. */
    method MarkAllAsRead()
      modifies this
      ensures notifications == MarkAllRead(old(notifications)) && Unread() == 0
      ensures |notifications| == |old(notifications)|
      ensures showMenu == old(showMenu) && showNotifications == old(showNotifications)
    {
      MarkAllReadExact(notifications);
      notifications := MarkAllRead(notifications);
    }
  }
}

=== FILE: mobile_nav.dfy ===
/** The bottom navigation on narrow screens: five entries, the new-report
    button in the middle, and the fourth entry depending on the role. */
module MobileNav {
  import opened Wrappers
  import opened Types

  datatype NavItem = NavItem(caption: string, path: string, highlight: bool)

  /** `navItems`. */
  function NavItems(isAdmin: bool): (items: seq<NavItem>)
    ensures |items| == 5
    ensures items[2].path == "/new-report" && items[2].highlight
    ensures forall i :: 0 <= i < |items| && i != 2 ==> !items[i].highlight
    ensures items[3].path == (if isAdmin then "/admin" else "/timesheet")
    ensures items[4].path == "/settings"
    ensures forall i, j :: 0 <= i < j < |items| ==> items[i].path != items[j].path
  {
    [NavItem("Start", "/", false), NavItem("Projekte", "/projects", false), NavItem("Neu", "/new-report", true)]
    + (if isAdmin then [NavItem("Admin", "/admin", false), NavItem("Mehr", "/settings", false)]
       else [NavItem("Stunden", "/timesheet", false), NavItem("Mehr", "/settings", false)])
  }

  /** An entry is active when the address is exactly its path. */
  predicate IsActive(item: NavItem, pathname: string) {
    pathname == item.path
  }

  /** At most one entry is active, and the active one is the entry whose path is the address. */
  lemma AtMostOneActive(isAdmin: bool, pathname: string)
    ensures var items := NavItems(isAdmin);
            && (forall i, j :: (0 <= i < |items| && 0 <= j < |items| && IsActive(items[i], pathname)
                                && IsActive(items[j], pathname)) ==> i == j)
            && (pathname in {"/", "/projects", "/new-report", "/settings"} ==>
                  exists i :: 0 <= i < |items| && IsActive(items[i], pathname))
  {
    var items := NavItems(isAdmin);
    if pathname == "/" {
      assert IsActive(items[0], pathname);
    } else if pathname == "/projects" {
      assert IsActive(items[1], pathname);
    } else if pathname == "/new-report" {
      assert IsActive(items[2], pathname);
    } else if pathname == "/settings" {
      assert IsActive(items[4], pathname);
    }
  }

  /** Only the fourth entry depends on the role. */
  lemma RolesDifferOnlyInFourth()
    ensures forall i :: 0 <= i < 5 && i != 3 ==> NavItems(true)[i] == NavItems(false)[i]
  {
  }
}

=== FILE: new_report.dfy ===
/** The report form: quick-action tags, the photo list with its ten-photo
    cap, the weather choice, the hours preview, and the checks and field
    mapping done when the form is submitted. */
module NewReport {
  import opened Wrappers
  import opened Seqs
  import opened Text
  import opened TimeArith

  /** The most photos one report may carry. */
  const MaxImages := 10

  /** `s.filter((_, j) => j !== i)`: drop position `i`; an index outside the list drops nothing. */
  function RemoveAt<T>(s: seq<T>, i: int): (r: seq<T>)
    ensures 0 <= i < |s| ==> |r| == |s| - 1
    ensures 0 <= i < |s| ==> forall j :: 0 <= j < i ==> r[j] == s[j]
    ensures 0 <= i < |s| ==> forall j :: i <= j < |r| ==> r[j] == s[j + 1]
    ensures !(0 <= i < |s|) ==> r == s
  {
    if 0 <= i < |s| then s[..i] + s[i + 1..] else s
  }

  /** The weather after a click on `value`: the selected one is cleared, another is selected. */
  function ClickWeather(current: string, value: string): (w: string)
    ensures current == value ==> w == ""
    ensures current != value ==> w == value
  {
    if current == value then "" else value
  }

  /** The form's hours preview; no value stands for the empty text the page
      shows, and an empty break field counts as no break. */
  function HoursPreview(start: string, end: string, breakMinutes: Option<int>): Option<real> {
    ShiftHours(start, end, breakMinutes.GetOr(0))
  }

  /** The preview is blank exactly when a time is missing or unreadable; an
      empty break field gives the same hours as a zero-minute break. */
  lemma HoursPreviewCases(start: string, end: string, breakMinutes: Option<int>)
    ensures HoursPreview(start, end, breakMinutes).None? <==>
              start == "" || end == "" || ParseClock(start).None? || ParseClock(end).None?
    ensures HoursPreview(start, end, None) == HoursPreview(start, end, Some(0))
    ensures HoursPreview(start, end, breakMinutes).Some? ==> HoursPreview(start, end, breakMinutes).value >= 0.0
  {
  }

  /** Why a submission was refused, or that it may go ahead. */
  datatype Check = MissingProject | MissingContent | Ready

  /** The submit handler's checks, in their order. */
  function Validate(projectId: string, text: string, actions: seq<string>): Check {
    if projectId == "" then MissingProject
    else if Trim(text) == [] && |actions| == 0 then MissingContent
    else Ready
  }

  /** The condition under which the submit button is disabled. */
  predicate SubmitDisabled(projectId: string, text: string, actions: seq<string>) {
    projectId == "" || (Trim(text) == [] && |actions| == 0)
  }

  /** A submission is refused exactly when the button is disabled, and text
      made only of whitespace counts as no text. */
  lemma ValidateMatchesButton(projectId: string, text: string, actions: seq<string>)
    ensures Validate(projectId, text, actions) != Ready <==> SubmitDisabled(projectId, text, actions)
    ensures projectId != "" && actions == [] ==>
              (Validate(projectId, text, actions) == MissingContent <==>
               forall i :: 0 <= i < |text| ==> IsWhitespace(text[i]))
  {
    TrimEmptyIffBlank(text);
  }

  /** The message shown for a refused submission. */
  function CheckMessage(c: Check): string {
    match c
    case MissingProject => "Bitte Projekt auswählen"
    case MissingContent => "Bitte Text oder Quick Actions hinzufügen"
    case Ready => ""
  }

  /** What the form hands to the store; `None` is a field left undefined. */
  datatype Draft = Draft(
    projectId: string,
    userId: string,
    userName: string,
    text: string,
    images: seq<string>,
    quickActions: seq<string>,
    weather: string,
    workersPresent: Option<int>,
    startTime: Option<string>,
    endTime: Option<string>,
    breakMinutes: Option<int>)

  /** A time field: the empty text is left undefined. */
  function OptionalText(s: string): (r: Option<string>)
    ensures r.None? <==> s == ""
    ensures r.Some? ==> r.value == s
  {
    if s == "" then None else Some(s)
  }

  /** The form's state. A number field that is empty is `None`. */
  class ReportForm {
    var selectedProjectId: string
    var text: string
    var images: seq<string>
    var imagePreviews: seq<string>
    var selectedQuickActions: seq<string>
    var weather: string
    var workersPresent: Option<int>
    var startTime: string
    var endTime: string
    var breakMinutes: Option<int>

    /** Every photo has its preview and there are at most ten of them. */
    predicate Valid()
      reads this
    {
      |images| == |imagePreviews| <= MaxImages && Distinct(selectedQuickActions)
    }

    /** The empty form, with the project taken from the address when there is one. */
    constructor (projectId: Option<string>)
      ensures Valid()
      ensures selectedProjectId == projectId.GetOr("") && text == ""
      ensures images == [] && imagePreviews == [] && selectedQuickActions == []
      ensures weather == "" && workersPresent == None && startTime == "" && endTime == "" && breakMinutes == None
    {
      selectedProjectId := projectId.GetOr("");
      text := "";
      images := [];
      imagePreviews := [];
      selectedQuickActions := [];
      weather := "";
      workersPresent := None;
      startTime := "";
      endTime := "";
      breakMinutes := None;
    }

    /** `toggleQuickAction`. */
    method ToggleQuickAction(a: string)
      modifies this
      requires Valid()
      ensures Valid()
      ensures selectedQuickActions == Toggled(old(selectedQuickActions), a)
      ensures images == old(images) && imagePreviews == old(imagePreviews)
      ensures selectedProjectId == old(selectedProjectId) && text == old(text) && weather == old(weather)
      ensures workersPresent == old(workersPresent) && breakMinutes == old(breakMinutes)
      ensures startTime == old(startTime) && endTime == old(endTime)
    {
      ToggleKeepsDistinct(selectedQuickActions, a);
      selectedQuickActions := Toggled(selectedQuickActions, a);
    }

    /** `handleImageSelect`: a selection that would take the total over ten is
        refused and nothing changes; otherwise the photos are appended with
        their previews. Compression and reading the preview are given as
        `compressed` and `preview`. */
    method SelectImages(files: seq<string>, compressed: string -> string, preview: string -> string)
      returns (accepted: bool)
      modifies this
      requires Valid()
      ensures Valid()
      ensures accepted <==> |files| + |old(images)| <= MaxImages
      ensures !accepted ==> images == old(images) && imagePreviews == old(imagePreviews)
      ensures accepted ==> images == old(images) + Map(files, compressed)
      ensures accepted ==> imagePreviews == old(imagePreviews) + Map(Map(files, compressed), preview)
      ensures selectedQuickActions == old(selectedQuickActions)
      ensures selectedProjectId == old(selectedProjectId) && text == old(text) && weather == old(weather)
      ensures workersPresent == old(workersPresent) && breakMinutes == old(breakMinutes)
      ensures startTime == old(startTime) && endTime == old(endTime)
    {
      if |files| + |images| > MaxImages {
        return false;
      }
      var added := Map(files, compressed);
      images := images + added;
      imagePreviews := imagePreviews + Map(added, preview);
      return true;
    }

    /** `removeImage`: position `i` leaves both lists. */
    method RemoveImage(i: int)
      modifies this
      requires Valid()
      ensures Valid()
      ensures images == RemoveAt(old(images), i) && imagePreviews == RemoveAt(old(imagePreviews), i)
      ensures selectedQuickActions == old(selectedQuickActions)
      ensures selectedProjectId == old(selectedProjectId) && text == old(text) && weather == old(weather)
      ensures workersPresent == old(workersPresent) && breakMinutes == old(breakMinutes)
      ensures startTime == old(startTime) && endTime == old(endTime)
    {
      images := RemoveAt(images, i);
      imagePreviews := RemoveAt(imagePreviews, i);
    }

    /** A click on a weather button. */
    method ClickWeatherButton(value: string)
      modifies this
      ensures weather == ClickWeather(old(weather), value)
      ensures images == old(images) && imagePreviews == old(imagePreviews)
      ensures selectedQuickActions == old(selectedQuickActions)
      ensures selectedProjectId == old(selectedProjectId) && text == old(text)
      ensures workersPresent == old(workersPresent) && breakMinutes == old(breakMinutes)
      ensures startTime == old(startTime) && endTime == old(endTime)
    {
      weather := ClickWeather(weather, value);
    }

    /** `handleSubmit` up to the store call: the refusal message, or the
        draft. The text is trimmed, a worker count of 0 or none is left
        undefined, as are empty times and an empty break. */
    method Submit(userId: string, userName: string) returns (outcome: Result<Draft, string>)
      ensures outcome.Err? <==> SubmitDisabled(selectedProjectId, text, selectedQuickActions)
      ensures outcome.Err? ==> outcome.error == CheckMessage(Validate(selectedProjectId, text, selectedQuickActions))
      ensures outcome.Ok? ==>
                var d := outcome.value;
                && d.projectId == selectedProjectId && d.userId == userId && d.userName == userName
                && d.text == Trim(text) && d.images == images && d.quickActions == selectedQuickActions
                && d.weather == weather
                && (d.workersPresent.None? <==> workersPresent.None? || workersPresent.value == 0)
                && (d.workersPresent.Some? ==> d.workersPresent == workersPresent)
                && d.startTime == OptionalText(startTime) && d.endTime == OptionalText(endTime)
                && d.breakMinutes == breakMinutes
    {
      var check := Validate(selectedProjectId, text, selectedQuickActions);
      ValidateMatchesButton(selectedProjectId, text, selectedQuickActions);
      if check != Ready {
        return Err(CheckMessage(check));
      }
      var workers := if workersPresent.Some? && workersPresent.value != 0 then workersPresent else None;
      outcome := Ok(Draft(selectedProjectId, userId, userName, Trim(text), images, selectedQuickActions,
                          weather, workers, OptionalText(startTime), OptionalText(endTime), breakMinutes));
    }
  }
}

=== FILE: notifications.dfy ===
/** Notifications as both the UI store and the header keep them: a list
    whose entries can be marked read one by one or all at once, and the
    unread count shown on the bell. */
module Notifications {
  import opened Wrappers
  import opened Seqs

  datatype Audience = Everyone | AdminsOnly

  /** `audience` is absent for the header's own notifications. */
  datatype Notification = Notification(
    id: string,
    title: string,
    message: string,
    time: string,
    read: bool,
    audience: Option<Audience>)

  function MarkOne(id: string): Notification -> Notification {
    (n: Notification) => if n.id == id then n.(read := true) else n
  }

  function MarkEvery(n: Notification): Notification {
    n.(read := true)
  }

  /** `markNotificationRead` / `markAsRead`. */
  function MarkRead(ns: seq<Notification>, id: string): seq<Notification> {
    Map(ns, MarkOne(id))
  }

  /** `markAllNotificationsRead` / `markAllAsRead`. */
  function MarkAllRead(ns: seq<Notification>): seq<Notification> {
    Map(ns, MarkEvery)
  }

  function IsUnread(n: Notification): bool {
    !n.read
  }

  /** `notifications.filter(n => !n.read).length`. */
  function UnreadCount(ns: seq<Notification>): nat {
    Count(ns, IsUnread)
  }

  /** The unread notifications with a given id. */
  function UnreadWithId(id: string): Notification -> bool {
    (n: Notification) => n.id == id && !n.read
  }

  /** Marking one id read keeps the list's length and order and every field
      but `read`, sets `read` exactly on that id, and a second mark changes nothing. */
  lemma MarkReadExact(ns: seq<Notification>, id: string)
    ensures var r := MarkRead(ns, id);
            && |r| == |ns|
            && (forall i :: 0 <= i < |ns| ==> r[i] == ns[i].(read := r[i].read))
            && (forall i :: 0 <= i < |ns| ==> r[i].read == (ns[i].read || ns[i].id == id))
            && MarkRead(r, id) == r
  {
  }

  /** Marking all read keeps the list's length and order and every field but
      `read`, leaves nothing unread, and a second mark changes nothing. */
  lemma {:induction false} MarkAllReadExact(ns: seq<Notification>)
    ensures var r := MarkAllRead(ns);
            && |r| == |ns|
            && (forall i :: 0 <= i < |ns| ==> r[i] == ns[i].(read := true))
            && UnreadCount(r) == 0
            && MarkAllRead(r) == r
  {
    var r := MarkAllRead(ns);
    FilterNone(r, IsUnread);
  }

  /** Marking an id read lowers the unread count by the number of unread
      notifications with that id. */
  lemma {:induction false} MarkReadCount(ns: seq<Notification>, id: string)
    ensures UnreadCount(MarkRead(ns, id)) == UnreadCount(ns) - Count(ns, UnreadWithId(id))
  {
    if ns != [] {
      MarkReadCount(ns[1..], id);
      assert MarkRead(ns, id)[1..] == MarkRead(ns[1..], id);
    }
  }

  predicate DistinctIds(ns: seq<Notification>) {
    forall i, j :: 0 <= i < j < |ns| ==> ns[i].id != ns[j].id
  }

  /** With distinct ids, the count drops by one exactly when that notification
      was unread, and stays the same otherwise. */
  lemma MarkReadCountDistinct(ns: seq<Notification>, id: string)
    requires DistinctIds(ns)
    ensures (exists i :: 0 <= i < |ns| && ns[i].id == id && !ns[i].read) ==>
              UnreadCount(MarkRead(ns, id)) == UnreadCount(ns) - 1
    ensures !(exists i :: 0 <= i < |ns| && ns[i].id == id && !ns[i].read) ==>
              UnreadCount(MarkRead(ns, id)) == UnreadCount(ns)
  {
    MarkReadCount(ns, id);
    UnreadWithIdCount(ns, id);
  }

  lemma {:induction false} UnreadWithIdCount(ns: seq<Notification>, id: string)
    requires DistinctIds(ns)
    ensures (exists i :: 0 <= i < |ns| && ns[i].id == id && !ns[i].read) ==> Count(ns, UnreadWithId(id)) == 1
    ensures !(exists i :: 0 <= i < |ns| && ns[i].id == id && !ns[i].read) ==> Count(ns, UnreadWithId(id)) == 0
  {
    if ns != [] {
      UnreadWithIdCount(ns[1..], id);
      if ns[0].id == id {
        forall i | 0 <= i < |ns[1..]| ensures ns[1..][i].id != id {
          assert ns[1..][i] == ns[i + 1];
        }
      } else {
        forall i | 0 <= i < |ns[1..]| && ns[1..][i].id == id && !ns[1..][i].read
          ensures exists k :: 0 <= k < |ns| && ns[k].id == id && !ns[k].read
        {
          assert ns[i + 1] == ns[1..][i];
        }
        forall k | 0 <= k < |ns| && ns[k].id == id && !ns[k].read
          ensures exists i :: 0 <= i < |ns[1..]| && ns[1..][i].id == id && !ns[1..][i].read
        {
          assert ns[1..][k - 1] == ns[k];
        }
      }
    }
  }
}

=== FILE: numbers.dfy ===
/** Decimal digit strings: the text form of non-negative integers, as
    `String(n)` / Python's `str(n)` print them and as `Number(s)` /
    Python's `int(s)` read them back. */
module Numbers {

  predicate IsDigit(c: char) {
    '0' <= c <= '9'
  }

  /** Every character is a decimal digit (the empty string included). */
  predicate IsDigits(s: string) {
    forall i :: 0 <= i < |s| ==> IsDigit(s[i])
  }

  /** The value of a digit string, most significant digit first. */
  function DigitsValue(s: string): nat
    requires IsDigits(s)
  {
    if s == [] then 0
    else DigitsValue(s[..|s| - 1]) * 10 + (s[|s| - 1] as int - '0' as int)
  }

  function DigitChar(d: nat): (c: char)
    requires d < 10
    ensures IsDigit(c) && c as int - '0' as int == d
  {
    ('0' as int + d) as char
  }

  /** `String(n)`: decimal, no leading zeros, "0" for zero. */
  function DigitString(n: nat): (s: string)
    ensures s != [] && IsDigits(s)
  {
    if n < 10 then [DigitChar(n)] else DigitString(n / 10) + [DigitChar(n % 10)]
  }

  /** Reading back what was printed gives the number. */
  lemma {:induction false} DigitStringRoundTrip(n: nat)
    ensures DigitsValue(DigitString(n)) == n
  {
    if n >= 10 {
      DigitStringRoundTrip(n / 10);
      var s := DigitString(n);
      assert s[..|s| - 1] == DigitString(n / 10);
    }
  }

  /** Two-digit zero-padded form, as an `<input type="time">` value shows hours and minutes. */
  function Pad2(n: nat): (s: string)
    ensures s != [] && IsDigits(s)
  {
    if n < 10 then "0" + DigitString(n) else DigitString(n)
  }

  lemma {:induction false} Pad2RoundTrip(n: nat)
    ensures DigitsValue(Pad2(n)) == n
  {
    DigitStringRoundTrip(n);
    if n < 10 {
      var s := Pad2(n);
      assert s[..|s| - 1] == "0";
      assert DigitsValue("0") == 0 by {
        assert "0"[..0] == [];
      }
    }
  }
}

=== FILE: project_store.dfy ===
/** The project store: the project list, the selected project with its
    reports, and the loading flag, updated from server replies; and the
    multipart form that carries a new report to the backend. Replies are
    given as `Response` values. */
module ProjectStore {
  import opened Wrappers
  import opened Seqs
  import opened Text
  import opened Types
  import opened Fetch
  import opened NewReport
  import opened BackendApp

  /** A parsed body that may or may not be a JSON array. */
  datatype Listing<+T> = Items(items: seq<T>) | NotArray

  /** The body of `GET /api/projects/<id>`: the project, with its reports when sent. */
  datatype ProjectDetail = ProjectDetail(project: Project, reports: Option<seq<Report>>)

  // ---------------------------------------------------------------------
  // The multipart form

  /** One entry of a `FormData`: a text field or an uploaded file. */
  datatype FormEntry = Field(name: string, value: string) | Upload(name: string, file: string)

  /** `request.form.get(name)` on the server: the first text field with that name. */
  function FieldValue(form: seq<FormEntry>, name: string): (v: Json)
    ensures v == JNull || v.JStr?
  {
    if form == [] then JNull
    else if form[0].Field? && form[0].name == name then JStr(form[0].value)
    else FieldValue(form[1..], name)
  }

  /** The names of the form's text fields. */
  function FieldNames(form: seq<FormEntry>): set<string> {
    set e | e in form && e.Field? :: e.name
  }

  /** The form as the backend's request data. */
  function FormData(form: seq<FormEntry>): map<string, Json> {
    map name | name in FieldNames(form) :: FieldValue(form, name)
  }

  /** A form without a text field of that name reads as absent. */
  lemma {:induction false} FieldValueAbsent(form: seq<FormEntry>, name: string)
    requires forall e :: e in form && e.Field? ==> e.name != name
    ensures FieldValue(form, name) == JNull
  {
    if form != [] {
      assert form[0] in form;
      forall e | e in form[1..] && e.Field? ensures e.name != name {
        assert e in form;
      }
      FieldValueAbsent(form[1..], name);
    }
  }

  /** Fields in front without the name are passed over. */
  lemma {:induction false} FieldValueSkip(a: seq<FormEntry>, b: seq<FormEntry>, name: string)
    requires NoField(a, name)
    ensures FieldValue(a + b, name) == FieldValue(b, name)
  {
    if a != [] {
      assert a[0] in a;
      assert (a + b)[0] == a[0] && (a + b)[1..] == a[1..] + b;
      assert NoField(a[1..], name) by {
        forall e | e in a[1..] && e.Field? ensures e.name != name {
          assert e in a;
        }
      }
      FieldValueSkip(a[1..], b, name);
    } else {
      assert a + b == b;
    }
  }

  /** Fields behind without the name change nothing. */
  lemma {:induction false} FieldValueKeep(a: seq<FormEntry>, b: seq<FormEntry>, name: string)
    requires NoField(b, name)
    ensures FieldValue(a + b, name) == FieldValue(a, name)
  {
    if a == [] {
      assert a + b == b;
      FieldValueAbsent(b, name);
    } else {
      assert (a + b)[0] == a[0] && (a + b)[1..] == a[1..] + b;
      FieldValueKeep(a[1..], b, name);
    }
  }

  /** The server sees exactly what `FieldValue` reads. */
  lemma FormDataGet(form: seq<FormEntry>, name: string)
    ensures Get(FormData(form), name) == FieldValue(form, name)
  {
    if name !in FieldNames(form) {
      FieldValueAbsent(form, name);
    }
  }

  /** Each photo as a file entry. */
  function Uploads(files: seq<string>): (r: seq<FormEntry>)
    ensures |r| == |files|
    ensures forall e :: e in r ==> e.Upload?
  {
    Map(files, (f: string) => Upload("images", f))
  }

  /** One more photo adds one more file entry. */
  lemma UploadsNext(files: seq<string>, i: nat)
    requires i < |files|
    ensures Uploads(files[..i + 1]) == Uploads(files[..i]) + [Upload("images", files[i])]
  {
    var a := Uploads(files[..i + 1]);
    var b := Uploads(files[..i]) + [Upload("images", files[i])];
    assert |a| == |b|;
    forall k | 0 <= k < |a| ensures a[k] == b[k] {
      if k < i {
        assert files[..i + 1][k] == files[..i][k];
      }
    }
  }

  /** A text field present only when `v` is. */
  function OptionalField(name: string, v: Option<string>): seq<FormEntry> {
    match v
    case Some(s) => [Field(name, s)]
    case None => []
  }

  function NumberText(v: Option<int>): Option<string> {
    match v
    case Some(i) => Some(IntString(i))
    case None => None
  }

  /** The fields `addReport` appends in both versions: project, text, the
      quick actions as JSON text (`encode`), the weather when non-empty and
      the worker count when defined. A draft's tag list is always an array,
      hence always truthy. */
  function CommonFields(d: Draft, encode: seq<string> -> string): seq<FormEntry> {
    [Field("projectId", d.projectId)] + [Field("text", d.text)] + [Field("quickActions", encode(d.quickActions))]
    + OptionalField("weather", if d.weather != "" then Some(d.weather) else None)
    + OptionalField("workersPresent", NumberText(d.workersPresent))
  }

  /** The form as written: no start, end or break field. */
  function AddReportFormAsWritten(d: Draft, encode: seq<string> -> string): seq<FormEntry> {
    CommonFields(d, encode) + Uploads(d.images)
  }

  /** The corrected form: the working times travel too, each when set. */
  function AddReportForm(d: Draft, encode: seq<string> -> string): seq<FormEntry> {
    CommonFields(d, encode) + OptionalField("startTime", d.startTime) + OptionalField("endTime", d.endTime)
    + OptionalField("breakMinutes", NumberText(d.breakMinutes)) + Uploads(d.images)
  }

  const TimeNames: set<string> := {"startTime", "endTime", "breakMinutes"}

  lemma CommonFieldNames(d: Draft, encode: seq<string> -> string)
    ensures forall e :: e in CommonFields(d, encode) && e.Field? ==> e.name !in TimeNames
  {
  }

  /** What `create_report` stores for the times, given the request data (its
      `start_time`, `end_time` and `break_minutes`). */
  function StoredTimes(data: map<string, Json>): (Option<string>, Option<string>, Option<int>) {
    var start := TextOf(Get(data, "startTime"));
    var end := TextOf(Get(data, "endTime"));
    (if start.Some? then NoneIfEmpty(start.value) else None,
     if end.Some? then NoneIfEmpty(end.value) else None,
     OptionalInt(Get(data, "breakMinutes")))
  }

  /** As written, the backend stores no working times for any report sent by
      the store, whatever the form held. */
  lemma {:induction false} AsWrittenDropsTimes(d: Draft, encode: seq<string> -> string)
    ensures StoredTimes(FormData(AddReportFormAsWritten(d, encode))) == (None, None, None)
  {
    var form := AddReportFormAsWritten(d, encode);
    CommonFieldNames(d, encode);
    forall name | name in TimeNames ensures Get(FormData(form), name) == JNull {
      FormDataGet(form, name);
      FieldValueAbsent(form, name);
    }
    OptionalIntOfText(0);
  }

  /** A report entered from 08:00 loses its start time on the way to the database. */
  lemma AsWrittenLosesStartTime(encode: seq<string> -> string)
    ensures var d := Draft("p1", "u1", "Max", "Estrich verlegt", [], [], "", None, Some("08:00"), Some("16:00"), Some(30));
            StoredTimes(FormData(AddReportFormAsWritten(d, encode))).0 != d.startTime
  {
    var d := Draft("p1", "u1", "Max", "Estrich verlegt", [], [], "", None, Some("08:00"), Some("16:00"), Some(30));
    AsWrittenDropsTimes(d, encode);
  }

  /** A time as the form's time inputs give it: non-empty and already stripped. */
  predicate CleanTime(t: Option<string>) {
    t.Some? ==> t.value != "" && Trim(t.value) == t.value
  }

  /** No text field of the form has the name. */
  predicate NoField(form: seq<FormEntry>, name: string) {
    forall e :: e in form && e.Field? ==> e.name != name
  }

  lemma NoFieldConcat(a: seq<FormEntry>, b: seq<FormEntry>, name: string)
    requires NoField(a, name) && NoField(b, name)
    ensures NoField(a + b, name)
  {
  }

  /** An optional field is read back as itself. */
  lemma OptionalFieldValue(name: string, v: Option<string>)
    ensures FieldValue(OptionalField(name, v), name) == (if v.Some? then JStr(v.value) else JNull)
  {
  }

  /** A clean time sent as text is stored as itself; no field is no time. */
  lemma StoredTimeOf(t: Option<string>)
    requires CleanTime(t)
    ensures var x := TextOf(if t.Some? then JStr(t.value) else JNull);
            x.Some? && NoneIfEmpty(x.value) == t
  {
  }

  /** A number sent as text is stored as itself; no field is no number. */
  lemma StoredNumberOf(v: Option<int>)
    ensures OptionalInt(if v.Some? then JStr(IntString(v.value)) else JNull) == v
  {
    if v.Some? {
      OptionalIntOfText(v.value);
    } else {
      OptionalIntOfText(0);
    }
  }

  lemma NoFieldOptional(name: string, v: Option<string>, other: string)
    requires name != other
    ensures NoField(OptionalField(name, v), other)
  {
  }

  lemma NoFieldUploads(files: seq<string>, name: string)
    ensures NoField(Uploads(files), name)
  {
  }

  /** The corrected form's start time field is the one read. */
  lemma CorrectedStartTime(d: Draft, encode: seq<string> -> string)
    ensures Get(FormData(AddReportForm(d, encode)), "startTime")
         == (if d.startTime.Some? then JStr(d.startTime.value) else JNull)
  {
    var c := CommonFields(d, encode);
    var s := OptionalField("startTime", d.startTime);
    var e := OptionalField("endTime", d.endTime);
    var b := OptionalField("breakMinutes", NumberText(d.breakMinutes));
    var u := Uploads(d.images);
    CommonFieldNames(d, encode);
    NoFieldUploads(d.images, "startTime");
    NoFieldOptional("endTime", d.endTime, "startTime");
    NoFieldOptional("breakMinutes", NumberText(d.breakMinutes), "startTime");
    FormDataGet(c + s + e + b + u, "startTime");
    FieldValueKeep(c + s + e + b, u, "startTime");
    FieldValueKeep(c + s + e, b, "startTime");
    FieldValueKeep(c + s, e, "startTime");
    FieldValueSkip(c, s, "startTime");
    OptionalFieldValue("startTime", d.startTime);
  }

  /** The corrected form's end time field is the one read. */
  lemma CorrectedEndTime(d: Draft, encode: seq<string> -> string)
    ensures Get(FormData(AddReportForm(d, encode)), "endTime")
         == (if d.endTime.Some? then JStr(d.endTime.value) else JNull)
  {
    var c := CommonFields(d, encode);
    var s := OptionalField("startTime", d.startTime);
    var e := OptionalField("endTime", d.endTime);
    var b := OptionalField("breakMinutes", NumberText(d.breakMinutes));
    var u := Uploads(d.images);
    CommonFieldNames(d, encode);
    NoFieldUploads(d.images, "endTime");
    NoFieldOptional("startTime", d.startTime, "endTime");
    NoFieldOptional("breakMinutes", NumberText(d.breakMinutes), "endTime");
    NoFieldConcat(c, s, "endTime");
    FormDataGet(c + s + e + b + u, "endTime");
    FieldValueKeep(c + s + e + b, u, "endTime");
    FieldValueKeep(c + s + e, b, "endTime");
    FieldValueSkip(c + s, e, "endTime");
    OptionalFieldValue("endTime", d.endTime);
  }

  /** The corrected form's break field is the one read. */
  lemma CorrectedBreakMinutes(d: Draft, encode: seq<string> -> string)
    ensures var n := NumberText(d.breakMinutes);
            Get(FormData(AddReportForm(d, encode)), "breakMinutes") == (if n.Some? then JStr(n.value) else JNull)
  {
    var c := CommonFields(d, encode);
    var s := OptionalField("startTime", d.startTime);
    var e := OptionalField("endTime", d.endTime);
    var b := OptionalField("breakMinutes", NumberText(d.breakMinutes));
    var u := Uploads(d.images);
    CommonFieldNames(d, encode);
    NoFieldUploads(d.images, "breakMinutes");
    NoFieldOptional("startTime", d.startTime, "breakMinutes");
    NoFieldOptional("endTime", d.endTime, "breakMinutes");
    NoFieldConcat(c, s, "breakMinutes");
    NoFieldConcat(c + s, e, "breakMinutes");
    FormDataGet(c + s + e + b + u, "breakMinutes");
    FieldValueKeep(c + s + e + b, u, "breakMinutes");
    FieldValueSkip(c + s + e, b, "breakMinutes");
    OptionalFieldValue("breakMinutes", NumberText(d.breakMinutes));
  }

  /** With the corrected form the backend stores exactly the draft's times. */
  lemma CorrectedFormKeepsTimes(d: Draft, encode: seq<string> -> string)
    requires CleanTime(d.startTime) && CleanTime(d.endTime)
    ensures StoredTimes(FormData(AddReportForm(d, encode))) == (d.startTime, d.endTime, d.breakMinutes)
  {
    CorrectedStartTime(d, encode);
    CorrectedEndTime(d, encode);
    CorrectedBreakMinutes(d, encode);
    StoredTimeOf(d.startTime);
    StoredTimeOf(d.endTime);
    StoredNumberOf(d.breakMinutes);
  }

  // ---------------------------------------------------------------------
  // The store

  const ReportError := "Bericht konnte nicht erstellt werden"
  const CreateError := "Projekt konnte nicht erstellt werden"
  const UpdateError := "Projekt konnte nicht aktualisiert werden"

  function HasId(id: string): Project -> bool {
    (p: Project) => p.id == id
  }

  class Store {
    var projects: seq<Project>
    var selectedProject: Option<Project>
    var reports: seq<Report>
    var isLoading: bool

    constructor ()
      ensures projects == [] && selectedProject == None && reports == [] && !isLoading
    {
      projects := [];
      selectedProject := None;
      reports := [];
      isLoading := false;
    }

    /** `loadProjects`: the reply's array whatever the status; anything else
        (a non-array body, an unreadable one, a thrown fetch) empties the list. */
    method LoadProjects(response: Response<Listing<Project>>)
      modifies this
      ensures response.Reply? && response.body.Some? && response.body.value.Items? ==>
                projects == response.body.value.items
      ensures !(response.Reply? && response.body.Some? && response.body.value.Items?) ==> projects == []
      ensures !isLoading
      ensures selectedProject == old(selectedProject) && reports == old(reports)
    {
      isLoading := true;
      var data := if response.Reply? then response.body.GetOr(Items([])) else NotArray;
      projects := if data.Items? then data.items else [];
      isLoading := false;
    }

    /** `loadProjectById`: a failed request clears the selection and the
        reports; a successful one selects the project and takes its reports,
        none when the body has none. */
    method LoadProjectById(response: Response<ProjectDetail>)
      modifies this
      ensures !Succeeded(response) ==> selectedProject == None && reports == []
      ensures Succeeded(response) ==>
                selectedProject == Some(Payload(response).project) && reports == Payload(response).reports.GetOr([])
      ensures !isLoading && projects == old(projects)
    {
      isLoading := true;
      if !Succeeded(response) {
        selectedProject := None;
        reports := [];
        isLoading := false;
        return;
      }
      var data := Payload(response);
      selectedProject := Some(data.project);
      reports := data.reports.GetOr([]);
      isLoading := false;
    }

    /** `loadReports`: like `LoadProjectById`, but the selection stays. */
    method LoadReports(response: Response<ProjectDetail>)
      modifies this
      ensures !Succeeded(response) ==> reports == []
      ensures Succeeded(response) ==> reports == Payload(response).reports.GetOr([])
      ensures !isLoading && projects == old(projects) && selectedProject == old(selectedProject)
    {
      isLoading := true;
      if !Succeeded(response) {
        reports := [];
        isLoading := false;
        return;
      }
      reports := Payload(response).reports.GetOr([]);
      isLoading := false;
    }

    /** `addReport`: builds the form entry by entry (with the working times,
        see `AddReportForm`), and on success puts the returned report first;
        a failure is the thrown error and the reports stay as they were. */
    method AddReport(d: Draft, encode: seq<string> -> string, response: Response<Report>)
      returns (form: seq<FormEntry>, result: Result<Report, string>)
      modifies this
      ensures form == AddReportForm(d, encode)
      ensures Succeeded(response) ==> result == Ok(Payload(response)) && reports == [Payload(response)] + old(reports)
      ensures !Succeeded(response) ==> result == Err(ReportError) && reports == old(reports)
      ensures projects == old(projects) && selectedProject == old(selectedProject) && isLoading == old(isLoading)
    {
      form := [Field("projectId", d.projectId)];
      form := form + [Field("text", d.text)];
      form := form + [Field("quickActions", encode(d.quickActions))];
      form := form + OptionalField("weather", if d.weather != "" then Some(d.weather) else None);
      form := form + OptionalField("workersPresent", NumberText(d.workersPresent));
      assert form == CommonFields(d, encode);
      form := form + OptionalField("startTime", d.startTime);
      form := form + OptionalField("endTime", d.endTime);
      form := form + OptionalField("breakMinutes", NumberText(d.breakMinutes));
      ghost var fields := form;
      var i := 0;
      while i < |d.images|
        invariant 0 <= i <= |d.images|
        invariant form == fields + Uploads(d.images[..i])
        invariant unchanged(this)
      {
        UploadsNext(d.images, i);
        form := form + [Upload("images", d.images[i])];
        i := i + 1;
      }
      assert d.images[..i] == d.images;
      if !Succeeded(response) {
        return form, Err(ReportError);
      }
      var created := Payload(response);
      reports := [created] + reports;
      result := Ok(created);
    }

    /** `createProject`: on success the new project goes first. */
    method CreateProject(response: Response<Project>) returns (result: Result<Project, string>)
      modifies this
      ensures Succeeded(response) ==> result == Ok(Payload(response)) && projects == [Payload(response)] + old(projects)
      ensures !Succeeded(response) ==> result == Err(CreateError) && projects == old(projects)
      ensures reports == old(reports) && selectedProject == old(selectedProject) && isLoading == old(isLoading)
    {
      if !Succeeded(response) {
        return Err(CreateError);
      }
      var created := Payload(response);
      projects := [created] + projects;
      result := Ok(created);
    }

    /** `updateProject`: on success the returned project replaces every
        project with the id, and the selection when it has that id. */
    method UpdateProject(id: string, response: Response<Project>) returns (result: Result<(), string>)
      modifies this
      ensures Succeeded(response) ==>
                && result == Ok(())
                && projects == ReplaceWhere(old(projects), HasId(id), Payload(response))
                && selectedProject == (if old(selectedProject).Some? && old(selectedProject).value.id == id
                                       then Some(Payload(response)) else old(selectedProject))
      ensures !Succeeded(response) ==>
                result == Err(UpdateError) && projects == old(projects) && selectedProject == old(selectedProject)
      ensures reports == old(reports) && isLoading == old(isLoading)
    {
      if !Succeeded(response) {
        return Err(UpdateError);
      }
      var data := Payload(response);
      projects := ReplaceWhere(projects, HasId(id), data);
      if selectedProject.Some? && selectedProject.value.id == id {
        selectedProject := Some(data);
      }
      result := Ok(());
    }
  }

  /** An update keeps the list's length and order, and changes exactly the projects with the id. */
  lemma UpdateReplacesOnlyThatId(projects: seq<Project>, id: string, data: Project)
    ensures var r := ReplaceWhere(projects, HasId(id), data);
            && |r| == |projects|
            && (forall i :: 0 <= i < |projects| && projects[i].id == id ==> r[i] == data)
            && (forall i :: 0 <= i < |projects| && projects[i].id != id ==> r[i] == projects[i])
  {
  }
}

=== FILE: projects_page.dfy ===
/** The project list: a case-insensitive search over name, customer and
    address, a status filter, and the per-status counts on the filter tabs. */
module ProjectsPage {
  import opened Seqs
  import opened Text
  import opened Types

  /** `statusFilter`: 'all' or one project status. */
  datatype StatusFilter = AllStatuses | OnlyStatus(status: ProjectStatus)

  predicate MatchesSearch(p: Project, search: string) {
    var q := Lower(search);
    Contains(Lower(p.name), q) || Contains(Lower(p.customerName), q) || Contains(Lower(p.address), q)
  }

  predicate MatchesStatus(p: Project, filter: StatusFilter) {
    filter.AllStatuses? || p.status == filter.status
  }

  /** `filteredProjects`. */
  function FilteredProjects(projects: seq<Project>, search: string, filter: StatusFilter): seq<Project> {
    Filter(projects, (p: Project) => MatchesSearch(p, search) && MatchesStatus(p, filter))
  }

  /** The filtered list is an order-preserving part of the list holding exactly
      the projects that match the search and the status filter. */
  lemma {:induction false} FilteredProjectsExact(projects: seq<Project>, search: string, filter: StatusFilter)
    ensures IsSubsequence(FilteredProjects(projects, search, filter), projects)
    ensures forall p :: p in FilteredProjects(projects, search, filter) ==>
              p in projects && MatchesSearch(p, search) && MatchesStatus(p, filter)
    ensures forall i :: 0 <= i < |projects| && MatchesSearch(projects[i], search) && MatchesStatus(projects[i], filter) ==>
              projects[i] in FilteredProjects(projects, search, filter)
  {
    FilterIsSubsequence(projects, (p: Project) => MatchesSearch(p, search) && MatchesStatus(p, filter));
    FilterMembers(projects, (p: Project) => MatchesSearch(p, search) && MatchesStatus(p, filter));
  }

  /** The empty search with the 'all' tab lists every project. */
  lemma NoFilterKeepsAll(projects: seq<Project>)
    ensures FilteredProjects(projects, "", AllStatuses) == projects
  {
    forall i | 0 <= i < |projects| ensures MatchesSearch(projects[i], "") {
      assert Lower("") == "";
      assert [] <= Lower(projects[i].name);
    }
    FilterKeepsAll(projects, (p: Project) => MatchesSearch(p, "") && MatchesStatus(p, AllStatuses));
  }

  datatype StatusCounts = StatusCounts(all: nat, active: nat, paused: nat, completed: nat)

  function HasStatus(s: ProjectStatus): Project -> bool {
    (p: Project) => p.status == s
  }

  /** `statusCounts`: the list length and the number of projects per tab status. */
  function CountStatuses(projects: seq<Project>): StatusCounts {
    StatusCounts(
      |projects|,
      Count(projects, HasStatus(Active)),
      Count(projects, HasStatus(Paused)),
      Count(projects, HasStatus(Completed)))
  }

  /** Every project has exactly one status, so the four per-status counts add up to the length. */
  lemma {:induction false} StatusesPartition(projects: seq<Project>)
    ensures Count(projects, HasStatus(Active)) + Count(projects, HasStatus(Paused))
          + Count(projects, HasStatus(Completed)) + Count(projects, HasStatus(Archived)) == |projects|
  {
    if projects != [] {
      StatusesPartition(projects[1..]);
    }
  }

  /** The tab counts never exceed the total; the shortfall is exactly the
      archived projects, which only the 'all' tab counts. */
  lemma CountsBounded(projects: seq<Project>)
    ensures var c := CountStatuses(projects);
            c.active + c.paused + c.completed + Count(projects, HasStatus(Archived)) == c.all
    ensures var c := CountStatuses(projects);
            c.active + c.paused + c.completed <= c.all
  {
    StatusesPartition(projects);
  }
}

=== FILE: report_detail.dfy ===
/** The report detail page: loading the report and the photo lightbox,
    whose previous / next buttons cycle through the report's photos. */
module ReportDetail {
  import opened Wrappers
  import opened Types
  import opened Fetch

  /** The photo before `i` among `n`, wrapping from the first to the last. */
  function PrevIndex(i: int, n: int): int {
    if i == 0 then n - 1 else i - 1
  }

  /** The photo after `i` among `n`, wrapping from the last to the first. */
  function NextIndex(i: int, n: int): int {
    if i == n - 1 then 0 else i + 1
  }

  /** Both buttons keep a valid photo index valid, and each undoes the other. */
  lemma PrevNextCycle(i: int, n: int)
    requires 0 <= i < n
    ensures 0 <= PrevIndex(i, n) < n && 0 <= NextIndex(i, n) < n
    ensures PrevIndex(NextIndex(i, n), n) == i && NextIndex(PrevIndex(i, n), n) == i
  {
  }

  /** The index after `k` clicks on "next". */
  function Advance(i: int, n: int, k: nat): int {
    if k == 0 then i else NextIndex(Advance(i, n, k - 1), n)
  }

  /** Clicks on "next" that do not pass the last photo move one place each. */
  lemma {:induction false} AdvanceWithoutWrap(i: int, n: int, k: nat)
    requires 0 <= i && i + k < n
    ensures Advance(i, n, k) == i + k
  {
    if k > 0 {
      AdvanceWithoutWrap(i, n, k - 1);
    }
  }

  /** `a + b` clicks are `a` clicks followed by `b` clicks. */
  lemma {:induction false} AdvanceSplit(i: int, n: int, a: nat, b: nat)
    ensures Advance(i, n, a + b) == Advance(Advance(i, n, a), n, b)
  {
    if b > 0 {
      AdvanceSplit(i, n, a, b - 1);
    }
  }

  /** "Next" walks the photos cyclically: from any photo, as many clicks as
      there are photos come back to it, passing through the first photo. */
  lemma AdvanceFullCircle(i: int, n: int)
    requires 0 <= i < n
    ensures Advance(i, n, n - i) == 0
    ensures Advance(i, n, n) == i
  {
    AdvanceWithoutWrap(i, n, n - 1 - i);
    assert Advance(i, n, n - i) == NextIndex(n - 1, n);
    AdvanceSplit(i, n, n - i, i);
    AdvanceWithoutWrap(0, n, i);
  }

  /** The page's state. */
  class ReportView {
    var report: Option<Report>
    var selectedImageIndex: Option<int>
    var isLoading: bool

    /** The page before the report arrives. */
    constructor ()
      ensures report == None && selectedImageIndex == None && isLoading
    {
      report := None;
      selectedImageIndex := None;
      isLoading := true;
    }

    /** The photo index is a position in the shown report's photo list. */
    predicate Valid()
      reads this
    {
      selectedImageIndex.Some? ==> report.Some? && 0 <= selectedImageIndex.value < |report.value.images|
    }

    /** `loadReport`: without an id nothing happens; otherwise the report is
        shown only for an ok reply with a body, and the spinner stops. */
    method Load(id: string, response: Response<Report>)
      modifies this
      ensures id == "" ==> report == old(report) && isLoading == old(isLoading)
      ensures id != "" ==> !isLoading
      ensures id != "" ==> (report.Some? <==> Succeeded(response))
      ensures id != "" && Succeeded(response) ==> report == Some(Payload(response))
      ensures selectedImageIndex == old(selectedImageIndex)
    {
      if id == "" {
        return;
      }
      isLoading := true;
      if response.Thrown? {
        report := None;
      } else {
        if !response.ok || response.body.None? {
          report := None;
          isLoading := false;
          return;
        }
        report := response.body;
      }
      isLoading := false;
    }

    /** A click on photo `i` opens the lightbox there. */
    method Open(i: int)
      modifies this
      requires report.Some? && 0 <= i < |report.value.images|
      ensures Valid()
      ensures selectedImageIndex == Some(i) && report == old(report) && isLoading == old(isLoading)
    {
      selectedImageIndex := Some(i);
    }

    /** The close button or a click on the backdrop. */
    method Close()
      modifies this
      ensures Valid()
      ensures selectedImageIndex == None && report == old(report) && isLoading == old(isLoading)
    {
      selectedImageIndex := None;
    }

    /** The "previous" button, offered only with more than one photo. */
    method Previous()
      modifies this
      requires Valid()
      ensures Valid()
      ensures old(selectedImageIndex).Some? && report.Some? && |report.value.images| > 1 ==>
                selectedImageIndex == Some(PrevIndex(old(selectedImageIndex).value, |report.value.images|))
      ensures old(selectedImageIndex).None? || (report.Some? && |report.value.images| <= 1) ==>
                selectedImageIndex == old(selectedImageIndex)
      ensures report == old(report) && isLoading == old(isLoading)
    {
      if selectedImageIndex.None? || |report.value.images| <= 1 {
        return;
      }
      selectedImageIndex := Some(PrevIndex(selectedImageIndex.value, |report.value.images|));
    }

    /** The "next" button, offered only with more than one photo. */
    method Next()
      modifies this
      requires Valid()
      ensures Valid()
      ensures old(selectedImageIndex).Some? && report.Some? && |report.value.images| > 1 ==>
                selectedImageIndex == Some(NextIndex(old(selectedImageIndex).value, |report.value.images|))
      ensures old(selectedImageIndex).None? || (report.Some? && |report.value.images| <= 1) ==>
                selectedImageIndex == old(selectedImageIndex)
      ensures report == old(report) && isLoading == old(isLoading)
    {
      if selectedImageIndex.None? || |report.value.images| <= 1 {
        return;
      }
      selectedImageIndex := Some(NextIndex(selectedImageIndex.value, |report.value.images|));
    }
  }
}

=== FILE: route_guard.dfy ===
/** The guard in front of every page except the login page: send a visitor
    who is not signed in to the login page, a non-admin on an admin-only
    route to the start page, and everyone else on to the page. */
module RouteGuard {
  import opened Wrappers
  import opened Types
  import opened AuthStore

  datatype Decision = ToLogin | ToHome | ShowOutlet

  /** `ProtectedRoute`. */
  function Guard(isAuthenticated: bool, user: Option<User>, requireAdmin: bool): (r: Decision)
    ensures r == ToLogin <==> !isAuthenticated
    ensures r == ToHome <==> isAuthenticated && requireAdmin && !IsAdminUser(user)
    ensures r == ShowOutlet <==> isAuthenticated && (!requireAdmin || IsAdminUser(user))
  {
    if !isAuthenticated then ToLogin
    else if requireAdmin && !IsAdminUser(user) then ToHome
    else ShowOutlet
  }

  /** Every page is mounted with the default `requireAdmin = false`, so any
      signed-in user reaches every page, whatever the role. */
  lemma DefaultGuardAdmitsEveryone(user: Option<User>, role: UserRole)
    ensures Guard(true, user, false) == ShowOutlet
    ensures user.Some? ==> Guard(true, Some(user.value.(role := role)), false) == Guard(true, user, false)
  {
  }

  /** After a successful login the pages open; after a logout every page sends to the login page. */
  lemma GuardAfterLogin(user: User, requireAdmin: bool)
    ensures !requireAdmin || user.role == Admin ==> Guard(true, Some(user), requireAdmin) == ShowOutlet
    ensures forall u: Option<User> :: Guard(false, u, requireAdmin) == ToLogin
  {
  }
}

=== FILE: seqs.dfy ===
/** List operations the front end uses through JavaScript's array methods:
    `filter`, `map`, `reduce` (sums and the "latest" reduction) and a
    descending `sort` by a numeric key. `Array.prototype.sort` is stable,
    so the sort here is a stable insertion sort. */
module Seqs {
  import opened Wrappers

  /** `s.filter(p)`. */
  function Filter<T(==)>(s: seq<T>, p: T -> bool): (r: seq<T>)
    ensures |r| <= |s|
  {
    if s == [] then [] else (if p(s[0]) then [s[0]] else []) + Filter(s[1..], p)
  }

  /** Membership in the filtered list: an element of `s` that satisfies `p`. */
  lemma FilterExact<T>(s: seq<T>, p: T -> bool)
    ensures forall x :: x in Filter(s, p) <==> x in s && p(x)
  {
    FilterMembers(s, p);
    forall x | x in s && p(x) ensures x in Filter(s, p) {
      var i :| 0 <= i < |s| && s[i] == x;
    }
    forall x | x in Filter(s, p) ensures x in s && p(x) {
      var i :| 0 <= i < |Filter(s, p)| && Filter(s, p)[i] == x;
    }
  }

  /** The filtered list holds exactly the elements that satisfy `p`. */
  lemma {:induction false} FilterMembers<T>(s: seq<T>, p: T -> bool)
    ensures forall i :: 0 <= i < |Filter(s, p)| ==> Filter(s, p)[i] in s && p(Filter(s, p)[i])
    ensures forall i :: 0 <= i < |s| && p(s[i]) ==> s[i] in Filter(s, p)
  {
    if s != [] {
      FilterMembers(s[1..], p);
      var head := if p(s[0]) then [s[0]] else [];
      assert Filter(s, p) == head + Filter(s[1..], p);
      forall i | 0 <= i < |s| && p(s[i]) ensures s[i] in Filter(s, p) {
        if i > 0 {
          assert s[i] == s[1..][i - 1];
        }
      }
    }
  }

  /** `s.filter(p).length`. */
  function Count<T(==)>(s: seq<T>, p: T -> bool): nat {
    |Filter(s, p)|
  }

  /** `s.map(f)`. */
  function Map<T, U>(s: seq<T>, f: T -> U): (r: seq<U>)
    ensures |r| == |s|
    ensures forall i :: 0 <= i < |s| ==> r[i] == f(s[i])
  {
    seq(|s|, i requires 0 <= i < |s| => f(s[i]))
  }

  /** `s.map(x => p(x) ? v : x)`: replace the elements that satisfy `p`. */
  function ReplaceWhere<T>(s: seq<T>, p: T -> bool, v: T): (r: seq<T>)
    ensures |r| == |s|
    ensures forall i :: 0 <= i < |s| ==> r[i] == (if p(s[i]) then v else s[i])
  {
    seq(|s|, i requires 0 <= i < |s| => if p(s[i]) then v else s[i])
  }

  /** `s.reduce((sum, x) => sum + f(x), 0)` over exact (real) numbers. */
  function SumReal<T>(s: seq<T>, f: T -> real): real {
    if s == [] then 0.0 else f(s[0]) + SumReal(s[1..], f)
  }

  /** `s.reduce((sum, x) => sum + f(x), 0)` over integers. */
  function SumInt<T>(s: seq<T>, f: T -> int): int {
    if s == [] then 0 else f(s[0]) + SumInt(s[1..], f)
  }

  /** `a` can be obtained from `b` by deleting elements: an order-preserving subsequence. */
  predicate IsSubsequence<T(==)>(a: seq<T>, b: seq<T>)
    decreases |b|
  {
    a == [] || (b != [] && ((a[0] == b[0] && IsSubsequence(a[1..], b[1..])) || IsSubsequence(a, b[1..])))
  }

  /** No element occurs twice. */
  predicate Distinct<T(==)>(s: seq<T>) {
    forall i, j :: 0 <= i < j < |s| ==> s[i] != s[j]
  }

  /** `s.includes(a) ? s.filter(x => x !== a) : [...s, a]`: a click on a
      selectable item removes it when present and appends it otherwise. */
  function Toggled<T(==)>(s: seq<T>, a: T): seq<T> {
    if a in s then Filter(s, (x: T) => x != a) else s + [a]
  }

  /** A toggle flips the membership of its item and of no other. */
  lemma ToggleFlips<T>(s: seq<T>, a: T)
    ensures a in Toggled(s, a) <==> a !in s
    ensures forall b :: b != a ==> (b in Toggled(s, a) <==> b in s)
  {
    var keep := (x: T) => x != a;
    FilterMembers(s, keep);
  }

  /** A list without repeats stays without repeats. */
  lemma ToggleKeepsDistinct<T>(s: seq<T>, a: T)
    requires Distinct(s)
    ensures Distinct(Toggled(s, a))
  {
    if a in s {
      var keep := (x: T) => x != a;
      FilterIsSubsequence(s, keep);
      SubsequenceKeepsDistinct(Filter(s, keep), s);
    }
  }

  /** A subsequence of a list without repeats has no repeats. */
  lemma {:induction false} SubsequenceKeepsDistinct<T>(a: seq<T>, b: seq<T>)
    requires IsSubsequence(a, b) && Distinct(b)
    ensures Distinct(a)
  {
    if a != [] && b != [] {
      if a[0] == b[0] && IsSubsequence(a[1..], b[1..]) {
        SubsequenceKeepsDistinct(a[1..], b[1..]);
        SubsequenceMembers(a[1..], b[1..]);
        forall l | 0 < l < |a| ensures a[0] != a[l] {
          var m :| 0 <= m < |b[1..]| && b[1..][m] == a[1..][l - 1];
          assert b[m + 1] == a[l];
        }
      } else {
        SubsequenceKeepsDistinct(a, b[1..]);
      }
    }
  }

  /** Selecting an absent item and toggling it again restores the list. */
  lemma ToggleTwiceRestores<T>(s: seq<T>, a: T)
    requires a !in s
    ensures Toggled(Toggled(s, a), a) == s
  {
    var keep := (x: T) => x != a;
    FilterKeepsAll(s, keep);
    FilterConcat(s, [a], keep);
    assert Filter([a], keep) == [];
  }

  /** Non-increasing in `key`, as `sort((a, b) => key(b) - key(a))` leaves a list. */
  predicate SortedDesc<T>(s: seq<T>, key: T -> int) {
    forall i, j :: 0 <= i < j < |s| ==> key(s[i]) >= key(s[j])
  }

  /** The elements whose key is exactly `k`. */
  function KeyIs<T>(key: T -> int, k: int): T -> bool {
    (x: T) => key(x) == k
  }

  lemma {:induction false} FilterIsSubsequence<T>(s: seq<T>, p: T -> bool)
    ensures IsSubsequence(Filter(s, p), s)
  {
    if s != [] {
      FilterIsSubsequence(s[1..], p);
      if p(s[0]) {
        assert Filter(s, p) == [s[0]] + Filter(s[1..], p);
        assert Filter(s, p)[1..] == Filter(s[1..], p);
      } else {
        assert Filter(s, p) == Filter(s[1..], p);
      }
    }
  }

  /** Every element of a subsequence occurs in the longer list. */
  lemma {:induction false} SubsequenceMembers<T>(a: seq<T>, b: seq<T>)
    requires IsSubsequence(a, b)
    ensures forall i :: 0 <= i < |a| ==> exists m :: 0 <= m < |b| && b[m] == a[i]
  {
    if a != [] && b != [] {
      if a[0] == b[0] && IsSubsequence(a[1..], b[1..]) {
        SubsequenceMembers(a[1..], b[1..]);
        forall i | 0 < i < |a| ensures exists m :: 0 <= m < |b| && b[m] == a[i] {
          var m :| 0 <= m < |b[1..]| && b[1..][m] == a[1..][i - 1];
          assert b[m + 1] == a[i];
        }
        assert b[0] == a[0];
      } else {
        SubsequenceMembers(a, b[1..]);
        forall i | 0 <= i < |a| ensures exists m :: 0 <= m < |b| && b[m] == a[i] {
          var m :| 0 <= m < |b[1..]| && b[1..][m] == a[i];
          assert b[m + 1] == a[i];
        }
      }
    }
  }

  /** Filtering with a predicate every element satisfies keeps the whole list. */
  lemma {:induction false} FilterKeepsAll<T>(s: seq<T>, p: T -> bool)
    requires forall i :: 0 <= i < |s| ==> p(s[i])
    ensures Filter(s, p) == s
  {
    if s != [] {
      FilterKeepsAll(s[1..], p);
    }
  }

  /** An element that fails `p` makes the filtered list shorter. */
  lemma {:induction false} FilterDropsFailing<T>(s: seq<T>, p: T -> bool, i: int)
    requires 0 <= i < |s| && !p(s[i])
    ensures |Filter(s, p)| < |s|
  {
    if i > 0 {
      assert s[1..][i - 1] == s[i];
      FilterDropsFailing(s[1..], p, i - 1);
    }
  }

  /** Filtering with a predicate no element satisfies leaves nothing. */
  lemma {:induction false} FilterNone<T>(s: seq<T>, p: T -> bool)
    requires forall i :: 0 <= i < |s| ==> !p(s[i])
    ensures Filter(s, p) == []
  {
    if s != [] {
      FilterNone(s[1..], p);
    }
  }

  lemma {:induction false} FilterConcat<T>(a: seq<T>, b: seq<T>, p: T -> bool)
    ensures Filter(a + b, p) == Filter(a, p) + Filter(b, p)
  {
    if a == [] {
      assert a + b == b;
    } else {
      var head := if p(a[0]) then [a[0]] else [];
      assert (a + b)[0] == a[0];
      assert (a + b)[1..] == a[1..] + b;
      FilterConcat(a[1..], b, p);
      calc {
        Filter(a + b, p);
        head + Filter(a[1..] + b, p);
        head + (Filter(a[1..], p) + Filter(b, p));
        (head + Filter(a[1..], p)) + Filter(b, p);
      }
    }
  }

  /** The positions of `s` whose element satisfies `p`. */
  function Positions<T>(s: seq<T>, p: T -> bool): set<int> {
    set i | 0 <= i < |s| && p(s[i])
  }

  /** The number of kept elements is the number of positions whose element satisfies `p`. */
  lemma {:induction false} CountIndices<T>(s: seq<T>, p: T -> bool)
    ensures Count(s, p) == |Positions(s, p)|
  {
    if s != [] {
      var init := s[..|s| - 1];
      var last := s[|s| - 1];
      assert s == init + [last];
      CountIndices(init, p);
      FilterConcat(init, [last], p);
      assert Filter([last], p) == (if p(last) then [last] else []) + Filter([last][1..], p);
      var before := Positions(init, p);
      var now := Positions(s, p);
      if p(last) {
        assert now == before + {|init|};
        assert |init| !in before;
      } else {
        assert now == before;
      }
    }
  }

  /** Filtering a sorted list leaves it sorted. */
  lemma {:induction false} FilterKeepsSorted<T>(s: seq<T>, p: T -> bool, key: T -> int)
    requires SortedDesc(s, key)
    ensures SortedDesc(Filter(s, p), key)
  {
    if s != [] {
      FilterKeepsSorted(s[1..], p, key);
      var rest := Filter(s[1..], p);
      if p(s[0]) {
        FilterMembers(s[1..], p);
        forall j | 0 <= j < |rest| ensures key(s[0]) >= key(rest[j]) {
          assert rest[j] in s[1..];
        }
        assert Filter(s, p) == [s[0]] + rest;
      }
    }
  }

  lemma {:induction false} SumRealConcat<T>(a: seq<T>, b: seq<T>, f: T -> real)
    ensures SumReal(a + b, f) == SumReal(a, f) + SumReal(b, f)
  {
    if a == [] {
      assert a + b == b;
    } else {
      assert (a + b)[1..] == a[1..] + b;
      SumRealConcat(a[1..], b, f);
    }
  }

  /** The sum up to and including the last element. */
  lemma SumRealSnoc<T>(s: seq<T>, f: T -> real)
    requires s != []
    ensures SumReal(s, f) == SumReal(s[..|s| - 1], f) + f(s[|s| - 1])
  {
    var n := |s| - 1;
    assert s == s[..n] + [s[n]];
    SumRealConcat(s[..n], [s[n]], f);
    assert [s[n]][1..] == [];
  }

  lemma {:induction false} SumIntConcat<T>(a: seq<T>, b: seq<T>, f: T -> int)
    ensures SumInt(a + b, f) == SumInt(a, f) + SumInt(b, f)
  {
    if a == [] {
      assert a + b == b;
    } else {
      assert (a + b)[1..] == a[1..] + b;
      SumIntConcat(a[1..], b, f);
    }
  }

  /** A sum of pointwise sums is the sum of the two sums. */
  lemma {:induction false} SumRealAdd<T>(s: seq<T>, f: T -> real, g: T -> real, h: T -> real)
    requires forall i :: 0 <= i < |s| ==> h(s[i]) == f(s[i]) + g(s[i])
    ensures SumReal(s, h) == SumReal(s, f) + SumReal(s, g)
  {
    if s != [] {
      SumRealAdd(s[1..], f, g, h);
    }
  }

  lemma {:induction false} SumRealZero<T>(s: seq<T>, f: T -> real)
    requires forall i :: 0 <= i < |s| ==> f(s[i]) == 0.0
    ensures SumReal(s, f) == 0.0
  {
    if s != [] {
      SumRealZero(s[1..], f);
    }
  }

  lemma {:induction false} SumRealNonNegative<T>(s: seq<T>, f: T -> real)
    requires forall i :: 0 <= i < |s| ==> f(s[i]) >= 0.0
    ensures SumReal(s, f) >= 0.0
  {
    if s != [] {
      SumRealNonNegative(s[1..], f);
    }
  }

  lemma {:induction false} SumIntNonNegative<T>(s: seq<T>, f: T -> int)
    requires forall i :: 0 <= i < |s| ==> f(s[i]) >= 0
    ensures SumInt(s, f) >= 0
  {
    if s != [] {
      SumIntNonNegative(s[1..], f);
    }
  }

  // ---------------------------------------------------------------------
  // Stable descending sort
  // ---------------------------------------------------------------------

  /** Insert `x` in front of the first element whose key is not larger. */
  function Insert<T>(x: T, s: seq<T>, key: T -> int): seq<T> {
    if s == [] || key(x) >= key(s[0]) then [x] + s else [s[0]] + Insert(x, s[1..], key)
  }

  /** `[...s].sort((a, b) => key(b) - key(a))`. */
  function SortDesc<T>(s: seq<T>, key: T -> int): seq<T> {
    if s == [] then [] else Insert(s[0], SortDesc(s[1..], key), key)
  }

  lemma {:induction false} InsertPermutes<T>(x: T, s: seq<T>, key: T -> int)
    ensures multiset(Insert(x, s, key)) == multiset(s) + multiset{x}
  {
    if s != [] && key(x) < key(s[0]) {
      InsertPermutes(x, s[1..], key);
      assert s == [s[0]] + s[1..];
    }
  }

  lemma {:induction false} InsertSorted<T>(x: T, s: seq<T>, key: T -> int)
    requires SortedDesc(s, key)
    ensures SortedDesc(Insert(x, s, key), key)
  {
    if s != [] && key(x) < key(s[0]) {
      var tail := Insert(x, s[1..], key);
      InsertSorted(x, s[1..], key);
      InsertPermutes(x, s[1..], key);
      forall j | 0 <= j < |tail| ensures key(s[0]) >= key(tail[j]) {
        assert tail[j] in multiset(tail);
        assert tail[j] == x || tail[j] in multiset(s[1..]);
        if tail[j] != x {
          var k :| 0 <= k < |s[1..]| && s[1..][k] == tail[j];
          assert s[k + 1] == tail[j];
        }
      }
    }
  }

  /** The sorted copy is a permutation of the input. */
  lemma {:induction false} SortDescPermutes<T>(s: seq<T>, key: T -> int)
    ensures multiset(SortDesc(s, key)) == multiset(s)
  {
    if s != [] {
      SortDescPermutes(s[1..], key);
      InsertPermutes(s[0], SortDesc(s[1..], key), key);
      assert s == [s[0]] + s[1..];
    }
  }

  /** The sorted copy is non-increasing in `key`. */
  lemma {:induction false} SortDescSorted<T>(s: seq<T>, key: T -> int)
    ensures SortedDesc(SortDesc(s, key), key)
  {
    if s != [] {
      SortDescSorted(s[1..], key);
      InsertSorted(s[0], SortDesc(s[1..], key), key);
    }
  }

  lemma {:induction false} InsertStable<T>(x: T, s: seq<T>, key: T -> int, k: int)
    ensures Filter(Insert(x, s, key), KeyIs(key, k))
         == (if key(x) == k then [x] else []) + Filter(s, KeyIs(key, k))
  {
    var p := KeyIs(key, k);
    if s == [] || key(x) >= key(s[0]) {
      assert ([x] + s)[1..] == s;
    } else {
      InsertStable(x, s[1..], key, k);
      assert ([s[0]] + Insert(x, s[1..], key))[1..] == Insert(x, s[1..], key);
    }
  }

  /** Stability: elements with equal keys keep their relative input order. */
  lemma {:induction false} SortDescStable<T>(s: seq<T>, key: T -> int, k: int)
    ensures Filter(SortDesc(s, key), KeyIs(key, k)) == Filter(s, KeyIs(key, k))
  {
    if s != [] {
      SortDescStable(s[1..], key, k);
      InsertStable(s[0], SortDesc(s[1..], key), key, k);
    }
  }

  // ---------------------------------------------------------------------
  // The "latest" reduction
  // ---------------------------------------------------------------------

  /** `s.reduce((latest, x) => !latest ? x : (key(x) > key(latest) ? x : latest), null)`:
      a left fold, written here by recursion on the last element. */
  function Latest<T>(s: seq<T>, key: T -> int): Option<T> {
    if s == [] then None
    else
      var prev := Latest(s[..|s| - 1], key);
      var x := s[|s| - 1];
      if prev.None? then Some(x) else if key(x) > key(prev.value) then Some(x) else prev
  }

  /** Index `i` holds a maximal key and every earlier element has a strictly smaller one. */
  predicate IsFirstMaximum<T>(s: seq<T>, key: T -> int, i: int) {
    && 0 <= i < |s|
    && (forall j :: 0 <= j < |s| ==> key(s[j]) <= key(s[i]))
    && (forall j :: 0 <= j < i ==> key(s[j]) < key(s[i]))
  }

  /** The reduction is null exactly for the empty list; otherwise it is the first
      element with maximal key (the comparison is a strict `>`). */
  lemma {:induction false} LatestIsFirstMaximum<T>(s: seq<T>, key: T -> int)
    ensures Latest(s, key).None? <==> s == []
    ensures s != [] ==> exists i :: IsFirstMaximum(s, key, i) && Latest(s, key) == Some(s[i])
  {
    if s != [] {
      var n := |s| - 1;
      var pre := s[..n];
      if pre == [] {
        assert IsFirstMaximum(s, key, 0) && Latest(s, key) == Some(s[0]);
      } else {
        LatestIsFirstMaximum(pre, key);
        var i' :| IsFirstMaximum(pre, key, i') && Latest(pre, key) == Some(pre[i']);
        if key(s[n]) > key(pre[i']) {
          assert IsFirstMaximum(s, key, n);
        } else {
          assert IsFirstMaximum(s, key, i');
        }
      }
    }
  }
}

=== FILE: settings_page.dfy ===
/** The settings page: the two switches, dark mode, the language and photo
    quality choices, and clearing the browser storage while keeping the
    sign-in. The browser's storage is a map from keys to texts. */
module SettingsPage {
  import opened Wrappers
  import opened UIStore
  import AuthStore

  datatype SwitchKey = NotificationsSwitch | AutoSyncSwitch

  /** The update `handleToggle(key)` sends: the switch's new value and nothing else. */
  function SwitchUpdate(s: Settings, key: SwitchKey): (u: SettingsUpdate)
    ensures var r := ApplyUpdate(s, u);
            && (key == NotificationsSwitch ==> r == s.(notifications := !s.notifications))
            && (key == AutoSyncSwitch ==> r == s.(autoSync := !s.autoSync))
  {
    match key
    case NotificationsSwitch => SettingsUpdate(None, Some(!s.notifications), None, None, None)
    case AutoSyncSwitch => SettingsUpdate(None, None, None, Some(!s.autoSync), None)
  }

  /** Switching the same key twice gives back the settings. */
  lemma SwitchTwiceRestores(s: Settings, key: SwitchKey)
    ensures var once := ApplyUpdate(s, SwitchUpdate(s, key));
            ApplyUpdate(once, SwitchUpdate(once, key)) == s
  {
  }

  /** The language dialog's buttons; English is shown but not yet offered. */
  datatype LanguageOption = LanguageOption(value: Language, caption: string, available: bool)

  const LanguageOptions: seq<LanguageOption> := [
    LanguageOption(German, "Deutsch", true),
    LanguageOption(English, "English", false)
  ]

  /** The language after a click on a button: an unavailable one changes nothing. */
  function LanguageAfterClick(current: Language, option: LanguageOption): (r: Language)
    ensures option.available ==> r == option.value
    ensures !option.available ==> r == current
  {
    if option.available then option.value else current
  }

  /** English can be chosen from none of the dialog's buttons. */
  lemma EnglishNeverChosen(current: Language)
    ensures forall i :: 0 <= i < |LanguageOptions| ==>
              (LanguageAfterClick(current, LanguageOptions[i]) == English ==> current == English)
  {
  }

  /** The quality shown in the list. */
  function QualityLabel(q: ImageQuality): (text: string)
    ensures q == High ==> text == "Hoch"
    ensures q == Medium ==> text == "Mittel"
    ensures q == Low ==> text == "Niedrig"
  {
    if q == High then "Hoch" else if q == Medium then "Mittel" else "Niedrig"
  }

  /** The three labels are different, so the label tells the quality. */
  lemma QualityLabelsDistinct(a: ImageQuality, b: ImageQuality)
    ensures QualityLabel(a) == QualityLabel(b) <==> a == b
  {
  }

  // ---------------------------------------------------------------------
  // Clearing the storage

  /** The browser's storage after `getItem(key)`, `clear()` and, when the
      saved text was non-empty, `setItem(key, text)`. */
  function ClearedKeeping(items: map<string, string>, key: string): (r: map<string, string>)
    ensures forall k :: k in r ==> k == key
    ensures key in r <==> key in items && items[key] != ""
    ensures key in r ==> r[key] == items[key]
  {
    if key in items && items[key] != "" then map[key := items[key]] else map[]
  }

  /** The key the page keeps, as written. */
  const KeptKeyAsWritten := "bauapp-auth-storage"

  /** The storage after a cache clear as written. */
  function ClearedAsWritten(items: map<string, string>): map<string, string> {
    ClearedKeeping(items, KeptKeyAsWritten)
  }

  /** As written, a cache clear always removes the saved sign-in, which lives
      under `auth-storage`: after the next reload the user is signed out. */
  lemma ClearAsWrittenSignsOut(items: map<string, string>)
    ensures AuthStore.StorageKey !in ClearedAsWritten(items)
    ensures ClearedAsWritten(map[AuthStore.StorageKey := "{\"state\":{\"isAuthenticated\":true}}"]) == map[]
  {
  }

  /** Corrected, the saved sign-in survives and everything else goes. */
  lemma ClearKeepsSignIn(items: map<string, string>)
    requires AuthStore.StorageKey in items && items[AuthStore.StorageKey] != ""
    ensures ClearedKeeping(items, AuthStore.StorageKey) == map[AuthStore.StorageKey := items[AuthStore.StorageKey]]
  {
  }

  /** `localStorage`. */
  class Storage {
    var items: map<string, string>

    constructor (initial: map<string, string>)
      ensures items == initial
    {
      items := initial;
    }

    function GetItem(key: string): (v: Option<string>)
      reads this
      ensures v.Some? <==> key in items
      ensures v.Some? ==> v.value == items[key]
    {
      if key in items then Some(items[key]) else None
    }

    method Clear()
      modifies this
      ensures items == map[]
    {
      items := map[];
    }

    method SetItem(key: string, value: string)
      modifies this
      ensures items == old(items)[key := value]
    {
      items := items[key := value];
    }
  }

  const Saved := "Einstellung gespeichert"

  /** The page's own state: which dialog is open. */
  class Page {
    var showLanguageModal: bool
    var showQualityModal: bool

    constructor ()
      ensures !showLanguageModal && !showQualityModal
    {
      showLanguageModal := false;
      showQualityModal := false;
    }

    /** `handleToggle`: flips one switch and confirms. */
    method HandleToggle(ui: UIStore.Store, key: SwitchKey, toastId: string)
      modifies ui
      ensures key == NotificationsSwitch ==> ui.settings == old(ui.settings).(notifications := !old(ui.settings).notifications)
      ensures key == AutoSyncSwitch ==> ui.settings == old(ui.settings).(autoSync := !old(ui.settings).autoSync)
      ensures ui.toasts == old(ui.toasts) + [Toast(toastId, Saved, Success)]
      ensures ui.notifications == old(ui.notifications)
      ensures ui.isSidebarOpen == old(ui.isSidebarOpen) && ui.isModalOpen == old(ui.isModalOpen) && ui.modalContent == old(ui.modalContent)
    {
      ui.UpdateSettings(SwitchUpdate(ui.settings, key));
      ui.AddToast(toastId, Saved, Success);
    }

    /** `handleDarkModeToggle`: the message names the mode being switched to. */
    method HandleDarkModeToggle(ui: UIStore.Store, toastId: string)
      modifies ui
      ensures ui.settings == old(ui.settings).(darkMode := !old(ui.settings).darkMode)
      ensures ui.toasts == old(ui.toasts) + [Toast(toastId, if old(ui.settings).darkMode then "Heller Modus aktiviert"
                                                         else "Dunkler Modus aktiviert", Success)]
      ensures ui.notifications == old(ui.notifications)
      ensures ui.isSidebarOpen == old(ui.isSidebarOpen) && ui.isModalOpen == old(ui.isModalOpen) && ui.modalContent == old(ui.modalContent)
    {
      var wasDark := ui.settings.darkMode;
      ui.ToggleDarkMode();
      ui.AddToast(toastId, if wasDark then "Heller Modus aktiviert" else "Dunkler Modus aktiviert", Success);
    }

    /** A click on the `i`-th language button: only an available language is
        saved, confirmed, and closes the dialog. */
    method ClickLanguage(ui: UIStore.Store, i: nat, toastId: string)
      requires i < |LanguageOptions|
      modifies this, ui
      ensures ui.settings.language == LanguageAfterClick(old(ui.settings.language), LanguageOptions[i])
      ensures LanguageOptions[i].available ==>
                && ui.settings == old(ui.settings).(language := LanguageOptions[i].value)
                && ui.toasts == old(ui.toasts) + [Toast(toastId, "Sprache gespeichert", Success)]
                && !showLanguageModal
      ensures !LanguageOptions[i].available ==>
                ui.settings == old(ui.settings) && ui.toasts == old(ui.toasts) && showLanguageModal == old(showLanguageModal)
      ensures showQualityModal == old(showQualityModal)
      ensures ui.notifications == old(ui.notifications)
      ensures ui.isSidebarOpen == old(ui.isSidebarOpen) && ui.isModalOpen == old(ui.isModalOpen) && ui.modalContent == old(ui.modalContent)
    {
      var option := LanguageOptions[i];
      if !option.available {
        return;
      }
      ui.UpdateSettings(SettingsUpdate(None, None, Some(option.value), None, None));
      ui.AddToast(toastId, "Sprache gespeichert", Success);
      showLanguageModal := false;
    }

    /** `handleQualityChange`: the chosen quality is saved, confirmed, and the dialog closes. */
    method HandleQualityChange(ui: UIStore.Store, quality: ImageQuality, toastId: string)
      modifies this, ui
      ensures ui.settings == old(ui.settings).(imageQuality := quality)
      ensures ui.toasts == old(ui.toasts) + [Toast(toastId, "Bildqualität gespeichert", Success)]
      ensures !showQualityModal && showLanguageModal == old(showLanguageModal)
      ensures ui.notifications == old(ui.notifications)
      ensures ui.isSidebarOpen == old(ui.isSidebarOpen) && ui.isModalOpen == old(ui.isModalOpen) && ui.modalContent == old(ui.modalContent)
    {
      ui.UpdateSettings(SettingsUpdate(None, None, None, None, Some(quality)));
      ui.AddToast(toastId, "Bildqualität gespeichert", Success);
      showQualityModal := false;
    }

    /** "Cache leeren", corrected to keep the key the sign-in is saved under. */
    method ClearCache(storage: Storage, ui: UIStore.Store, toastId: string)
      modifies storage, ui
      ensures storage.items == ClearedKeeping(old(storage.items), AuthStore.StorageKey)
      ensures ui.toasts == old(ui.toasts) + [Toast(toastId, "Cache geleert", Success)]
      ensures ui.settings == old(ui.settings)
      ensures ui.notifications == old(ui.notifications)
      ensures ui.isSidebarOpen == old(ui.isSidebarOpen) && ui.isModalOpen == old(ui.isModalOpen) && ui.modalContent == old(ui.modalContent)
    {
      var authData := storage.GetItem(AuthStore.StorageKey);
      storage.Clear();
      if authData.Some? && authData.value != "" {
        storage.SetItem(AuthStore.StorageKey, authData.value);
      }
      ui.AddToast(toastId, "Cache geleert", Success);
    }
  }
}

=== FILE: sidebar.dfy ===
/** The side navigation: four entries for everyone, four more under
    "Administration" for admins; following an entry toggles the sidebar. */
module Sidebar {
  import opened Wrappers
  import opened Types
  import UIStore

  datatype NavItem = NavItem(caption: string, path: string)

  const MainNavItems: seq<NavItem> := [
    NavItem("Übersicht", "/"),
    NavItem("Projekte", "/projects"),
    NavItem("Neuer Bericht", "/new-report"),
    NavItem("Stundenzettel", "/timesheet")
  ]

  const AdminNavItems: seq<NavItem> := [
    NavItem("Dashboard", "/admin"),
    NavItem("Benutzer", "/admin/users"),
    NavItem("Alle Berichte", "/admin/reports"),
    NavItem("Einstellungen", "/admin/settings")
  ]

  /** The entries shown, in order: the main entries, then the admin entries for an admin. */
  function VisibleItems(user: Option<User>): (items: seq<NavItem>)
    ensures |items| == (if IsAdminUser(user) then 8 else 4)
    ensures items[..4] == MainNavItems
    ensures IsAdminUser(user) ==> items[4..] == AdminNavItems
    ensures forall i :: 0 <= i < |items| ==> (items[i] in AdminNavItems <==> i >= 4)
    ensures forall i, j :: 0 <= i < j < |items| ==> items[i].path != items[j].path
  {
    MainNavItems + (if IsAdminUser(user) then AdminNavItems else [])
  }

  /** Following any entry toggles the sidebar, whichever entry it is. */
  method ClickNavItem(ui: UIStore.Store, item: NavItem)
    modifies ui
    ensures ui.isSidebarOpen == !old(ui.isSidebarOpen)
    ensures ui.settings == old(ui.settings) && ui.toasts == old(ui.toasts)
    ensures ui.notifications == old(ui.notifications) && ui.isModalOpen == old(ui.isModalOpen)
    ensures ui.modalContent == old(ui.modalContent)
  {
    ui.ToggleSidebar();
  }
}

=== FILE: text.dfy ===
/** String operations used by the front end and the backend: lower-casing,
    substring search, whitespace trimming, splitting and joining, character
    replacement and stripping. Strings are sequences of characters. */
module Text {

  /** Lower-case mapping: ASCII letters and the German umlauts. */
  function LowerChar(c: char): char {
    if 'A' <= c <= 'Z' then (c as int + 32) as char
    else if c == 'Ä' then 'ä'
    else if c == 'Ö' then 'ö'
    else if c == 'Ü' then 'ü'
    else c
  }

  /** `s.toLowerCase()` / Python's `s.lower()`. */
  function Lower(s: string): (r: string)
    ensures |r| == |s|
    ensures forall i :: 0 <= i < |s| ==> r[i] == LowerChar(s[i])
  {
    if s == [] then [] else [LowerChar(s[0])] + Lower(s[1..])
  }

  /** Lower-casing works letter by letter, so it splits over a concatenation. */
  lemma LowerConcat(a: string, b: string)
    ensures Lower(a + b) == Lower(a) + Lower(b)
  {
    var l := Lower(a + b);
    assert |l| == |Lower(a) + Lower(b)|;
    forall i | 0 <= i < |l| ensures l[i] == (Lower(a) + Lower(b))[i] {
      if i < |a| {
        assert (a + b)[i] == a[i];
      } else {
        assert (a + b)[i] == b[i - |a|];
      }
    }
  }

  /** Whitespace is left as it is. */
  lemma LowerWhitespace(w: string)
    requires forall i :: 0 <= i < |w| ==> IsWhitespace(w[i])
    ensures Lower(w) == w
  {
    var l := Lower(w);
    forall i | 0 <= i < |w| ensures l[i] == w[i] {
      assert IsWhitespace(w[i]);
      assert l[i] == LowerChar(w[i]);
    }
  }

  /** A string without capitals is its own lower-case form. */
  lemma LowerKeepsLowercase(s: string)
    requires forall i :: 0 <= i < |s| ==> LowerChar(s[i]) == s[i]
    ensures Lower(s) == s
  {
  }

  /** `s.includes(sub)`. */
  predicate Contains(s: string, sub: string)
    decreases |s|
  {
    sub <= s || (s != [] && Contains(s[1..], sub))
  }

  /** `sub` occurs in `s` at position `i`. */
  predicate OccursAt(s: string, sub: string, i: int) {
    0 <= i && i + |sub| <= |s| && s[i..i + |sub|] == sub
  }

  /** An occurrence in the tail is one position further on in the whole. */
  lemma OccursShift(s: string, sub: string, i: int)
    requires s != [] && 0 <= i
    ensures OccursAt(s[1..], sub, i) <==> OccursAt(s, sub, i + 1)
  {
    if i + 1 + |sub| <= |s| {
      assert s[1..][i..i + |sub|] == s[i + 1..i + 1 + |sub|];
    }
  }

  /** `Contains` is substring search: it holds exactly when `sub` occurs somewhere in `s`. */
  lemma {:induction false} ContainsIffOccurs(s: string, sub: string)
    ensures Contains(s, sub) <==> exists i :: OccursAt(s, sub, i)
  {
    assert OccursAt(s, sub, 0) <==> sub <= s;
    if s != [] {
      ContainsIffOccurs(s[1..], sub);
      forall i | OccursAt(s[1..], sub, i) ensures OccursAt(s, sub, i + 1) {
        OccursShift(s, sub, i);
      }
      forall i | OccursAt(s, sub, i) && i > 0 ensures OccursAt(s[1..], sub, i - 1) {
        OccursShift(s, sub, i - 1);
      }
    }
  }

  /** JavaScript's `trim` / Python's `strip` whitespace. */
  predicate IsWhitespace(c: char) {
    c == ' ' || c == '\t' || c == '\n' || c == '\r' || c == '\U{B}' || c == '\U{C}'
  }

  /** Length of the leading run of whitespace. */
  function LeadingBlanks(s: string): (k: nat)
    ensures k <= |s|
    ensures forall i :: 0 <= i < k ==> IsWhitespace(s[i])
    ensures k < |s| ==> !IsWhitespace(s[k])
  {
    if s != [] && IsWhitespace(s[0]) then 1 + LeadingBlanks(s[1..]) else 0
  }

  /** Length of `s` without its trailing run of whitespace. */
  function WithoutTrailingBlanks(s: string): (k: nat)
    ensures k <= |s|
    ensures forall i :: k <= i < |s| ==> IsWhitespace(s[i])
    ensures k > 0 ==> !IsWhitespace(s[k - 1])
  {
    if s != [] && IsWhitespace(s[|s| - 1]) then WithoutTrailingBlanks(s[..|s| - 1]) else |s|
  }

  /** `s.trimStart()`. */
  function TrimStart(s: string): string {
    s[LeadingBlanks(s)..]
  }

  /** `s.trimEnd()`. */
  function TrimEnd(s: string): string {
    s[..WithoutTrailingBlanks(s)]
  }

  /** `s.trim()` / `s.strip()`. */
  function Trim(s: string): string {
    TrimEnd(TrimStart(s))
  }

  /** A trimmed string is empty exactly when the input is all whitespace, and
      otherwise it neither starts nor ends with whitespace. */
  lemma TrimEmptyIffBlank(s: string)
    ensures Trim(s) == [] <==> forall i :: 0 <= i < |s| ==> IsWhitespace(s[i])
    ensures Trim(s) != [] ==> !IsWhitespace(Trim(s)[0]) && !IsWhitespace(Trim(s)[|Trim(s)| - 1])
  {
    var k := LeadingBlanks(s);
    var t := s[k..];
    var m := WithoutTrailingBlanks(t);
    assert |t| > 0 ==> t[0] == s[k];
  }

  /** `parts.join(sep)`. */
  function Join(parts: seq<string>, sep: string): string {
    if parts == [] then []
    else if |parts| == 1 then parts[0]
    else parts[0] + sep + Join(parts[1..], sep)
  }

  /** `s.split(c)` for a one-character separator. */
  function Split(s: string, c: char): (parts: seq<string>)
    ensures |parts| >= 1
    ensures forall i :: 0 <= i < |parts| ==> c !in parts[i]
  {
    if s == [] then [[]]
    else if s[0] == c then [[]] + Split(s[1..], c)
    else
      var rest := Split(s[1..], c);
      [[s[0]] + rest[0]] + rest[1..]
  }

  /** Splitting and re-joining with the same separator gives back the input. */
  lemma {:induction false} JoinSplit(s: string, c: char)
    ensures Join(Split(s, c), [c]) == s
  {
    if s != [] {
      var rest := Split(s[1..], c);
      JoinSplit(s[1..], c);
      if s[0] == c {
        assert Split(s, c)[1..] == rest;
      } else {
        var parts := Split(s, c);
        assert parts[1..] == rest[1..];
        if |rest| == 1 {
          assert Join(parts, [c]) == [s[0]] + rest[0];
        } else {
          assert Join(parts, [c]) == [s[0]] + rest[0] + [c] + Join(rest[1..], [c]);
        }
      }
    }
  }

  /** A string without the separator splits into itself alone. */
  lemma {:induction false} SplitWithoutSeparator(s: string, c: char)
    requires c !in s
    ensures Split(s, c) == [s]
  {
    if s != [] {
      SplitWithoutSeparator(s[1..], c);
      assert [s[0]] + s[1..] == s;
    }
  }

  /** Splitting `a + [c] + b`, where `a` has no `c`, gives `a` followed by the parts of `b`. */
  lemma {:induction false} SplitAtFirstSeparator(a: string, c: char, b: string)
    requires c !in a
    ensures Split(a + [c] + b, c) == [a] + Split(b, c)
  {
    if a == [] {
      assert a + [c] + b == [c] + b;
      assert ([c] + b)[1..] == b;
    } else {
      SplitAtFirstSeparator(a[1..], c, b);
      assert (a + [c] + b)[1..] == a[1..] + [c] + b;
      assert [a[0]] + a[1..] == a;
    }
  }

  /** `s.replace(a, b)` for every occurrence of the character `a`. */
  function ReplaceChar(s: string, a: char, b: char): (r: string)
    ensures |r| == |s|
    ensures forall i :: 0 <= i < |s| ==> r[i] == (if s[i] == a then b else s[i])
  {
    if s == [] then [] else [if s[0] == a then b else s[0]] + ReplaceChar(s[1..], a, b)
  }

  /** Python's `s.lstrip(c)`: drop every leading `c`. */
  function LStrip(s: string, c: char): (r: string)
    ensures r == [] || r[0] != c
    ensures |r| <= |s| && r == s[|s| - |r|..]
  {
    if s != [] && s[0] == c then LStrip(s[1..], c) else s
  }

  /** Python's `s.rstrip(c)`: drop every trailing `c`. */
  function RStrip(s: string, c: char): (r: string)
    ensures r == [] || r[|r| - 1] != c
    ensures |r| <= |s| && r == s[..|r|]
  {
    if s != [] && s[|s| - 1] == c then RStrip(s[..|s| - 1], c) else s
  }

  /** Drop a leading run of whitespace. */
  function DropWhitespace(s: string): (r: string)
    ensures |r| <= |s|
    ensures r == [] || !IsWhitespace(r[0])
  {
    if s != [] && IsWhitespace(s[0]) then DropWhitespace(s[1..]) else s
  }

  /** `s.replace(/\s+/g, c)`: every maximal run of whitespace becomes one `c`. */
  function ReplaceWhitespaceRuns(s: string, c: char): (r: string)
    requires !IsWhitespace(c)
    ensures forall i :: 0 <= i < |r| ==> !IsWhitespace(r[i])
    decreases |s|
  {
    if s == [] then []
    else if IsWhitespace(s[0]) then [c] + ReplaceWhitespaceRuns(DropWhitespace(s), c)
    else [s[0]] + ReplaceWhitespaceRuns(s[1..], c)
  }

  /** No whitespace, nothing to replace. */
  lemma {:induction false} ReplaceRunsNoWhitespace(s: string, c: char)
    requires !IsWhitespace(c)
    requires forall i :: 0 <= i < |s| ==> !IsWhitespace(s[i])
    ensures ReplaceWhitespaceRuns(s, c) == s
    decreases |s|
  {
    if s != [] {
      ReplaceRunsNoWhitespace(s[1..], c);
    }
  }

  /** A whole run of whitespace is dropped from the front. */
  lemma {:induction false} DropWhitespaceRun(w: string, b: string)
    requires forall i :: 0 <= i < |w| ==> IsWhitespace(w[i])
    requires b == [] || !IsWhitespace(b[0])
    ensures DropWhitespace(w + b) == b
    decreases |w|
  {
    if w != [] {
      assert (w + b)[1..] == w[1..] + b;
      DropWhitespaceRun(w[1..], b);
    } else {
      assert w + b == b;
    }
  }

  /** A run of whitespace between a word and the rest becomes one `c`. */
  lemma {:induction false} ReplaceRunsAcrossRun(a: string, w: string, b: string, c: char)
    requires !IsWhitespace(c)
    requires forall i :: 0 <= i < |a| ==> !IsWhitespace(a[i])
    requires w != [] && forall i :: 0 <= i < |w| ==> IsWhitespace(w[i])
    requires b == [] || !IsWhitespace(b[0])
    ensures ReplaceWhitespaceRuns(a + w + b, c) == a + [c] + ReplaceWhitespaceRuns(b, c)
    decreases |a|
  {
    if a == [] {
      assert a + w + b == w + b;
      DropWhitespaceRun(w, b);
    } else {
      assert (a + w + b)[0] == a[0];
      assert (a + w + b)[1..] == a[1..] + w + b;
      ReplaceRunsAcrossRun(a[1..], w, b, c);
    }
  }
}

=== FILE: time_arith.dfy ===
/** Working-time arithmetic shared by the three pages that turn a start and
    an end time of the form "HH:MM" and a break in minutes into hours:
    `calculateHours` on the admin timesheet and on the personal timesheet,
    and `calcHoursPreview` on the new-report form. Each page parses the
    times with `split(':').map(Number)` and computes
    `max(0, end - start - break) / 60`; what a page does when a time is
    missing or unparsable differs and is modelled in that page's module. */
module TimeArith {
  import opened Wrappers
  import Text
  import Numbers

  /** `Number(s)` on the text of a time component: the empty string is 0, a
      run of decimal digits is its value, anything else is NaN (None). */
  function ToNumber(s: string): (r: Option<nat>)
    ensures r.Some? <==> Numbers.IsDigits(s)
  {
    if Numbers.IsDigits(s) then Some(Numbers.DigitsValue(s)) else None
  }

  /** `s.split(':').map(Number)` taken as `[h, m]`, in minutes since midnight.
      Components after the second are ignored, and there is no range check. */
  function ParseClock(s: string): (r: Option<int>)
    ensures r.Some? ==> r.value >= 0
  {
    var parts := Text.Split(s, ':');
    if |parts| < 2 then None
    else
      match (ToNumber(parts[0]), ToNumber(parts[1]))
      case (Some(h), Some(m)) => Some(h * 60 + m)
      case _ => None
  }

  /** The clock text an `<input type="time">` produces for `h` hours and `m` minutes. */
  function ClockText(h: nat, m: nat): string {
    Numbers.Pad2(h) + ":" + Numbers.Pad2(m)
  }

  /** Parsing the text form of a clock time gives back its minutes. */
  lemma ParseClockText(h: nat, m: nat)
    ensures ParseClock(ClockText(h, m)) == Some(h * 60 + m)
  {
    var a, b := Numbers.Pad2(h), Numbers.Pad2(m);
    assert ':' !in a && ':' !in b;
    Text.SplitAtFirstSeparator(a, ':', b);
    Text.SplitWithoutSeparator(b, ':');
    assert ClockText(h, m) == a + [':'] + b;
    Numbers.Pad2RoundTrip(h);
    Numbers.Pad2RoundTrip(m);
  }

  /** There is no range check: "25:99" is read as 25 hours and 99 minutes. */
  lemma OutOfRangeClockAccepted()
    ensures ParseClock("25:99") == Some(25 * 60 + 99)
  {
    ParseClockText(25, 99);
    assert ClockText(25, 99) == "25:99";
  }

  function Max0(x: int): (r: nat)
    ensures r >= x && (r == x || r == 0)
  {
    if x > 0 then x else 0
  }

  /** Hours worked between `start` and `end` with `pause` minutes of break,
      `max(0, end - start - pause) / 60`; None when a time is empty or does
      not parse (the caller's fallback decides what that shows). */
  function ShiftHours(start: string, end: string, pause: int): (r: Option<real>)
    ensures r.Some? <==> start != "" && end != "" && ParseClock(start).Some? && ParseClock(end).Some?
    ensures r.Some? ==> r.value >= 0.0
    ensures r.Some? ==> var worked := ParseClock(end).value - ParseClock(start).value - pause;
                        (worked <= 0 ==> r.value == 0.0) && (worked >= 0 ==> r.value * 60.0 == worked as real)
  {
    if start == "" || end == "" then None
    else
      match (ParseClock(start), ParseClock(end))
      case (Some(s), Some(e)) => Some(Max0(e - s - pause) as real / 60.0)
      case _ => None
  }

  /** A full day shift: 08:00 to 16:30 with a 30-minute break is 8 hours. */
  lemma EightHourShift()
    ensures ShiftHours("08:00", "16:30", 30) == Some(8.0)
  {
    ParseClockText(8, 0);
    ParseClockText(16, 30);
    assert ClockText(8, 0) == "08:00";
    assert ClockText(16, 30) == "16:30";
  }

  /** An end before the start (no overnight shifts) gives 0 hours, not a negative value. */
  lemma EndBeforeStartIsZero(h1: nat, m1: nat, h2: nat, m2: nat, pause: int)
    requires h2 * 60 + m2 < h1 * 60 + m1 && pause >= 0
    ensures ShiftHours(ClockText(h1, m1), ClockText(h2, m2), pause) == Some(0.0)
  {
    ParseClockText(h1, m1);
    ParseClockText(h2, m2);
  }

  /** For times within a day (hours below 24, minutes below 60) and a
      non-negative break the result is below 24 hours. */
  lemma ShiftWithinDay(h1: nat, m1: nat, h2: nat, m2: nat, pause: int)
    requires h1 < 24 && m1 < 60 && h2 < 24 && m2 < 60 && pause >= 0
    ensures ShiftHours(ClockText(h1, m1), ClockText(h2, m2), pause).Some?
    ensures ShiftHours(ClockText(h1, m1), ClockText(h2, m2), pause).value < 24.0
  {
    ParseClockText(h1, m1);
    ParseClockText(h2, m2);
  }

  /** A longer break never yields more hours. */
  lemma LongerBreakFewerHours(start: string, end: string, p1: int, p2: int)
    requires p1 <= p2 && ShiftHours(start, end, p1).Some?
    ensures ShiftHours(start, end, p2).Some?
    ensures ShiftHours(start, end, p2).value <= ShiftHours(start, end, p1).value
  {
  }
}

=== FILE: timesheet.dfy ===
/** A worker's own timesheet: entries derived from reports plus entries the
    worker adds by hand, a weekly total over the Monday-first week window,
    and the add / edit / delete handlers for the hand-made entries. */
module Timesheet {
  import opened Wrappers
  import opened Seqs
  import opened Types
  import opened TimeArith
  import opened Calendar

  const MillisPerDay := 24 * 60 * 60 * 1000

  datatype Source = FromReport | Manual

  /** A timesheet row; a time that is not set is the empty string. */
  datatype TimeEntry = TimeEntry(
    id: string,
    date: int,
    projectId: string,
    projectName: string,
    startTime: string,
    endTime: string,
    breakMinutes: Option<int>,
    hours: Option<real>,
    notes: string,
    source: Source)

  /** A worker sees only their own reports; an admin or an anonymous visitor sees all. */
  predicate Visible(user: Option<User>, r: Report) {
    user.Some? && user.value.role == Worker ==> r.userId == user.value.id
  }

  /** The row made from a report (the mapping in the report loader). */
  function EntryOfReport(projects: seq<Project>): Report -> TimeEntry {
    (r: Report) =>
      var name :=
        if r.projectName.GetOr("") != "" then r.projectName.value
        else if ProjectNameOf(projects, r.projectId) != "" then ProjectNameOf(projects, r.projectId)
        else r.projectId;
      TimeEntry("report-" + r.id, r.createdAt / MillisPerDay, r.projectId, name,
                r.startTime.GetOr(""), r.endTime.GetOr(""), r.breakMinutes, None, r.text, FromReport)
  }

  /** `reportEntries`: the visible reports as rows, in report order. */
  function ReportEntries(reports: seq<Report>, user: Option<User>, projects: seq<Project>): seq<TimeEntry> {
    Map(Filter(reports, (r: Report) => Visible(user, r)), EntryOfReport(projects))
  }

  /** For a worker, every row comes from one of their own reports; for anyone
      else every report becomes a row. */
  lemma {:induction false} ReportEntriesOfUser(reports: seq<Report>, user: Option<User>, projects: seq<Project>)
    ensures forall k :: 0 <= k < |ReportEntries(reports, user, projects)| ==>
              exists r :: r in reports && Visible(user, r) && ReportEntries(reports, user, projects)[k] == EntryOfReport(projects)(r)
    ensures !(user.Some? && user.value.role == Worker) ==> |ReportEntries(reports, user, projects)| == |reports|
  {
    var visible := (r: Report) => Visible(user, r);
    FilterMembers(reports, visible);
    var kept := Filter(reports, visible);
    forall k | 0 <= k < |ReportEntries(reports, user, projects)|
      ensures exists r :: r in reports && Visible(user, r) && ReportEntries(reports, user, projects)[k] == EntryOfReport(projects)(r)
    {
      assert kept[k] in reports && Visible(user, kept[k]);
    }
    if !(user.Some? && user.value.role == Worker) {
      FilterKeepsAll(reports, visible);
    }
  }

  // ---------------------------------------------------------------------
  // Hours
  // ---------------------------------------------------------------------

  /** `calculateHours` of this page: the shift length when both times are set
      and readable, otherwise the entry's own `hours`, or 0. */
  function CalculateHours(e: TimeEntry): (h: real)
    ensures ShiftHours(e.startTime, e.endTime, e.breakMinutes.GetOr(0)).None? ==> h == e.hours.GetOr(0.0)
    ensures ShiftHours(e.startTime, e.endTime, e.breakMinutes.GetOr(0)).Some? ==> h >= 0.0
    ensures ShiftHours(e.startTime, e.endTime, e.breakMinutes.GetOr(0)).Some? ==>
              h * 60.0 == Max0(ParseClock(e.endTime).value - ParseClock(e.startTime).value - e.breakMinutes.GetOr(0)) as real
  {
    match ShiftHours(e.startTime, e.endTime, e.breakMinutes.GetOr(0))
    case Some(h) => h
    case None => e.hours.GetOr(0.0)
  }

  /** Hand-made rows carry no times, so they fall back to `hours`, which the
      add handler never sets: they count 0 hours. */
  lemma ManualRowsCountZero(date: int, projectId: string, projectName: string, notes: string, id: string)
    ensures CalculateHours(TimeEntry(id, date, projectId, projectName, "", "", None, None, notes, Manual)) == 0.0
  {
  }

  /** `getEntriesForDate`. */
  function EntriesForDate(entries: seq<TimeEntry>, date: int): seq<TimeEntry> {
    Filter(entries, (e: TimeEntry) => e.date == date)
  }

  function DayTotal(entries: seq<TimeEntry>): int -> real {
    (d: int) => SumReal(EntriesForDate(entries, d), CalculateHours)
  }

  /** `weeklyTotal`: the day sums added over the week dates. */
  function WeeklyTotal(entries: seq<TimeEntry>, weekDates: seq<int>): real {
    SumReal(weekDates, DayTotal(entries))
  }

  /** Adding over distinct dates the hours of one entry on its own date counts it once, or not at all. */
  lemma {:induction false} SumOnDate(dates: seq<int>, e: TimeEntry, f: int -> real)
    requires Distinct(dates)
    requires forall i :: 0 <= i < |dates| ==> f(dates[i]) == if dates[i] == e.date then CalculateHours(e) else 0.0
    ensures SumReal(dates, f) == if e.date in dates then CalculateHours(e) else 0.0
  {
    if dates != [] {
      SumOnDate(dates[1..], e, f);
    }
  }

  function InWeek(weekDates: seq<int>): TimeEntry -> bool {
    (e: TimeEntry) => e.date in weekDates
  }

  /** A day's total over a list is the first entry's share plus the day's total over the rest. */
  lemma DayTotalCons(entries: seq<TimeEntry>, d: int)
    requires entries != []
    ensures DayTotal(entries)(d)
         == (if entries[0].date == d then CalculateHours(entries[0]) else 0.0) + DayTotal(entries[1..])(d)
  {
    var e := entries[0];
    var head := if e.date == d then [e] else [];
    assert EntriesForDate(entries, d) == head + EntriesForDate(entries[1..], d);
    SumRealConcat(head, EntriesForDate(entries[1..], d), CalculateHours);
  }

  /** Over distinct dates the weekly total is the hours of the entries dated in
      the week, each counted once. */
  lemma {:induction false} WeeklyTotalIsSumOfWeek(entries: seq<TimeEntry>, weekDates: seq<int>)
    requires Distinct(weekDates)
    ensures WeeklyTotal(entries, weekDates) == SumReal(Filter(entries, InWeek(weekDates)), CalculateHours)
  {
    if entries == [] {
      SumRealZero(weekDates, DayTotal(entries));
    } else {
      var e, rest := entries[0], entries[1..];
      WeeklyTotalIsSumOfWeek(rest, weekDates);
      var own := (d: int) => if d == e.date then CalculateHours(e) else 0.0;
      forall i | 0 <= i < |weekDates| ensures DayTotal(entries)(weekDates[i]) == own(weekDates[i]) + DayTotal(rest)(weekDates[i]) {
        DayTotalCons(entries, weekDates[i]);
      }
      SumRealAdd(weekDates, own, DayTotal(rest), DayTotal(entries));
      SumOnDate(weekDates, e, own);
      var head := if e.date in weekDates then [e] else [];
      assert Filter(entries, InWeek(weekDates)) == head + Filter(rest, InWeek(weekDates));
      SumRealConcat(head, Filter(rest, InWeek(weekDates)), CalculateHours);
    }
  }

  lemma WeekDatesDistinct(d: int)
    ensures Distinct(WeekDates(d))
  {
  }

  /** The "per day" figure: the weekly total divided by five working days,
      whatever the number of days with entries. */
  function AveragePerDay(entries: seq<TimeEntry>, weekDates: seq<int>): (avg: real)
    ensures avg * 5.0 == WeeklyTotal(entries, weekDates)
  {
    WeeklyTotal(entries, weekDates) / 5.0
  }

  // ---------------------------------------------------------------------
  // Merged list
  // ---------------------------------------------------------------------

  function EntryDate(e: TimeEntry): int {
    e.date
  }

  /** `entries`: report rows and hand-made rows together, newest date first. */
  function Merged(reportEntries: seq<TimeEntry>, manualEntries: seq<TimeEntry>): seq<TimeEntry> {
    SortDesc(reportEntries + manualEntries, EntryDate)
  }

  /** The merged list is a permutation of both lists together, newest date
      first, with rows of the same date in their original order. */
  lemma MergedOrdered(reportEntries: seq<TimeEntry>, manualEntries: seq<TimeEntry>, d: int)
    ensures multiset(Merged(reportEntries, manualEntries)) == multiset(reportEntries) + multiset(manualEntries)
    ensures SortedDesc(Merged(reportEntries, manualEntries), EntryDate)
    ensures Filter(Merged(reportEntries, manualEntries), KeyIs(EntryDate, d))
         == Filter(reportEntries, KeyIs(EntryDate, d)) + Filter(manualEntries, KeyIs(EntryDate, d))
  {
    SortDescPermutes(reportEntries + manualEntries, EntryDate);
    SortDescSorted(reportEntries + manualEntries, EntryDate);
    SortDescStable(reportEntries + manualEntries, EntryDate, d);
    FilterConcat(reportEntries, manualEntries, KeyIs(EntryDate, d));
  }

  // ---------------------------------------------------------------------
  // Hand-made entries
  // ---------------------------------------------------------------------

  /** The add form: date, project and notes. */
  datatype NewEntry = NewEntry(date: int, projectId: string, notes: string)

  function SameId(id: string): TimeEntry -> bool {
    (e: TimeEntry) => e.id == id
  }

  predicate HasId(entries: seq<TimeEntry>, id: string) {
    exists i :: 0 <= i < |entries| && entries[i].id == id
  }

  /** The page state the handlers change. */
  class TimesheetState {
    var manualEntries: seq<TimeEntry>
    var newEntry: NewEntry
    var editingEntry: Option<TimeEntry>
    var showAddModal: bool

    constructor (today: int)
      ensures manualEntries == [] && newEntry == NewEntry(today, "", "")
      ensures editingEntry == None && !showAddModal
    {
      manualEntries := [];
      newEntry := NewEntry(today, "", "");
      editingEntry := None;
      showAddModal := false;
    }

    /** `handleAddEntry`: without a project nothing changes; otherwise one
        hand-made row is appended, named after the project or
        'Unbekanntes Projekt', and the form is reset. The row id (from the
        clock) and today's date are parameters. */
    method AddEntry(projects: seq<Project>, id: string, today: int)
      modifies this
      ensures old(newEntry.projectId) == "" ==>
                manualEntries == old(manualEntries) && newEntry == old(newEntry) && showAddModal == old(showAddModal)
      ensures old(newEntry.projectId) != "" ==>
                var name := if ProjectNameOf(projects, old(newEntry.projectId)) != "" then ProjectNameOf(projects, old(newEntry.projectId))
                            else "Unbekanntes Projekt";
                && manualEntries == old(manualEntries) + [TimeEntry(id, old(newEntry.date), old(newEntry.projectId), name,
                                                                    "", "", None, None, old(newEntry.notes), Manual)]
                && newEntry == NewEntry(today, "", "")
                && !showAddModal
      ensures editingEntry == old(editingEntry)
    {
      if newEntry.projectId == "" {
        return;
      }
      var name := ProjectNameOf(projects, newEntry.projectId);
      if name == "" {
        name := "Unbekanntes Projekt";
      }
      var entry := TimeEntry(id, newEntry.date, newEntry.projectId, name, "", "", None, None, newEntry.notes, Manual);
      manualEntries := manualEntries + [entry];
      showAddModal := false;
      newEntry := NewEntry(today, "", "");
    }

    /** `handleSaveEdit`: a row from a report is not editable and only closes the
        dialog; a hand-made row replaces every row with the same id. */
    method SaveEdit()
      modifies this
      ensures old(editingEntry).None? ==> manualEntries == old(manualEntries) && editingEntry == None
      ensures old(editingEntry).Some? && old(editingEntry).value.source != Manual ==>
                manualEntries == old(manualEntries)
      ensures old(editingEntry).Some? && old(editingEntry).value.source == Manual ==>
                var edited := old(editingEntry).value;
                manualEntries == ReplaceWhere(old(manualEntries), SameId(edited.id), edited)
      ensures editingEntry == None
      ensures newEntry == old(newEntry) && showAddModal == old(showAddModal)
    {
      if editingEntry.None? {
        return;
      }
      var edited := editingEntry.value;
      if edited.source != Manual {
        editingEntry := None;
        return;
      }
      manualEntries := ReplaceWhere(manualEntries, SameId(edited.id), edited);
      editingEntry := None;
    }

    /** `handleDeleteEntry`: an id without a hand-made row changes nothing;
        otherwise every row with that id is removed. */
    method DeleteEntry(id: string)
      modifies this
      ensures !HasId(old(manualEntries), id) ==> manualEntries == old(manualEntries)
      ensures HasId(old(manualEntries), id) ==> manualEntries == Filter(old(manualEntries), (e: TimeEntry) => e.id != id)
      ensures newEntry == old(newEntry) && editingEntry == old(editingEntry) && showAddModal == old(showAddModal)
    {
      var found := false;
      var i := 0;
      while i < |manualEntries| && !found
        invariant 0 <= i <= |manualEntries|
        invariant found <==> (i > 0 && manualEntries[i - 1].id == id)
        invariant !found ==> forall j :: 0 <= j < i ==> manualEntries[j].id != id
      {
        found := manualEntries[i].id == id;
        i := i + 1;
      }
      if !found {
        return;
      }
      manualEntries := Filter(manualEntries, (e: TimeEntry) => e.id != id);
    }
  }

  /** After a delete no row has that id, every other row is kept, and the order is unchanged. */
  lemma {:induction false} DeleteRemovesExactly(entries: seq<TimeEntry>, id: string)
    ensures var rest := Filter(entries, (e: TimeEntry) => e.id != id);
            && !HasId(rest, id)
            && IsSubsequence(rest, entries)
            && (forall i :: 0 <= i < |entries| && entries[i].id != id ==> entries[i] in rest)
  {
    var keep := (e: TimeEntry) => e.id != id;
    FilterMembers(entries, keep);
    FilterIsSubsequence(entries, keep);
  }

  /** A saved edit keeps the length and replaces exactly the rows with the edited id. */
  lemma SaveEditReplacesExactly(entries: seq<TimeEntry>, edited: TimeEntry)
    ensures var r := ReplaceWhere(entries, SameId(edited.id), edited);
            && |r| == |entries|
            && (forall i :: 0 <= i < |entries| && entries[i].id == edited.id ==> r[i] == edited)
            && (forall i :: 0 <= i < |entries| && entries[i].id != edited.id ==> r[i] == entries[i])
  {
  }
}

=== FILE: types.dfy ===
/** The records the front end and the backend exchange: projects, reports
    and users. Timestamps (`createdAt`) are milliseconds since the epoch,
    the value `new Date(createdAt).getTime()` yields for the ISO text the
    backend sends; optional fields are `Option`. */
module Types {
  import opened Wrappers

  datatype ProjectStatus = Active | Completed | Paused | Archived

  datatype Project = Project(
    id: string,
    name: string,
    address: string,
    customerName: string,
    status: ProjectStatus,
    createdAt: int,
    updatedAt: Option<int>,
    assignedWorkers: seq<string>,
    description: Option<string>,
    imageUrl: Option<string>,
    reportsCount: Option<int>)

  /** A site report. `projectName` is not declared in the front end's type but
      is sent by the backend and read by several pages. */
  datatype Report = Report(
    id: string,
    projectId: string,
    projectName: Option<string>,
    userId: string,
    userName: string,
    text: string,
    images: seq<string>,
    quickActions: Option<seq<string>>,
    createdAt: int,
    weather: Option<string>,
    workersPresent: Option<int>,
    startTime: Option<string>,
    endTime: Option<string>,
    breakMinutes: Option<int>)

  datatype UserRole = Admin | Worker

  datatype User = User(
    id: string,
    username: string,
    name: string,
    role: UserRole,
    assignedProjects: Option<seq<string>>,
    avatar: Option<string>)

  /** The tag vocabulary of the new-report form. */
  const QuickActions: seq<string> := [
    "Material geliefert",
    "Material fehlt",
    "Arbeiten abgeschlossen",
    "Wetter: Regen",
    "Wetter: Sonnig",
    "Verzögerung",
    "Inspektion",
    "Sicherheitsproblem"
  ]

  function CreatedAt(r: Report): int {
    r.createdAt
  }

  /** A signed-in user with the admin role. */
  predicate IsAdminUser(user: Option<User>) {
    user.Some? && user.value.role == Admin
  }

  /** `projects.find((p) => p.id === id)`: the first project with that id. */
  function FindProject(projects: seq<Project>, id: string): (r: Option<Project>)
    ensures r.Some? <==> exists i :: 0 <= i < |projects| && projects[i].id == id
    ensures r.Some? ==> r.value in projects && r.value.id == id
    ensures r.Some? ==> exists i :: 0 <= i < |projects| && projects[i] == r.value
                                   && forall j :: 0 <= j < i ==> projects[j].id != id
  {
    if projects == [] then None
    else if projects[0].id == id then Some(projects[0])
    else FindProject(projects[1..], id)
  }

  /** `projects.find(...)?.name`, where a missing project gives the empty (falsy) name. */
  function ProjectNameOf(projects: seq<Project>, id: string): string {
    match FindProject(projects, id)
    case Some(p) => p.name
    case None => ""
  }
}

=== FILE: ui_store.dfy ===
/** The UI store: sidebar and modal flags, the toast queue, the
    notification list and the user's settings, of which only the settings
    survive a reload. */
module UIStore {
  import opened Wrappers
  import opened Seqs
  import opened Notifications

  datatype ToastKind = Success | Error | Info | Warning

  datatype Toast = Toast(id: string, message: string, kind: ToastKind)

  datatype Language = German | English

  datatype ImageQuality = Low | Medium | High

  datatype Settings = Settings(
    darkMode: bool,
    notifications: bool,
    language: Language,
    autoSync: bool,
    imageQuality: ImageQuality)

  const DefaultSettings := Settings(false, true, German, true, High)

  /** The notifications a fresh store starts with. */
  const SampleNotifications: seq<Notification> := [
    Notification("notif-1", "Neuer Bericht",
                 "Max Huber hat einen Bericht für \"Einfamilienhaus Sonnenberg\" erstellt",
                 "vor 5 Min.", false, Some(AdminsOnly)),
    Notification("notif-2", "Projekt erstellt", "Projekt \"Dachsanierung Altbau\" wurde angelegt",
                 "vor 1 Std.", false, Some(Everyone))
  ]

  /** A partial settings object: `None` is a key not supplied. */
  datatype SettingsUpdate = SettingsUpdate(
    darkMode: Option<bool>,
    notifications: Option<bool>,
    language: Option<Language>,
    autoSync: Option<bool>,
    imageQuality: Option<ImageQuality>)

  /** `{ ...settings, ...updates }`. */
  function ApplyUpdate(s: Settings, u: SettingsUpdate): Settings {
    Settings(u.darkMode.GetOr(s.darkMode), u.notifications.GetOr(s.notifications),
             u.language.GetOr(s.language), u.autoSync.GetOr(s.autoSync),
             u.imageQuality.GetOr(s.imageQuality))
  }

  /** A supplied key takes its new value, every other key keeps the old one,
      and applying the same update twice is the same as once. */
  lemma ApplyUpdateOverridesSupplied(s: Settings, u: SettingsUpdate)
    ensures var r := ApplyUpdate(s, u);
            && (u.darkMode.Some? ==> r.darkMode == u.darkMode.value)
            && (u.darkMode.None? ==> r.darkMode == s.darkMode)
            && (u.notifications.Some? ==> r.notifications == u.notifications.value)
            && (u.notifications.None? ==> r.notifications == s.notifications)
            && (u.language.Some? ==> r.language == u.language.value)
            && (u.language.None? ==> r.language == s.language)
            && (u.autoSync.Some? ==> r.autoSync == u.autoSync.value)
            && (u.autoSync.None? ==> r.autoSync == s.autoSync)
            && (u.imageQuality.Some? ==> r.imageQuality == u.imageQuality.value)
            && (u.imageQuality.None? ==> r.imageQuality == s.imageQuality)
            && ApplyUpdate(r, u) == r
  {
  }

  /** An update that supplies no key changes nothing. */
  lemma EmptyUpdateKeeps(s: Settings)
    ensures ApplyUpdate(s, SettingsUpdate(None, None, None, None, None)) == s
  {
  }

  function OtherToast(id: string): Toast -> bool {
    (t: Toast) => t.id != id
  }

  /** Removing a toast takes out every toast with that id and keeps the others in order. */
  lemma RemoveToastExact(toasts: seq<Toast>, id: string)
    ensures var r := Filter(toasts, OtherToast(id));
            && (forall t :: t in r ==> t.id != id)
            && (forall t :: t in toasts && t.id != id ==> t in r)
            && IsSubsequence(r, toasts)
  {
    FilterMembers(toasts, OtherToast(id));
    FilterIsSubsequence(toasts, OtherToast(id));
  }

  /** The store. The modal's content is abstract text. */
  class Store {
    var isSidebarOpen: bool
    var isModalOpen: bool
    var modalContent: Option<string>
    var toasts: seq<Toast>
    var notifications: seq<Notification>
    var settings: Settings

    /** A store after a page load: everything at its initial value, with the
        two unread sample notifications, except the settings, which come back
        from storage when they were saved. */
    constructor (saved: Option<Settings>)
      ensures !isSidebarOpen && !isModalOpen && modalContent == None && toasts == []
      ensures notifications == SampleNotifications && UnreadCount(notifications) == 2
      ensures settings == saved.GetOr(DefaultSettings)
    {
      isSidebarOpen := false;
      isModalOpen := false;
      modalContent := None;
      toasts := [];
      notifications := SampleNotifications;
      assert UnreadCount(SampleNotifications[1..]) == 1;
      settings := saved.GetOr(DefaultSettings);
    }

    /** The part written to storage. */
    function Persisted(): Settings
      reads this
    {
      settings
    }

    method ToggleSidebar()
      modifies this
      ensures isSidebarOpen == !old(isSidebarOpen)
      ensures isModalOpen == old(isModalOpen) && modalContent == old(modalContent) && toasts == old(toasts)
      ensures notifications == old(notifications) && settings == old(settings)
    {
      isSidebarOpen := !isSidebarOpen;
    }

    method OpenModal(content: string)
      modifies this
      ensures isModalOpen && modalContent == Some(content)
      ensures isSidebarOpen == old(isSidebarOpen) && toasts == old(toasts)
      ensures notifications == old(notifications) && settings == old(settings)
    {
      isModalOpen := true;
      modalContent := Some(content);
    }

    method CloseModal()
      modifies this
      ensures !isModalOpen && modalContent == None
      ensures isSidebarOpen == old(isSidebarOpen) && toasts == old(toasts)
      ensures notifications == old(notifications) && settings == old(settings)
    {
      isModalOpen := false;
      modalContent := None;
    }

    /** `addToast`; the id (from the clock) is a parameter. Its removal after
        four seconds is `RemoveToast`. */
    method AddToast(id: string, message: string, kind: ToastKind)
      modifies this
      ensures toasts == old(toasts) + [Toast(id, message, kind)]
      ensures isSidebarOpen == old(isSidebarOpen) && isModalOpen == old(isModalOpen) && modalContent == old(modalContent)
      ensures notifications == old(notifications) && settings == old(settings)
    {
      toasts := toasts + [Toast(id, message, kind)];
    }

    method RemoveToast(id: string)
      modifies this
      ensures toasts == Filter(old(toasts), OtherToast(id))
      ensures isSidebarOpen == old(isSidebarOpen) && isModalOpen == old(isModalOpen) && modalContent == old(modalContent)
      ensures notifications == old(notifications) && settings == old(settings)
    {
      toasts := Filter(toasts, OtherToast(id));
    }

    /** `addNotification`: a new unread notification goes first, stamped 'gerade eben'. */
    method AddNotification(id: string, title: string, message: string, audience: Audience)
      modifies this
      ensures notifications == [Notification(id, title, message, "gerade eben", false, Some(audience))] + old(notifications)
      ensures UnreadCount(notifications) == UnreadCount(old(notifications)) + 1
      ensures isSidebarOpen == old(isSidebarOpen) && isModalOpen == old(isModalOpen) && modalContent == old(modalContent)
      ensures toasts == old(toasts) && settings == old(settings)
    {
      var added := Notification(id, title, message, "gerade eben", false, Some(audience));
      assert ([added] + notifications)[1..] == notifications;
      notifications := [added] + notifications;
    }

    method MarkNotificationRead(id: string)
      modifies this
      ensures notifications == MarkRead(old(notifications), id)
      ensures isSidebarOpen == old(isSidebarOpen) && isModalOpen == old(isModalOpen) && modalContent == old(modalContent)
      ensures toasts == old(toasts) && settings == old(settings)
    {
      notifications := MarkRead(notifications, id);
    }

    method MarkAllNotificationsRead()
      modifies this
      ensures notifications == MarkAllRead(old(notifications))
      ensures UnreadCount(notifications) == 0
      ensures isSidebarOpen == old(isSidebarOpen) && isModalOpen == old(isModalOpen) && modalContent == old(modalContent)
      ensures toasts == old(toasts) && settings == old(settings)
    {
      MarkAllReadExact(notifications);
      notifications := MarkAllRead(notifications);
    }

    method UpdateSettings(u: SettingsUpdate)
      modifies this
      ensures settings == ApplyUpdate(old(settings), u)
      ensures isSidebarOpen == old(isSidebarOpen) && isModalOpen == old(isModalOpen) && modalContent == old(modalContent)
      ensures toasts == old(toasts) && notifications == old(notifications)
    {
      settings := ApplyUpdate(settings, u);
    }

    /** `toggleDarkMode`, without the page styling it switches. */
    method ToggleDarkMode()
      modifies this
      ensures settings == old(settings).(darkMode := !old(settings).darkMode)
      ensures isSidebarOpen == old(isSidebarOpen) && isModalOpen == old(isModalOpen) && modalContent == old(modalContent)
      ensures toasts == old(toasts) && notifications == old(notifications)
    {
      var newDarkMode := !settings.darkMode;
      settings := settings.(darkMode := newDarkMode);
    }
  }
}

=== FILE: users_page.dfy ===
/** The user administration page: the search over the user list (admins
    listed first), adding, editing and deleting users, and assigning
    projects to a user. */
module UsersPage {
  import opened Wrappers
  import opened Seqs
  import opened Text
  import opened Types

  /** The shortest password the form accepts. */
  const MinPasswordLength := 6

  /** The search matches the name or the username, ignoring case. */
  predicate MatchesUser(u: User, search: string) {
    Contains(Lower(u.name), Lower(search)) || Contains(Lower(u.username), Lower(search))
  }

  function IsAdmin(u: User): bool { u.role == Admin }

  function IsWorker(u: User): bool { u.role == Worker }

  function Matching(search: string): User -> bool {
    (u: User) => MatchesUser(u, search)
  }

  /** `filteredUsers`: admins, then workers, each kept when the search matches. */
  function FilteredUsers(users: seq<User>, search: string): seq<User> {
    Filter(Filter(users, IsAdmin) + Filter(users, IsWorker), Matching(search))
  }

  /** The listed users are exactly the matching users, and no worker is listed before an admin. */
  lemma {:induction false} FilteredUsersExact(users: seq<User>, search: string)
    ensures var r := FilteredUsers(users, search);
            && (forall u :: u in r <==> u in users && MatchesUser(u, search))
            && (forall i, j :: 0 <= i < j < |r| && r[j].role == Admin ==> r[i].role == Admin)
  {
    var admins := Filter(users, IsAdmin);
    var workers := Filter(users, IsWorker);
    var m := Matching(search);
    FilterMembers(users, IsAdmin);
    FilterMembers(users, IsWorker);
    FilterMembers(admins + workers, m);
    FilterConcat(admins, workers, m);
    var a := Filter(admins, m);
    var w := Filter(workers, m);
    FilterMembers(admins, m);
    FilterMembers(workers, m);
    var r := FilteredUsers(users, search);
    assert r == a + w;
    forall u | u in users && MatchesUser(u, search) ensures u in r {
      if u.role == Admin {
        assert u in admins;
      } else {
        assert u in workers;
      }
    }
    forall i, j | 0 <= i < j < |r| && r[j].role == Admin ensures r[i].role == Admin {
      assert forall k :: 0 <= k < |w| ==> w[k].role == Worker;
      assert j < |a|;
      assert r[i] == a[i];
    }
  }

  /** `users.find(u => u.id === id)`. */
  function FindUser(users: seq<User>, id: string): (r: Option<User>)
    ensures r.Some? <==> exists i :: 0 <= i < |users| && users[i].id == id
    ensures r.Some? ==> r.value in users && r.value.id == id
    ensures r.Some? ==> exists i :: 0 <= i < |users| && users[i] == r.value
                                   && forall j :: 0 <= j < i ==> users[j].id != id
  {
    if users == [] then None
    else if users[0].id == id then Some(users[0])
    else FindUser(users[1..], id)
  }

  function AssignedTo(ids: seq<string>): Project -> bool {
    (p: Project) => p.id in ids
  }

  /** `getProjectsForUser`. */
  function ProjectsForUser(users: seq<User>, projects: seq<Project>, userId: string): seq<Project> {
    match FindUser(users, userId)
    case None => []
    case Some(u) =>
      match u.assignedProjects
      case None => []
      case Some(ids) => Filter(projects, AssignedTo(ids))
  }

  /** The listed projects keep the project order and are exactly those assigned
      to the first user with that id; there are none without such a user or
      without assignments. */
  lemma ProjectsForUserExact(users: seq<User>, projects: seq<Project>, userId: string)
    ensures var r := ProjectsForUser(users, projects, userId);
            var u := FindUser(users, userId);
            && IsSubsequence(r, projects)
            && (u.None? || u.value.assignedProjects.None? ==> r == [])
            && (u.Some? && u.value.assignedProjects.Some? ==>
                  forall p :: p in r <==> p in projects && p.id in u.value.assignedProjects.value)
  {
    var u := FindUser(users, userId);
    if u.Some? && u.value.assignedProjects.Some? {
      var ids := u.value.assignedProjects.value;
      FilterMembers(projects, AssignedTo(ids));
      FilterIsSubsequence(projects, AssignedTo(ids));
    }
  }

  /** The add-user form. */
  datatype NewUser = NewUser(name: string, username: string, role: UserRole, email: string, password: string)

  const EmptyNewUser := NewUser("", "", Worker, "", "")

  /** `handleAddUser`'s checks: every required field filled and a long enough password. */
  predicate AcceptsNewUser(n: NewUser) {
    n.name != "" && n.username != "" && n.password != "" && |n.password| >= MinPasswordLength
  }

  /** The avatar address derived from a username. */
  function AvatarFor(username: string): string {
    "https://api.dicebear.com/7.x/avataaars/svg?seed=" + username
  }

  /** `handleEditUser`'s check: an empty password keeps the old one; a new one must be long enough. */
  predicate AcceptsPassword(p: string) {
    p == "" || |p| >= MinPasswordLength
  }

  function SameUser(id: string): User -> bool {
    (u: User) => u.id == id
  }

  function OtherUser(id: string): User -> bool {
    (u: User) => u.id != id
  }

  /** The page's state. */
  class UsersState {
    var users: seq<User>
    var newUser: NewUser
    var editingUser: Option<User>
    var editPassword: string
    var selectedUser: Option<string>
    var showAddModal: bool
    var showEditModal: bool
    var showAssignModal: bool

    constructor (initial: seq<User>)
      ensures users == initial && newUser == EmptyNewUser && editingUser == None && editPassword == ""
      ensures selectedUser == None && !showAddModal && !showEditModal && !showAssignModal
    {
      users := initial;
      newUser := EmptyNewUser;
      editingUser := None;
      editPassword := "";
      selectedUser := None;
      showAddModal := false;
      showEditModal := false;
      showAssignModal := false;
    }

    /** `handleAddUser`: a form failing the checks changes nothing; otherwise one
        user with the next id, no projects and a generated avatar is appended
        and the form is reset. The id (from the clock) is a parameter. */
    method AddUser(id: string)
      modifies this
      ensures !AcceptsNewUser(old(newUser)) ==>
                users == old(users) && newUser == old(newUser) && showAddModal == old(showAddModal)
      ensures AcceptsNewUser(old(newUser)) ==>
                var n := old(newUser);
                && users == old(users) + [User(id, n.username, n.name, n.role, Some([]), Some(AvatarFor(n.username)))]
                && newUser == EmptyNewUser && !showAddModal
      ensures editingUser == old(editingUser) && editPassword == old(editPassword) && selectedUser == old(selectedUser)
      ensures showEditModal == old(showEditModal) && showAssignModal == old(showAssignModal)
    {
      if newUser.name == "" || newUser.username == "" || newUser.password == "" {
        return;
      }
      if |newUser.password| < MinPasswordLength {
        return;
      }
      var created := User(id, newUser.username, newUser.name, newUser.role, Some([]), Some(AvatarFor(newUser.username)));
      users := users + [created];
      showAddModal := false;
      newUser := EmptyNewUser;
    }

    /** `handleEditUser`: nothing happens without a user being edited or with a
        too-short new password; otherwise the edited user replaces every user
        with its id and the dialog closes. */
    method EditUser()
      modifies this
      ensures old(editingUser).None? || !AcceptsPassword(old(editPassword)) ==>
                users == old(users) && editingUser == old(editingUser) && editPassword == old(editPassword)
                && showEditModal == old(showEditModal)
      ensures old(editingUser).Some? && AcceptsPassword(old(editPassword)) ==>
                var edited := old(editingUser).value;
                && users == ReplaceWhere(old(users), SameUser(edited.id), edited)
                && editingUser == None && editPassword == "" && !showEditModal
      ensures newUser == old(newUser) && selectedUser == old(selectedUser)
      ensures showAddModal == old(showAddModal) && showAssignModal == old(showAssignModal)
    {
      if editingUser.None? {
        return;
      }
      if editPassword != "" && |editPassword| < MinPasswordLength {
        return;
      }
      var edited := editingUser.value;
      users := ReplaceWhere(users, SameUser(edited.id), edited);
      showEditModal := false;
      editingUser := None;
      editPassword := "";
    }

    /** `handleDeleteUser`: every user with the id leaves the list and the selection is cleared. */
    method DeleteUser(id: string)
      modifies this
      ensures users == Filter(old(users), OtherUser(id)) && selectedUser == None
      ensures newUser == old(newUser) && editingUser == old(editingUser) && editPassword == old(editPassword)
      ensures showAddModal == old(showAddModal) && showEditModal == old(showEditModal)
      ensures showAssignModal == old(showAssignModal)
    {
      users := Filter(users, OtherUser(id));
      selectedUser := None;
    }

    /** `handleToggleProject`: the project's membership in the edited user's
        assignments flips; a user without assignments starts from none. */
    method ToggleProject(projectId: string)
      modifies this
      ensures old(editingUser).None? ==> editingUser == None
      ensures old(editingUser).Some? ==>
                var u := old(editingUser).value;
                editingUser == Some(u.(assignedProjects := Some(Toggled(u.assignedProjects.GetOr([]), projectId))))
      ensures users == old(users) && newUser == old(newUser) && editPassword == old(editPassword)
      ensures selectedUser == old(selectedUser) && showAddModal == old(showAddModal)
      ensures showEditModal == old(showEditModal) && showAssignModal == old(showAssignModal)
    {
      if editingUser.None? {
        return;
      }
      var u := editingUser.value;
      var current := u.assignedProjects.GetOr([]);
      editingUser := Some(u.(assignedProjects := Some(Toggled(current, projectId))));
    }

    /** `handleSaveProjectAssignments`: the edited user replaces every user with its id. */
    method SaveProjectAssignments()
      modifies this
      ensures old(editingUser).None? ==> users == old(users) && showAssignModal == old(showAssignModal)
      ensures old(editingUser).Some? ==>
                var edited := old(editingUser).value;
                users == ReplaceWhere(old(users), SameUser(edited.id), edited) && !showAssignModal
      ensures editingUser == None
      ensures newUser == old(newUser) && editPassword == old(editPassword) && selectedUser == old(selectedUser)
      ensures showAddModal == old(showAddModal) && showEditModal == old(showEditModal)
    {
      if editingUser.None? {
        return;
      }
      var edited := editingUser.value;
      users := ReplaceWhere(users, SameUser(edited.id), edited);
      showAssignModal := false;
      editingUser := None;
    }
  }

  /** After a delete no user has the id, the others stay in their order. */
  lemma DeleteRemovesExactly(users: seq<User>, id: string)
    ensures var rest := Filter(users, OtherUser(id));
            && (forall u :: u in rest ==> u.id != id)
            && (forall u :: u in users && u.id != id ==> u in rest)
            && IsSubsequence(rest, users)
  {
    FilterMembers(users, OtherUser(id));
    FilterIsSubsequence(users, OtherUser(id));
  }

  /** A save keeps the list's length and changes only the users with the edited id. */
  lemma SaveReplacesOnlyThatUser(users: seq<User>, edited: User)
    ensures var r := ReplaceWhere(users, SameUser(edited.id), edited);
            && |r| == |users|
            && (forall i :: 0 <= i < |users| && users[i].id == edited.id ==> r[i] == edited)
            && (forall i :: 0 <= i < |users| && users[i].id != edited.id ==> r[i] == users[i])
  {
  }

  /** Toggling a project flips its assignment and leaves every other assignment as it was. */
  lemma ToggleProjectFlips(ids: seq<string>, projectId: string)
    ensures projectId in Toggled(ids, projectId) <==> projectId !in ids
    ensures forall id :: id != projectId ==> (id in Toggled(ids, projectId) <==> id in ids)
  {
    ToggleFlips(ids, projectId);
  }
}

=== FILE: wrappers.dfy ===
/** Optional values and results, used wherever the source has `null`,
    `undefined` or an error path. */
module Wrappers {

  datatype Option<+T> = None | Some(value: T) {
    /** The value, or `default` when absent (JavaScript's `x ?? default`). */
    function GetOr(default: T): T {
      match this
      case Some(v) => v
      case None => default
    }
  }

  datatype Result<+R, +E> = Ok(value: R) | Err(error: E)
}
